=== FILE: README.md ===
# Textenger core, modelled in Dafny

Textenger is a social and chat web app written in React and TypeScript. This project models the
parts of it that are self-contained logic rather than UI plumbing or backend calls:

- the seeded session shuffle of the feed: a 32-bit string hash, a linear congruential generator and
  a guarded reverse Fisher–Yates pass (`PostShuffle`, wired into the page by `Feed`);
- the last-seen tracker, a map from conversation id to the last message seen, written through to
  storage (`LastSeenManager`), and the scroll-resume policy of a chat view (`LastSeenScroll`);
- the account forms and the reel dialog (`FormRules`, `SignUpForm`, `SignInForm`, `EditProfile`,
  `CreateReel`);
- the navigation history of the app shell and its Android back-button rule (`Navigation`);
- the list updates of the notifications, comments, files and DM search (`Notifications`,
  `Comments`, `Files`, `Dms`);
- the index-bounded pagers and the like toggles of the clip, reel, story and post views
  (`PagerStep`, `ClipsPage`, `SnapPager`, `MobileClips`, `ReelsPage`, `Stories`, `Likes`,
  `PostCard`).

Every handler is one atomic state transition over immutable datatypes. Clocks, storage reads, the
outcome of a write or of a sign-in call, the container's height and `Math.random` become
parameters. `JsString` and `JsNumber` give the JavaScript built-ins the model relies on exact
meanings: `trim`, ASCII `toLowerCase`, `includes`, `ToInt32`, the truncating `%`, and the decimal
text of an integer.

The code and the design description disagree in one place, and the model follows the code. The
scroll-resume guard is not only cleared when the conversation or the visibility changes. The effect
that clears it also depends on `scrollToLastSeenMessage`, which is rebuilt whenever the message
list changes, so a new message list clears it too. `LastSeenScroll.OnOpen` is that effect, run on
any change of its inputs; the resolution it schedules is `LastSeenScroll.Resolve`, run when the
timer fires.

## Model

| member | source | states |
|---|---|---|
| PostShuffle.HashStep | src/components/utils/postShuffle.ts:31-33 | one character of the seed hash always leaves a signed 32-bit value |
| PostShuffle.HashStepIsPolynomial | src/components/utils/postShuffle.ts:32-33 | the shift-and-subtract step is `31 * hash + code` wrapped to 32 bits |
| PostShuffle.SeedHashIsPolynomial | src/components/utils/postShuffle.ts:29-34 | the seed hash is the polynomial hash of the seed's character codes, wrapped to 32 bits once at the end |
| PostShuffle.SeedHashFromIsPolynomial | src/components/utils/postShuffle.ts:30-34 | wrapping after every character gives the same value as wrapping once, by induction on the seed |
| PostShuffle.SeedHashLoop | src/components/utils/postShuffle.ts:29-34 | the character loop computes the seed hash |
| PostShuffle.NextState | src/components/utils/postShuffle.ts:37 | a generator step under either remainder rule stays strictly within ±233280 |
| PostShuffle.TruncatingStep | src/components/utils/postShuffle.ts:37 | JavaScript's step differs from `state * 9301 + 49297` by a multiple of 233280 and keeps that value's sign, so a negative value gives a negative state |
| PostShuffle.FlooredStep | src/components/utils/postShuffle.ts:37-38 | the floored step differs from `state * 9301 + 49297` by a multiple of 233280 and is never negative, so every draw of `random()` lies in [0, 1) |
| PostShuffle.DrawBounds | src/components/utils/postShuffle.ts:38-60 | the drawn index `floor(random() * (i + 1))` lies in [-(i + 1), i], and it is non-negative exactly when the generator state is |
| PostShuffle.GuardedSwap | src/components/utils/postShuffle.ts:62-64 | an in-range pair is swapped, every other position keeps its element, and an out-of-range index leaves the list alone |
| PostShuffle.GuardedSwapPermutes | src/components/utils/postShuffle.ts:62-64 | a guarded swap keeps the multiset of the list |
| PostShuffle.SwapAllPermutes | src/components/utils/postShuffle.ts:59-65 | whatever indices are drawn, the sequence of guarded swaps keeps the multiset of the list, by induction on the draws |
| PostShuffle.PassIsPermutation | src/components/utils/postShuffle.ts:59-65 | the whole guarded pass driven by the seeded generator keeps the multiset of the list |
| PostShuffle.ShufflePostsForUser | src/components/utils/postShuffle.ts:45-72 | the shuffle as written returns a permutation; an empty list gives `[]`, an empty seed the list in its order, and a single post itself |
| PostShuffle.ShufflePostsForUserLoop | src/components/utils/postShuffle.ts:55-67 | the imperative loop with its generator closure returns the same list as the functional definition, and a permutation |
| PostShuffle.PassLoop | src/components/utils/postShuffle.ts:59-65 | the `for` loop that draws once per step agrees with the recursive pass |
| PostShuffle.ShuffleArray | src/components/utils/postShuffle.ts:6-13 | the unseeded Fisher–Yates shuffle, with its draws supplied as input, returns a permutation, and lists of at most one item unchanged |
| PostShuffle.ShufflePostsIntended | src/components/utils/postShuffle.ts:45-72 | the shuffle with a floored generator step has the same guarantees as the one written |
| PostShuffle.NegativeStatesKeepOrder | src/components/utils/postShuffle.ts:37-64 | when every generator state is negative, every draw is negative, every swap is skipped, and the list keeps its order |
| PostShuffle.NegativeSeedLeavesFeedUnshuffled | src/components/utils/postShuffle.ts:29-65 | the seed "zzzzzz" hashes to -685785664 and leaves `[1, 2, 3]` unshuffled |
| PostShuffle.IntendedNeverSkips | src/components/utils/postShuffle.ts:60-64 | with the floored step every draw lies in [0, i], so the guard never skips a swap |
| JsNumber.ToInt32 | src/components/utils/postShuffle.ts:33 | `hash & hash` yields the signed 32-bit integer congruent to the hash modulo 2^32 |
| JsNumber.TruncRem | src/components/utils/postShuffle.ts:37 | JavaScript's `%` for a positive divisor: below the divisor in size, with the sign of the dividend |
| JsNumber.IntToStringInjective | src/components/hooks/useLastSeenScroll.ts:52-54 | distinct integers have distinct `toString` text |
| JsString.Trim | src/components/modals/SignUpModal.tsx:41 | no white space remains at either end of what `trim` returns |
| JsString.TrimIsSlice | src/components/modals/SignUpModal.tsx:41 | `trim` returns the slice of its input left after cutting only white space from both ends |
| JsString.TrimEmptyIffAllWhitespace | src/components/modals/CommentsModal.tsx:57 | a string trims to empty exactly when it is all white space |
| JsString.TrimIdempotent | src/components/EditProfileModal.tsx:48 | trimming twice is trimming once |
| JsString.ToLowerPointwise | src/components/EditProfileModal.tsx:119 | lowering maps every character through the ASCII lower-case rule and leaves no upper-case letter |
| JsString.ToLowerIdempotent | src/components/pages/DMsPage.tsx:292-293 | lowering twice is lowering once |
| JsString.TrimToLower | src/components/EditProfileModal.tsx:119 | trimming and lowering commute |
| JsString.Includes | src/components/pages/DMsPage.tsx:292-293 | `includes` is true exactly when the needle occurs at some position of the text |
| LastSeenManager.Load | src/components/utils/lastSeenManager.ts:18-39 | the manager starts with the parsed map, or an empty one when storage holds nothing or text that does not parse |
| LastSeenManager.Save | src/components/utils/lastSeenManager.ts:41-47 | a successful write makes storage equal the map; a failed one keeps the old stored copy |
| LastSeenManager.Get | src/components/utils/lastSeenManager.ts:68-70 | a lookup returns the record exactly when the conversation has one |
| LastSeenManager.Update | src/components/utils/lastSeenManager.ts:52-63 | after an update the conversation's record holds the message, the time and the user; no other record changes |
| LastSeenManager.Remove | src/components/utils/lastSeenManager.ts:75-78 | after a removal the lookup is null and every other record is unchanged |
| LastSeenManager.ClearAll | src/components/utils/lastSeenManager.ts:83-86 | after clearing, every lookup is null |
| LastSeenManager.GetAll | src/components/utils/lastSeenManager.ts:91-93 | the copy has the same conversations and the same records as the map |
| LastSeenManager.IsMessageNew | src/components/utils/lastSeenManager.ts:98-121 | with no record every message is new; otherwise both timestamps decide, then both numeric ids, then the message timestamp alone, and otherwise the message is not new |
| LastSeenManager.MarkConversationAsRead | src/components/utils/lastSeenManager.ts:126-128 | marking read records the latest message with no user and leaves the other records alone |
| LastSeenManager.MarkReadIsUpdateWithoutUser | src/components/utils/lastSeenManager.ts:126-128 | marking read is exactly an update with no user id |
| LastSeenManager.NewAfterReadById | src/components/utils/lastSeenManager.ts:115-128 | after reading up to numeric id k, a message without a timestamp is new exactly when its numeric id exceeds k |
| LastSeenManager.NewAfterReadByTime | src/components/utils/lastSeenManager.ts:110-128 | after reading at a non-zero time, a timestamped message is new exactly when it is later |
| LastSeenManager.RunEndsPersisted | src/components/utils/lastSeenManager.ts:41-85 | whatever mutations ran, if the last write succeeded then storage equals the map and a fresh load recovers it |
| LastSeenManager.FailedWritesKeepStored | src/components/utils/lastSeenManager.ts:44-46 | while every write fails, storage keeps the copy it had |
| LastSeenScroll.FindMessage | src/components/hooks/useLastSeenScroll.ts:52-54 | the search finds the first message whose id text equals the stored id's text, or reports that none does |
| LastSeenScroll.ResumeAt | src/components/hooks/useLastSeenScroll.ts:56-74 | a stored id that matches no message sends the room to the bottom; the first matching message is scrolled to 100 pixels below the top when its element is rendered, and nothing moves when it is not |
| LastSeenScroll.Resolve | src/components/hooks/useLastSeenScroll.ts:29-77 | with no container, no messages or the guard set nothing happens; otherwise a DM or a room with no record goes to the bottom, a room with a record resumes, and the guard is set |
| LastSeenScroll.ResolveIsOneShot | src/components/hooks/useLastSeenScroll.ts:30-76 | a second resolution after the first does nothing, whatever record is stored by then |
| LastSeenScroll.DmIgnoresRecord | src/components/hooks/useLastSeenScroll.ts:35-39 | a DM resolves the same way whatever record is stored |
| LastSeenScroll.NumericIdsMatchByValue | src/components/hooks/useLastSeenScroll.ts:52-54 | comparing ids by their text matches two numbers exactly when they are equal |
| LastSeenScroll.RoomResumesAtRecordedMessage | src/components/hooks/useLastSeenScroll.ts:52-76 | a room whose recorded message is the first match and is rendered scrolls to that element's offset minus 100 and sets the guard |
| LastSeenScroll.LastVisible | src/components/hooks/useLastSeenScroll.ts:93-102 | the selector returns the highest index whose rectangle strictly overlaps the container, or -1 |
| LastSeenScroll.LastVisibleLoop | src/components/hooks/useLastSeenScroll.ts:93-102 | the `forEach` loop computes the same index as the selector |
| LastSeenScroll.LastVisibleUnique | src/components/hooks/useLastSeenScroll.ts:93-102 | any index meeting the selector's description is the selector's result |
| LastSeenScroll.HandleScroll | src/components/hooks/useLastSeenScroll.ts:80-109 | without a container or visibility nothing changes; otherwise the last visible child's message is recorded, if it has one |
| LastSeenScroll.ScrollRecordsLastVisible | src/components/hooks/useLastSeenScroll.ts:95-108 | whenever a scroll records something, the recorded message's element overlaps the container and no later element does |
| LastSeenScroll.MarkAsRead | src/components/hooks/useLastSeenScroll.ts:181-191 | with messages, the latest is recorded and the view goes to the bottom when the container exists; with none, nothing happens |
| LastSeenScroll.OnOpen | src/components/hooks/useLastSeenScroll.ts:158-166 | a visible chat with messages clears the guard and schedules a resolution; otherwise nothing is scheduled and the guard is kept |
| LastSeenScroll.ReopenResolvesAgain | src/components/hooks/useLastSeenScroll.ts:158-166 | reopening a chat schedules a resolution that, when its timer fires, resolves again even after an earlier resolution, and a DM lands at the bottom |
| FormRules.UsernameTextIsTrimmed | src/components/modals/SignUpModal.tsx:41-47 | a name matching `[A-Za-z0-9_]+` is its own trim and is not blank |
| FormRules.UsernameTextToLower | src/components/EditProfileModal.tsx:119 | lowering a valid username keeps it valid |
| FormRules.EmailPatternIffShape | src/components/modals/SignUpModal.tsx:59 | the e-mail pattern accepts exactly the text with no white space, one `@` that is not first, and a dot strictly inside the domain |
| FormRules.EmailPatternNotBlank | src/components/modals/SignUpModal.tsx:57-61 | an address the pattern accepts is never blank, so the blank check is the only one that reports a blank address |
| FormRules.EmailExamples | src/components/modals/SignUpModal.tsx:59 | the pattern accepts "a@b.c" and "a@b.c." and rejects "a@.c" and "a@b@c.d" |
| SignUpForm.UsernameError | src/components/modals/SignUpModal.tsx:41-47 | the username passes exactly when its raw text has at least 3 characters from `[A-Za-z0-9_]`; the "required" message appears exactly for blank text |
| SignUpForm.DisplayNameError | src/components/modals/SignUpModal.tsx:50-54 | the display name passes exactly when it is not blank and its raw text has at least 2 characters |
| SignUpForm.EmailError | src/components/modals/SignUpModal.tsx:57-61 | the e-mail passes exactly when the pattern accepts it |
| SignUpForm.PasswordError | src/components/modals/SignUpModal.tsx:64-68 | the untrimmed password passes exactly when it has at least 8 characters |
| SignUpForm.ConfirmError | src/components/modals/SignUpModal.tsx:71-75 | the confirmation passes exactly when it is non-empty and equal to the password |
| SignUpForm.TermsError | src/components/modals/SignUpModal.tsx:78-80 | the terms pass exactly when accepted |
| SignUpForm.Validate | src/components/modals/SignUpModal.tsx:37-84 | the error map holds exactly the failing fields, each with its rule's message |
| SignUpForm.ValidateIffAcceptable | src/components/modals/SignUpModal.tsx:83 | the map is empty exactly when every field meets its requirement |
| SignUpForm.Submit | src/components/modals/SignUpModal.tsx:86-106 | `onSignUp` is scheduled exactly for acceptable forms, with the raw fields captured at submit |
| SignUpForm.Complete | src/components/modals/SignUpModal.tsx:96-105 | the timer of a submit that scheduled a sign-up hands `onSignUp` that data, stops loading and asks the modal to close; without one nothing fires |
| SignUpForm.SubmitThenComplete | src/components/modals/SignUpModal.tsx:86-106 | submitting and waiting signs up exactly the acceptable forms, with their raw fields, and ends with loading stopped and the modal closing |
| SignUpForm.SignUpDataPassesRules | src/components/modals/SignUpModal.tsx:89-102 | what `onSignUp` receives has a non-blank username and e-mail and a password of at least 8 characters |
| SignUpForm.HandleInputChange | src/components/modals/SignUpModal.tsx:108-114 | an edit writes its field and blanks that field's message only |
| SignUpForm.EditIsLocal | src/components/modals/SignUpModal.tsx:37-109 | an edit changes no other field's verdict, except a password edit on the confirmation |
| SignUpForm.PasswordEditBreaksConfirmation | src/components/modals/SignUpModal.tsx:73 | changing only the password turns a matching confirmation into a mismatch |
| SignUpForm.BlankFormFailsEverywhere | src/components/modals/SignUpModal.tsx:37-84 | any form with blank text fields, an empty password and confirmation and the terms unticked fails all six rules, its username as blank |
| SignUpForm.EmptyFormFailsEverywhere | src/components/modals/SignUpModal.tsx:23-84 | the empty form fails every rule, its username as blank |
| SignInForm.IdentifierError | src/components/modals/SignInModal.tsx:43-45 | the e-mail-or-username passes exactly when it is not blank |
| SignInForm.PasswordError | src/components/modals/SignInModal.tsx:48-52 | the password passes exactly when it has at least 6 characters |
| SignInForm.Validate | src/components/modals/SignInModal.tsx:39-56 | the error map holds exactly the failing fields, with their messages |
| SignInForm.ValidateIffAcceptable | src/components/modals/SignInModal.tsx:54-55 | the map is empty exactly when the identifier is not blank and the password is long enough |
| SignInForm.Submit | src/components/modals/SignInModal.tsx:58-78 | an invalid form only shows its errors; a valid one calls `onSignIn`, then closes and resets on success, or shows one password error on failure |
| SignInForm.HandleInputChange | src/components/modals/SignInModal.tsx:24-37 | an edit writes its field and blanks that field's message only |
| SignInForm.HandleClose | src/components/modals/SignInModal.tsx:80-85 | closing restores the empty form, no errors and no loading |
| SignInForm.RetypingClearsFailure | src/components/modals/SignInModal.tsx:31-74 | after a failed sign-in, typing a password removes the message from the screen |
| SignInForm.RetryAfterFailure | src/components/modals/SignInModal.tsx:61-85 | a failure followed by a successful resubmit ends closed and fully reset |
| EditProfile.Open | src/components/EditProfileModal.tsx:22-26 | the dialog opens on the user's profile, not saving |
| EditProfile.ChangeUsername | src/components/EditProfileModal.tsx:119 | typed usernames are stored lowered, with no upper-case letter |
| EditProfile.ChangeDisplayName | src/components/EditProfileModal.tsx:99 | typed display names are stored as typed |
| EditProfile.SavePayload | src/components/EditProfileModal.tsx:33-37 | `onSave` receives the trimmed username and display name and the avatar unchanged; from a valid form the names pass the rules |
| EditProfile.SavePayloadIsTrimmed | src/components/EditProfileModal.tsx:33-37 | the saved names are already trimmed: trimming them again changes nothing |
| EditProfile.ClickSave | src/components/EditProfileModal.tsx:28-41 | a disabled button does nothing; otherwise saving starts with the payload captured at the click |
| EditProfile.FinishSave | src/components/EditProfileModal.tsx:32-40 | the save timer hands `onSave` the captured payload, stops saving, keeps the fields and asks the dialog to close |
| EditProfile.ClickThenFinish | src/components/EditProfileModal.tsx:28-41 | clicking an enabled save and waiting delivers the trimmed payload and returns the dialog to exactly its state before the click |
| EditProfile.SavedProfileReopensValid | src/components/EditProfileModal.tsx:33-50 | a saved profile passes the dialog's rules again when reopened |
| EditProfile.UsernameValidityIgnoresCase | src/components/EditProfileModal.tsx:48 | lowering a username never changes whether it is valid |
| EditProfile.SignUpUsernameIsValid | src/components/EditProfileModal.tsx:48 | every username sign-up accepts is valid here |
| EditProfile.PaddedUsername | src/components/EditProfileModal.tsx:48 | the two forms measure different text: a username of three or more word characters with a space on each side is valid here, where it is trimmed, and refused by sign-up, where the space counts |
| EditProfile.PaddedDisplayName | src/components/EditProfileModal.tsx:49 | a space followed by one visible character is too short here, where it is trimmed to one character, and passes sign-up, where the raw text has two |
| CreateReel.ZeroFramePassesAsWritten | src/components/modals/CreateReelModal.tsx:33-45 | as written, 0 x 0 metadata passes the 9:16 test, which the corrected test rejects |
| CreateReel.AspectTestsAgreeElsewhere | src/components/modals/CreateReelModal.tsx:33-37 | the written and the corrected tests differ on the 0 x 0 frame only |
| CreateReel.AcceptedFrameIsPortrait | src/components/modals/CreateReelModal.tsx:33-37 | an accepted frame is strictly taller than wide and at least 37 percent as wide as tall |
| CreateReel.AspectExamples | src/components/modals/CreateReelModal.tsx:33-37 | 1080x1920 and 720x1280 pass; 1920x1080 and square frames fail |
| CreateReel.SelectVideo | src/components/modals/CreateReelModal.tsx:25-50 | under the source's aspect test or the corrected one, a non-video file or a rejected frame changes nothing, and an accepted one is selected with its preview |
| CreateReel.ZeroFrameSelectedAsWritten | src/components/modals/CreateReelModal.tsx:25-50 | as written, any `video/` file with 0 x 0 metadata is selected; the corrected dialog leaves it unselected |
| CreateReel.Submit | src/components/modals/CreateReelModal.tsx:72-88 | without a video or with a blank caption nothing happens; otherwise the upload starts with the file name, the caption and a non-empty sound |
| CreateReel.Close | src/components/modals/CreateReelModal.tsx:90-97 | closing resets every field |
| CreateReel.FinishUpload | src/components/modals/CreateReelModal.tsx:85-86 | a finished upload leaves the dialog closed and reset |
| CreateReel.EnabledSubmitUploads | src/components/modals/CreateReelModal.tsx:73 | an enabled button always uploads and is disabled afterwards; a submit that does nothing had a disabled button |
| CreateReel.SoundDefault | src/components/modals/CreateReelModal.tsx:82 | the upload's sound is "Original Audio" exactly when the field was empty or already said so |
| Navigation.Init | src/App.tsx:23-25 | the shell starts on the feed with history `[feed]`, a valid state |
| Navigation.PageChange | src/App.tsx:53-62 | the page becomes current and is appended unless the history already ends with it |
| Navigation.NavigateBack | src/App.tsx:65-72 | the page becomes current and the last entry is dropped, with `[feed]` replacing an empty history |
| Navigation.OnBack | src/components/hooks/useAndroidBackButton.ts:21-44 | off mobile a back press is ignored; on the feed it exits; otherwise it goes to the second-to-last entry, or to the feed |
| Navigation.PressBack | src/components/hooks/useAndroidBackButton.ts:36-43 | only a navigation decision changes the state, through the shell's back handler |
| Navigation.PageChangePreservesValid | src/App.tsx:53-62 | a page change keeps the history non-empty, free of adjacent repeats, and ending with the current page |
| Navigation.PressBackPreservesValid | src/App.tsx:65-72 | a back press keeps the same three invariants |
| Navigation.ReachableIsValid | src/App.tsx:53-72 | every state reachable from a valid one by page changes and back presses is valid |
| Navigation.BackUndoesPageChange | src/components/hooks/useAndroidBackButton.ts:36-39 | on mobile, back right after opening a page other than the feed returns to the previous state |
| Navigation.BackOnFeedExits | src/components/hooks/useAndroidBackButton.ts:30-33 | opening the feed and pressing back exits, whatever history remains |
| Navigation.CheckAuth | src/App.tsx:34-50 | a stored user authenticates, no stored value leads to the auth screen, and unparsable text leaves the app loading |
| Navigation.HandleAuthenticated | src/App.tsx:75-83 | signing in always ends authenticated with the new user |
| Navigation.CheckAuthLeavesLoading | src/App.tsx:39-46 | the start-up check leaves the loading state exactly when the stored value is absent or parses |
| Notifications.UnreadCount | src/components/modals/NotificationsModal.tsx:91 | the count is zero exactly when all are read, and equals the length exactly when none is |
| Notifications.MarkAllAsRead | src/components/modals/NotificationsModal.tsx:81-83 | every entry becomes read, with length, order and other fields kept |
| Notifications.MarkAsRead | src/components/modals/NotificationsModal.tsx:85-89 | only entries with the id become read |
| Notifications.Click | src/components/modals/NotificationsModal.tsx:142 | a click marks an unread entry read and does nothing on a read one |
| Notifications.InitialCounts | src/components/modals/NotificationsModal.tsx:14-67 | the modal opens with two unread entries and the "mark all" button shown |
| Notifications.MarkAllClears | src/components/modals/NotificationsModal.tsx:81-114 | after marking all, nothing is unread, the button is hidden, and marking again changes nothing |
| Notifications.MarkAsReadIdempotent | src/components/modals/NotificationsModal.tsx:85-89 | marking the same id twice is marking it once |
| Notifications.MarkAsReadLowersCount | src/components/modals/NotificationsModal.tsx:85-91 | marking never raises the unread count, and lowers it when an entry with the id was unread |
| Notifications.ClickLowersCount | src/components/modals/NotificationsModal.tsx:142 | clicking an unread entry lowers the count; clicking a read one changes nothing |
| Comments.InitialIdsSequential | src/components/modals/CommentsModal.tsx:24-50 | the sample comments have ids 1..3 in order |
| Comments.SetInput | src/components/modals/CommentsModal.tsx:53 | typing replaces the input and keeps the comments |
| Comments.AddComment | src/components/modals/CommentsModal.tsx:56-73 | blank input changes nothing; otherwise one comment with the trimmed text, no likes and id `length + 1` is appended, the input is cleared, and ids stay 1..n |
| Comments.LikeComment | src/components/modals/CommentsModal.tsx:75-86 | comments with the id have their like toggled; the others, the order and the ids are kept |
| Comments.LikeChangesOneComment | src/components/modals/CommentsModal.tsx:77-83 | with ids 1..n, liking id k + 1 flips comment k, moves its count by one in the new flag's direction, and leaves the others alone |
| Comments.LikeTwiceRestores | src/components/modals/CommentsModal.tsx:75-86 | liking the same id twice restores the list |
| Comments.UnknownIdChangesNothing | src/components/modals/CommentsModal.tsx:75-86 | an id outside 1..n changes nothing |
| Comments.ReplayKeepsIds | src/components/modals/CommentsModal.tsx:56-86 | whatever the user types, adds or likes, the ids stay exactly 1..n |
| Files.OfKind | src/components/pages/FilesPage.tsx:149 | every kept file has the chosen type |
| Files.FilterByType | src/components/pages/FilesPage.tsx:147-150 | "all" returns the list; any other filter returns the files of that type |
| Files.OfKindMembership | src/components/pages/FilesPage.tsx:149 | a file is shown exactly when it is listed and has the chosen type |
| Files.OfKindAppend | src/components/pages/FilesPage.tsx:149 | filtering distributes over concatenation, so the original order is kept |
| Files.FilterIdempotent | src/components/pages/FilesPage.tsx:147-150 | filtering again by the same filter changes nothing |
| Files.Buttons | src/components/pages/FilesPage.tsx:155-162 | each button's count equals the number of files its filter shows |
| Files.KnownCountsAddUp | src/components/pages/FilesPage.tsx:155-162 | when every file has a known type, the five type counts add up to the "all" count |
| Files.SampleCounts | src/components/pages/FilesPage.tsx:155-162 | the sample files give the counts 6, 1, 1, 2, 1 and 1 |
| Files.IconFor | src/components/pages/FilesPage.tsx:68-83 | the icon lookup is total and gives the generic icon exactly for unknown types |
| Files.ColorFor | src/components/pages/FilesPage.tsx:85-100 | the colour lookup is total and gives grey exactly for unknown types |
| Files.IconAndColorAgree | src/components/pages/FilesPage.tsx:68-100 | two types share an icon exactly when they share a colour |
| Stories.StoryClick | src/components/pages/StoriesPage.tsx:172-174 | a click opens the story clicked, inside the list |
| Stories.Next | src/components/pages/StoriesPage.tsx:176-180 | next moves one story forward unless the viewer is closed or on the last story, and keeps the index in range |
| Stories.Previous | src/components/pages/StoriesPage.tsx:182-186 | previous moves one story back unless the viewer is closed or on the first story, and keeps the index in range |
| Stories.Close | src/components/pages/StoriesPage.tsx:188-190 | closing clears the index |
| Stories.ProgressBars | src/components/pages/StoriesPage.tsx:111 | bar k is filled exactly when k is at most the open story's index |
| Stories.DisabledMeansNoOp | src/components/pages/StoriesPage.tsx:141-186 | a disabled control is exactly one whose handler would do nothing |
| Stories.NextThenPrevious | src/components/pages/StoriesPage.tsx:176-186 | next then previous, away from the last story, returns to the same story |
| Stories.FilledBarsCount | src/components/pages/StoriesPage.tsx:111 | the number of filled bars is the open story's position plus one |
| PagerStep.Stepped | src/components/pages/ClipsPage.tsx:353-362 | one event moves the index by at most one, up exactly on a positive delta below the last item, down exactly on a negative delta above the first, and keeps it in range |
| PagerStep.SteppedAllInRange | src/components/pages/ClipsPage.tsx:353-362 | however many events arrive, the index stays on an existing item |
| PagerStep.ForwardStepsClamp | src/components/pages/ClipsPage.tsx:356-358 | k forward events from item i reach item i + k, or stop at the last item |
| ClipsPage.ScrollToClip | src/components/pages/ClipsPage.tsx:324-346 | with a container the lock is set and `index * height` is requested; without one nothing happens |
| ClipsPage.Move | src/components/pages/ClipsPage.tsx:364-367 | a changed index is stored and scrolled to; an unchanged one does nothing |
| ClipsPage.Wheel | src/components/pages/ClipsPage.tsx:348-368 | ignored while locked; otherwise one step, in range |
| ClipsPage.TouchEnd | src/components/pages/ClipsPage.tsx:378-402 | ignored while locked, after more than 300 ms, or under 50 pixels; otherwise the wheel's step |
| ClipsPage.ScrollSettled | src/components/pages/ClipsPage.tsx:343-345 | the timeout releases the lock and keeps the index |
| ClipsPage.SwipeThresholdsInclusive | src/components/pages/ClipsPage.tsx:386 | exactly 300 ms and exactly 50 pixels still count as a swipe |
| ClipsPage.LockBlocksUntilSettled | src/components/pages/ClipsPage.tsx:331-379 | after a move the next wheel or swipe is ignored until the lock is released |
| ClipsPage.NoContainerMovesWithoutLock | src/components/pages/ClipsPage.tsx:324-366 | without a mounted container the index still moves but no lock is set |
| SnapPager.ScrollToIndex | src/components/ReelsExplore.tsx:237-255 | a no-op without a container or while scrolling; otherwise the index, the target and the lock are set together |
| SnapPager.Wheel | src/components/ReelsExplore.tsx:262-274 | ignored while scrolling; otherwise one step in range, and a move scrolls and locks |
| SnapPager.Swipe | src/components/ReelsExplore.tsx:296-314 | ignored while scrolling and unless the swipe exceeds 50 pixels; otherwise one step in range |
| SnapPager.ScrollSettled | src/components/ReelsExplore.tsx:252-254 | the timeout releases the lock and keeps the index |
| SnapPager.FiftyPixelsDiffer | src/components/ReelsExplore.tsx:305 | a 50-pixel swipe moves the desktop clips pager but not the snap pager |
| SnapPager.SecondEventRefused | src/components/ReelsExplore.tsx:238-297 | of two quick events, the second is refused while the first scroll is in flight |
| MobileClips.HandleLike | src/components/mobile/MobileClipsPage.tsx:87-99 | no request without a user; otherwise unlike exactly when the reported flag is set |
| MobileClips.RequestFollowsNewState | src/components/mobile/MobileClipsPage.tsx:87-95 | the request matches the card's new state, because the card reports the old flag |
| MobileClips.FiftyPixelSwipeIgnored | src/components/mobile/MobileClipsPage.tsx:70-85 | a swipe of exactly 50 pixels, in either direction, does nothing |
| ReelsPage.RoundedIndex | src/components/pages/ReelsPage.tsx:269 | the rounded index is the nearest whole index, halves going up, and is absent exactly for a zero height |
| ReelsPage.RoundedIndexUnique | src/components/pages/ReelsPage.tsx:269 | any index within half a height of the offset is the rounded one |
| ReelsPage.SnappedOffsetGivesIndex | src/components/pages/ReelsPage.tsx:269 | an offset of k heights reports reel k |
| ReelsPage.HandleScroll | src/components/pages/ReelsPage.tsx:265-274 | the index changes only to a rounded index that differs and names a reel, and stays in range |
| ReelsPage.OverscrollKeepsReel | src/components/pages/ReelsPage.tsx:271 | a scroll past the end keeps the current reel |
| ReelsPage.ActiveFlags | src/components/pages/ReelsPage.tsx:302 | reel k is active exactly when k is the current index |
| ReelsPage.AtMostOneActive | src/components/pages/ReelsPage.tsx:302 | two active reels are the same reel |
| ReelsPage.Like | src/components/pages/ReelsPage.tsx:138-141 | the like toggles and the follow state is kept |
| ReelsPage.Follow | src/components/pages/ReelsPage.tsx:143-145 | the follow state flips and the like is kept |
| ReelsPage.FollowHidesButton | src/components/pages/ReelsPage.tsx:143-194 | pressing Follow hides the button, and following twice restores the card |
| Likes.Toggle | src/components/pages/ClipsPage.tsx:178-181 | the flag flips; unliking removes one like and liking adds one |
| Likes.ToggleByNewFlag | src/components/clips/ClipCard.tsx:112-115 | the toggle written from the new flag: liked gains one, unliked loses one |
| Likes.TogglesAgree | src/components/clips/ClipCard.tsx:112-115 | the toggles written from the old and from the new flag agree |
| Likes.ToggleTwiceRestores | src/components/ReelsExplore.tsx:126-130 | toggling twice restores the card |
| Likes.ToggleMovesByOne | src/components/ReelsExplore.tsx:126-129 | the count moves by exactly one in the direction of the new flag |
| Likes.ToggleReporting | src/components/clips/ClipCard.tsx:112-117 | the callback receives the flag from before the toggle |
| Likes.InitialState | src/components/clips/ClipCard.tsx:28-31 | the card starts liked exactly when some like is the current user's, with the number of likes, or 0 without a list |
| Likes.InitialUnlikeCountsOthers | src/components/clips/ClipCard.tsx:28-31 | unliking as one of the likers leaves the count of the others' likes |
| Likes.TapDecision | src/components/clips/ClipCard.tsx:52-56 | a tap is a double tap exactly when it comes 1 to 299 ms after the previous one |
| Likes.Tap | src/components/pages/ClipsPage.tsx:118-138 | a double tap toggles the like, any other tap toggles playback, and the tap time is remembered |
| Likes.DoubleTapLikes | src/components/clips/ClipCard.tsx:52-71 | of two taps 100 ms apart, the first toggles playback and the second likes |
| Likes.SameInstantIsNotDoubleTap | src/components/clips/ClipCard.tsx:56 | a second tap at the same instant is not a double tap |
| PostCard.Initial | src/components/feed/PostCard.tsx:25-28 | the card starts liked exactly when the user is among the likers, with the number of likes or 0 |
| PostCard.HandleLike | src/components/feed/PostCard.tsx:30-35 | the flag flips, the count moves by one toward it, and `onLike` receives the old flag |
| PostCard.TimeAgo | src/components/feed/PostCard.tsx:37-47 | under an hour, future included, is "now"; whole hours below 24 and whole days below 7 are labelled; older posts get the date |
| PostCard.Label | src/components/feed/PostCard.tsx:42-46 | every bucket but the date has a text label |
| PostCard.LabelInjective | src/components/feed/PostCard.tsx:42-45 | different buckets never share a label |
| PostCard.TimeAgoMonotone | src/components/feed/PostCard.tsx:40-46 | an older post never gets a fresher bucket |
| PostCard.TimeAgoExamples | src/components/feed/PostCard.tsx:40-46 | -5 ms is "now", 3 h 59 ms is "3h", 23 h is "23h", 24 h is "1d", and 7 days is the date |
| Feed.InitialSeed | src/components/pages/FeedPage.tsx:235-254 | the seed is always non-empty: the session seed, or "fallback-" or "error-fallback-" followed by the time |
| Feed.KeepTruthy | src/components/pages/FeedPage.tsx:262 | every kept post has a truthy id |
| Feed.KeepTruthyMembership | src/components/pages/FeedPage.tsx:262-284 | a post is kept exactly when it is listed and its id is truthy |
| Feed.KeepTruthyOfTruthy | src/components/pages/FeedPage.tsx:284 | when every id is truthy the filter keeps the list as it is |
| Feed.TabListIsPermutation | src/components/pages/FeedPage.tsx:257-279 | under the page's truncating shuffle and the corrected one alike, a tab of truthy posts shows a permutation of them |
| Feed.CurrentPostsArePermutation | src/components/pages/FeedPage.tsx:281-285 | under either shuffle, the posts shown on either tab are that tab's sample posts, each once |
| Feed.EmptySeedKeepsOrder | src/components/pages/FeedPage.tsx:258-270 | before the seed is set both tabs show their posts in order |
| Feed.TabsUseTheirSeeds | src/components/pages/FeedPage.tsx:260-272 | home shuffles with the seed and explore with the seed followed by "-explore"; as written that shuffle is `shufflePostsForUser` |
| Feed.MountedFeedIsShuffled | src/components/pages/FeedPage.tsx:235-285 | under either shuffle, once mounted the page shows the shuffle of the active tab with that tab's seed |
| Feed.AsWrittenHomeTabUnshuffled | src/components/pages/FeedPage.tsx:257-267 | as written, the session seed "zzzzzz" leaves the home tab in its original order |
| Feed.LikeCard | src/components/pages/FeedPage.tsx:92-95 | the like toggles by one against the old flag and the save flag is kept |
| Feed.SaveCard | src/components/pages/FeedPage.tsx:97-99 | the save flag flips and the like is kept |
| Feed.CardTogglesCommuteAndUndo | src/components/pages/FeedPage.tsx:92-99 | liking and saving commute, and each undoes itself |
| Dms.MatchingUsers | src/components/pages/DMsPage.tsx:291-294 | every result matches the query |
| Dms.MatchingUsersMembership | src/components/pages/DMsPage.tsx:291-294 | a user is a result exactly when it is in the directory and its lowered username or display name contains the lowered query |
| Dms.MatchingUsersAppend | src/components/pages/DMsPage.tsx:291-294 | the results keep the directory's order |
| Dms.SearchIgnoresCase | src/components/pages/DMsPage.tsx:292-293 | a query and its lowered form find the same users |
| Dms.HandleSearch | src/components/pages/DMsPage.tsx:272-282 | a short query clears the results and the spinner; a long one starts the spinner and schedules its search |
| Dms.StartConversation | src/components/pages/DMsPage.tsx:301-306 | picking a user clears the box and the results |
| Dms.TimerFiresAsWritten | src/components/pages/DMsPage.tsx:284-298 | as written, the oldest search installs its own query's results and stops the spinner |
| Dms.TimerFires | src/components/pages/DMsPage.tsx:284-298 | corrected: results are installed only while the box still holds their query, and the spinner stops once nothing is pending |
| Dms.TypingCoherent | src/components/pages/DMsPage.tsx:272-282 | typing keeps the pending queue coherent: only long queries wait, and the newest is a long box query |
| Dms.TimeoutAsWrittenCoherent | src/components/pages/DMsPage.tsx:284-298 | the search answer as written keeps the queue coherent, and a long query with nothing pending shows its own results |
| Dms.TimeoutCoherent | src/components/pages/DMsPage.tsx:284-298 | the corrected answer keeps the queue coherent as well |
| Dms.SearchRunCoherent | src/components/pages/DMsPage.tsx:272-306 | under either answer, whatever the user types, picks or waits for, the spinner runs only while a search is pending and a long query that has settled shows exactly its own results |
| Dms.TypingConsistent | src/components/pages/DMsPage.tsx:272-282 | typing keeps the search consistent |
| Dms.PickingConsistent | src/components/pages/DMsPage.tsx:301-306 | picking a user keeps the search consistent |
| Dms.TimeoutConsistent | src/components/pages/DMsPage.tsx:284-298 | a corrected search answer keeps the search consistent |
| Dms.SearchRunConsistent | src/components/pages/DMsPage.tsx:272-306 | with the corrected answer, whatever the user types, picks or waits for, a short query never shows results, on top of the coherence the page as written keeps |
| Dms.PageSearchConsistent | src/components/pages/DMsPage.tsx:268-306 | from its initial state the page as written keeps its queue coherent, and the corrected page is consistent as well |
| Dms.StaleResultsAsWritten | src/components/pages/DMsPage.tsx:275-297 | as written, typing "ga" then "g" before the answer leaves "g" in the box with the results for "ga" shown |
| Dms.StaleResultsDropped | src/components/pages/DMsPage.tsx:275-297 | the corrected answer drops those stale results |
| Dms.ConversationKey | src/components/pages/DMsPage.tsx:137 | a DM's tracker key starts with "dm_" |
| Dms.ConversationKeyInjective | src/components/pages/DMsPage.tsx:137 | distinct conversations have distinct tracker keys |
| Dms.DmOpensAtBottom | src/components/pages/DMsPage.tsx:136-141 | a DM always opens at the bottom once its timer fires, whatever the tracker holds |
| Dms.Send | src/components/pages/DMsPage.tsx:143-150 | a blank draft changes nothing; otherwise the draft is cleared and the conversation is marked read |
| Dms.SendMarksLatest | src/components/pages/DMsPage.tsx:143-150 | after a send, the conversation's record names its latest message and no other record moved |
| Dms.ScrollRecordsFirstMessage | src/components/pages/DMsPage.tsx:190-194 | with one wrapper element as the container's only child, a scroll records the first message |

## Left out

- Storage and the network: `localStorage`, `sessionStorage` and every backend call are left out. A read is an input, a write's success is a boolean input, and a backend request is the value the handler would send.
- Timers: every `setTimeout` becomes its own transition. That covers the 500 and 800 ms scroll locks, the DM search answer, the 100 ms scroll-resume delay, the simulated sign-up, save and upload delays, and the 2 s start-up delay. Their durations are not modelled.
- The IntersectionObserver in src/components/hooks/useLastSeenScroll.ts:112-155 is left out. It records messages as they scroll into view, with a 50 percent threshold the browser computes.
- DOM geometry is reduced to integers: offsets, heights and rectangles. Smooth scrolling is a requested target.
- Video playback promises are left out. A play request is taken to succeed. Heart animations are pure rendering.
- Number labels are left out: the `k` and `K` counts built with `toFixed`, and file sizes.
- PostShuffle.Draw: the draw `Math.floor(hash / 233280 * (i + 1))` is computed in IEEE doubles, but the model takes the exact rational floor of `state * (i + 1) / 233280`. Where the double product lands just below an integer, the source draws one less: state 67392 with `i + 1 = 45` gives 12 there and 13 here, and state -150336 gives -30 there and -29 here. So for lists of 45 or more posts the order the source produces can differ from the model's. PostShuffle.DrawBounds states the bounds of the exact floor, and the rounded draw keeps the same bounds and sign. The permutation, negative-state and no-skip lemmas do not depend on which draw is taken. Floating-point rounding is not modelled.
- LastSeenManager.Get: the records are a map, while the source keeps them in a plain object read with `this.lastSeenPositions[conversationId] || null`. An id that names an inherited `Object.prototype` member, such as "constructor" or "toString", reads back a truthy function in the source, even after LastSeenManager.Remove or LastSeenManager.ClearAll. LastSeenManager.IsMessageNew then returns false where the model returns true. Conversation ids are assumed never to name an inherited property. The application's own keys are prefixed, for example `dm_<id>`.
- Dates: the date an old post shows (`toLocaleDateString`) is left out; `PostCard.Label` yields none for it. So is an unparsable date, which gives NaN in `formatTimeAgo`. Times are integer milliseconds.
- Characters are code points. JavaScript measures length in UTF-16 units, so a character outside the Basic Multilingual Plane counts once here and twice there. `toLowerCase` is modelled for ASCII letters only.
- `getUserSessionSeed`, `generateUserSeed`, `isFreshSession` and `clearUserSessionSeed` are left out, because they read session storage, the clock and `Math.random`. The feed takes what the store returned as input.
- `Math.random` in `shuffleArray` is replaced by a sequence of draws supplied as input.
- The `try`/`catch` around the shuffle is left out, because the modelled shuffle cannot throw.
- `JSON.parse` of stored text is reduced to three outcomes: nothing, unparsable, or a value of the right shape. Stored JSON of another shape is not modelled.
- JsNumber.IntToString: writes every integer in plain decimal digits. JavaScript's `toString` does so only for magnitudes below 10^21 and writes an exponent from there on. So JsNumber.IntToStringInjective is claimed for the ids the application formats, which are small literals.
- Falsy ids are reduced to 0. NaN and other falsy values are not modelled, because every id in the source is a number literal.
- The notification type icons are pure rendering. So are RoomsPage and the other components that only wire the models here together.
- The shell's upload modal flag is UI state with no logic.
- LastSeenScroll.OnOpen: runs on any change of its inputs and does not track which input changed, because every change clears the guard in the same way. Resolutions already scheduled are not cancelled when the inputs change: each timer fires with the message list and conversation it captured, the first to fire sets the guard and the later ones return at once. The model follows a single resolution evaluated on the inputs it is given, and does not model several pending timers.

## Findings

| source | as written | input that shows it | evidently intended | confidence | as-written member | corrected member |
|---|---|---|---|---|---|---|
| src/components/utils/postShuffle.ts:37-62 | JavaScript's `%` keeps the sign of a negative hash, so the generator states stay negative while they are below -5; for such seeds every draw `j` is negative and the guard skips the swap | seed "zzzzzz" (hash -685785664) on `[1, 2, 3]` returns `[1, 2, 3]` | a generator state in [0, 233280), so each step swaps with an index in [0, i] | high; not executed | PostShuffle.NegativeSeedLeavesFeedUnshuffled | PostShuffle.IntendedNeverSkips |
| src/components/modals/CreateReelModal.tsx:33-45 | `0 / 0` is NaN and `NaN > 0.1` is false, so metadata of 0 x 0 passes the 9:16 test | a `video/` file without a video track (width and height 0) is accepted | accept only frames with height, within one tenth of 9:16 | medium; not executed | CreateReel.ZeroFramePassesAsWritten | CreateReel.AspectAccepted |
| src/components/pages/DMsPage.tsx:275-297 | every long query's timeout installs the results of its own query, even after the box has changed | type "ga", then delete to "g" within 500 ms: the box shows "g" with the results for "ga" | show only the results of the query in the box | high; not executed | Dms.StaleResultsAsWritten | Dms.TimerFires |

The pages that use these members are defined for both halves. `Feed` takes the generator step:
`Truncating` is the page as written and `Floored` the corrected one, and its permutation lemmas
hold for both. `CreateReel.SelectVideo` takes the aspect test, and the 0 x 0 frame separates the
two (`CreateReel.ZeroFrameSelectedAsWritten`). The DM search takes the timeout transition: the page
as written keeps `Dms.QueueCoherent`, and only the corrected page also keeps `Dms.Consistent`,
which adds that a short query shows no results.

=== FILE: clips_page.dfy ===
/**
 * The desktop clips pager: wheel and swipe events move one clip at a time; a move scrolls the
 * container to the clip and sets a scroll lock that a later timeout releases (800 ms in the source).
 * The timeout becomes the separate transition `ScrollSettled`; the container's height is an input,
 * absent when the container is not mounted.
 */
module ClipsPage {
  import opened Wrappers
  import opened PagerStep

  datatype Pager = Pager(index: int, scrolling: bool)

  /** The pager after an event and the scroll position requested from the container, if any. */
  datatype Effect = Effect(pager: Pager, scrollTarget: Option<int>)

  function Initial(): Pager {
    Pager(0, false)
  }

  /** `scrollToClip`: with a container, requests `index * height` and sets the lock; without one, nothing. */
  function ScrollToClip(p: Pager, height: Option<nat>, index: int): (e: Effect)
    ensures height.None? ==> e == Effect(p, None)
    ensures height.Some? ==> e == Effect(p.(scrolling := true), Some(index * height.value))
  {
    if height.None? then Effect(p, None) else Effect(p.(scrolling := true), Some(index * height.value))
  }

  /** The shared tail of both handlers: when the index changes, store it and scroll to it. */
  function Move(p: Pager, n: int, height: Option<nat>, delta: int): (e: Effect)
    ensures e.pager.index == Stepped(p.index, n, delta)
    ensures e.pager.index == p.index ==> e == Effect(p, None)
    ensures e.pager.index != p.index ==> e == ScrollToClip(p.(index := e.pager.index), height, e.pager.index)
  {
    var next := Stepped(p.index, n, delta);
    if next != p.index then ScrollToClip(p.(index := next), height, next) else Effect(p, None)
  }

  /** `handleWheel`: ignored while the lock is set; otherwise one step in the direction of `deltaY`. */
  function Wheel(p: Pager, n: int, height: Option<nat>, deltaY: int): (e: Effect)
    ensures p.scrolling ==> e == Effect(p, None)
    ensures !p.scrolling ==> e == Move(p, n, height, deltaY)
    ensures 0 <= p.index < n ==> 0 <= e.pager.index < n
    ensures Abs(e.pager.index - p.index) <= 1
  {
    if p.scrolling then Effect(p, None) else Move(p, n, height, deltaY)
  }

  /** A swipe counts when it took at most 300 ms and covered at least 50 pixels. */
  predicate QuickSwipe(deltaY: int, deltaTime: int) {
    !(deltaTime > 300 || Abs(deltaY) < 50)
  }

  /** `handleTouchEnd`: ignored while locked, for slow swipes and for short ones; otherwise the wheel's step rule. */
  function TouchEnd(p: Pager, n: int, height: Option<nat>, deltaY: int, deltaTime: int): (e: Effect)
    ensures p.scrolling || !QuickSwipe(deltaY, deltaTime) ==> e == Effect(p, None)
    ensures !p.scrolling && QuickSwipe(deltaY, deltaTime) ==> e == Move(p, n, height, deltaY)
    ensures 0 <= p.index < n ==> 0 <= e.pager.index < n
  {
    if p.scrolling || !QuickSwipe(deltaY, deltaTime) then Effect(p, None) else Move(p, n, height, deltaY)
  }

  /** The timeout that releases the lock. */
  function ScrollSettled(p: Pager): (r: Pager)
    ensures r.index == p.index && !r.scrolling
  {
    p.(scrolling := false)
  }

  /** The clip at position `k` plays exactly when it is the current one. */
  predicate IsActive(p: Pager, k: int) {
    k == p.index
  }

  /** The swipe thresholds are inclusive: exactly 300 ms and exactly 50 pixels still count. */
  lemma SwipeThresholdsInclusive()
    ensures QuickSwipe(50, 300) && QuickSwipe(-50, 300)
    ensures !QuickSwipe(49, 0) && !QuickSwipe(100, 301)
  {
  }

  /**
   * A move with a mounted container sets the lock, so the next wheel or swipe is ignored until
   * the lock is released, after which events move the pager again.
   */
  lemma LockBlocksUntilSettled(p: Pager, n: int, h: nat, d1: int, d2: int, dt: int)
    requires !p.scrolling && Stepped(p.index, n, d1) != p.index
    ensures var moved := Wheel(p, n, Some(h), d1).pager;
            moved.scrolling &&
            Wheel(moved, n, Some(h), d2) == Effect(moved, None) &&
            TouchEnd(moved, n, Some(h), d2, dt) == Effect(moved, None) &&
            Wheel(ScrollSettled(moved), n, Some(h), d2) == Move(ScrollSettled(moved), n, Some(h), d2)
  {
  }

  /** Without a mounted container the index still moves but no lock is set. */
  lemma NoContainerMovesWithoutLock(p: Pager, n: int, d: int)
    requires !p.scrolling && Stepped(p.index, n, d) != p.index
    ensures Wheel(p, n, None, d) == Effect(Pager(Stepped(p.index, n, d), false), None)
  {
  }
}

=== FILE: comments.dfy ===
/**
 * The comments dialog of a post: a local list seeded with three sample comments, an input line,
 * an add handler that appends the trimmed input as the viewer's own comment, and a like toggle per
 * comment. New comments take the id `length + 1`, so the ids stay exactly 1..n in order.
 */
module Comments {
  import opened JsString
  import Likes

  datatype Comment = Comment(id: int, username: string, displayName: string, content: string,
                             time: string, like: Likes.LikeState)

  datatype Dialog = Dialog(input: string, comments: seq<Comment>)

  /** The three sample comments the dialog opens with. */
  function SampleComments(): (cs: seq<Comment>)
    ensures |cs| == 3
  {
    [ Comment(1, "alex_gamer", "Alex Chen", "This is amazing! \U{1F525}", "2h ago", Likes.LikeState(false, 12)),
      Comment(2, "maya_pixel", "Maya Storm", "Love the colors and composition! Keep it up \U{1F4AF}", "1h ago", Likes.LikeState(true, 8)),
      Comment(3, "sam_code", "Sam Rivera", "How did you achieve this effect?", "45m ago", Likes.LikeState(false, 3)) ]
  }

  function Initial(): Dialog {
    Dialog("", SampleComments())
  }

  /** Comment k (counting from 0) has id k + 1. */
  predicate IdsSequential(cs: seq<Comment>) {
    forall k :: 0 <= k < |cs| ==> cs[k].id == k + 1
  }

  lemma InitialIdsSequential()
    ensures IdsSequential(Initial().comments)
  {
  }

  /** Typing replaces the input line. */
  function SetInput(d: Dialog, text: string): (r: Dialog)
    ensures r.input == text && r.comments == d.comments
  {
    d.(input := text)
  }

  /**
   * `handleAddComment`: whitespace-only input changes nothing; otherwise exactly one comment by
   * the viewer is appended, with the trimmed text, no likes and the id `length + 1`, and the input
   * is cleared.
   */
  function AddComment(d: Dialog): (r: Dialog)
    ensures Trim(d.input) == "" ==> r == d
    ensures Trim(d.input) != "" ==>
      r.input == "" &&
      r.comments == d.comments + [Comment(|d.comments| + 1, "you", "You", Trim(d.input), "now", Likes.LikeState(false, 0))]
    ensures IdsSequential(d.comments) ==> IdsSequential(r.comments)
  {
    var text := Trim(d.input);
    if text != "" then
      Dialog("", d.comments + [Comment(|d.comments| + 1, "you", "You", text, "now", Likes.LikeState(false, 0))])
    else d
  }

  /** The like toggle applied to one comment when its id matches. */
  function ToggleIfMatches(c: Comment, id: int): (r: Comment)
    ensures c.id == id ==> r == c.(like := Likes.Toggle(c.like))
    ensures c.id != id ==> r == c
  {
    if c.id == id then c.(like := Likes.Toggle(c.like)) else c
  }

  /**
   * `handleLikeComment`: the comments with the given id have their like toggled; every other
   * comment, the order and the input are untouched.
   */
  function LikeComment(d: Dialog, id: int): (r: Dialog)
    ensures r.input == d.input && |r.comments| == |d.comments|
    ensures forall k :: 0 <= k < |d.comments| ==>
      r.comments[k].id == d.comments[k].id &&
      (d.comments[k].id == id ==> r.comments[k] == d.comments[k].(like := Likes.Toggle(d.comments[k].like))) &&
      (d.comments[k].id != id ==> r.comments[k] == d.comments[k])
    ensures IdsSequential(d.comments) ==> IdsSequential(r.comments)
  {
    d.(comments := seq(|d.comments|, k requires 0 <= k < |d.comments| => ToggleIfMatches(d.comments[k], id)))
  }

  /** With ids 1..n, a like on id `k + 1` changes exactly comment k, by one like in the new flag's direction. */
  lemma LikeChangesOneComment(d: Dialog, k: int)
    requires IdsSequential(d.comments) && 0 <= k < |d.comments|
    ensures var r := LikeComment(d, k + 1).comments;
            r[k].like.isLiked == !d.comments[k].like.isLiked &&
            r[k].like.likes - d.comments[k].like.likes == (if r[k].like.isLiked then 1 else -1) &&
            forall j :: 0 <= j < |d.comments| && j != k ==> r[j] == d.comments[j]
  {
  }

  /** Liking the same comment twice restores the whole list. */
  lemma LikeTwiceRestores(d: Dialog, id: int)
    ensures LikeComment(LikeComment(d, id), id) == d
  {
    var once := LikeComment(d, id);
    var twice := LikeComment(once, id);
    forall k | 0 <= k < |d.comments|
      ensures twice.comments[k] == d.comments[k]
    {
      Likes.ToggleTwiceRestores(d.comments[k].like);
    }
  }

  /** An id outside 1..n matches nothing. */
  lemma UnknownIdChangesNothing(d: Dialog, id: int)
    requires IdsSequential(d.comments) && !(1 <= id <= |d.comments|)
    ensures LikeComment(d, id) == d
  {
    assert LikeComment(d, id).comments == d.comments;
  }

  /** Actions of the dialog. */
  datatype Action = Type(text: string) | Add | LikeOf(id: int)

  function Apply(d: Dialog, a: Action): Dialog {
    match a
    case Type(text) => SetInput(d, text)
    case Add => AddComment(d)
    case LikeOf(id) => LikeComment(d, id)
  }

  function Replay(d: Dialog, actions: seq<Action>): Dialog
    decreases |actions|
  {
    if actions == [] then d else Replay(Apply(d, actions[0]), actions[1..])
  }

  /** Whatever the viewer does from the opened dialog, the ids stay exactly 1..n. */
  lemma {:induction false} ReplayKeepsIds(d: Dialog, actions: seq<Action>)
    requires IdsSequential(d.comments)
    ensures IdsSequential(Replay(d, actions).comments)
    decreases |actions|
  {
    if actions != [] {
      ReplayKeepsIds(Apply(d, actions[0]), actions[1..]);
    }
  }
}

=== FILE: create_reel.dfy ===
/**
 * The create-reel dialog: a chosen file is kept only if its type starts with `video/` and its
 * frame is close to 9:16; the upload needs a video and a caption that is not blank; closing resets
 * every field.
 *
 * The aspect test `|w / h - 9 / 16| > 0.1` is restated over exact integers: for `h > 0` it rejects
 * exactly when `10 * |16 w - 9 h| > 16 h`.
 */
module CreateReel {
  import opened Wrappers
  import opened JsString

  datatype VideoFile = VideoFile(name: string, mimeType: string, width: nat, height: nat)

  datatype Dialog = Dialog(video: Option<VideoFile>, preview: Option<string>, caption: string,
                           sound: string, playing: bool, uploading: bool)

  const DefaultSound: string := "Original Audio"

  function Closed(): Dialog {
    Dialog(None, None, "", "", false, false)
  }

  function Abs(x: int): nat {
    if x < 0 then -x else x
  }

  /** The source's test as it behaves on JavaScript numbers, including the `0 / 0` case, which gives NaN. */
  predicate AspectAcceptedAsWritten(w: nat, h: nat) {
    if h > 0 then 10 * Abs(16 * w - 9 * h) <= 16 * h  // |w/h - 9/16| <= 1/10, multiplied out by 160 h
    else if w > 0 then false                          // w / 0 is Infinity: the deviation exceeds the tolerance
    else true                                         // 0 / 0 is NaN, and NaN > 0.1 is false: nothing rejects it
  }

  /** The intended test: a frame with height, within one tenth of 9:16. */
  predicate AspectAccepted(w: nat, h: nat) {
    h > 0 && 10 * Abs(16 * w - 9 * h) <= 16 * h
  }

  /** As written, metadata of 0 x 0 (a file with no video track) passes the 9:16 test. */
  lemma ZeroFramePassesAsWritten()
    ensures AspectAcceptedAsWritten(0, 0) && !AspectAccepted(0, 0)
  {
  }

  /** The two tests differ on the 0 x 0 frame alone. */
  lemma AspectTestsAgreeElsewhere(w: nat, h: nat)
    requires w > 0 || h > 0
    ensures AspectAcceptedAsWritten(w, h) <==> AspectAccepted(w, h)
  {
  }

  /** An accepted frame is upright: strictly taller than wide, and at least 37 percent as wide as tall. */
  lemma AcceptedFrameIsPortrait(w: nat, h: nat)
    requires AspectAccepted(w, h)
    ensures 0 < w < h
    ensures 100 * w >= 37 * h
  {
  }

  lemma AspectExamples()
    ensures AspectAccepted(1080, 1920) && AspectAccepted(720, 1280)
    ensures !AspectAccepted(1920, 1080) && !AspectAccepted(1080, 1080)
  {
  }

  /** Which aspect test the dialog runs: the source's, with its `0 / 0` case, or the corrected one. */
  datatype AspectRule = AsWritten | Corrected

  predicate Accepts(rule: AspectRule, w: nat, h: nat) {
    match rule
    case AsWritten => AspectAcceptedAsWritten(w, h)
    case Corrected => AspectAccepted(w, h)
  }

  /**
   * `handleVideoSelect` once the metadata has loaded, under the aspect test `rule`: a non-video
   * file or a rejected frame leaves the dialog as it was.
   */
  function SelectVideo(rule: AspectRule, d: Dialog, file: Option<VideoFile>, url: string): (r: Dialog)
    ensures file.None? || !StartsWith(file.value.mimeType, "video/") ==> r == d
    ensures file.Some? && StartsWith(file.value.mimeType, "video/") && !Accepts(rule, file.value.width, file.value.height) ==> r == d
    ensures file.Some? && StartsWith(file.value.mimeType, "video/") && Accepts(rule, file.value.width, file.value.height) ==>
              r == d.(video := file, preview := Some(url))
    ensures r.video.Some? ==> r.video == d.video || (Accepts(rule, r.video.value.width, r.video.value.height) &&
                                                    StartsWith(r.video.value.mimeType, "video/"))
  {
    if file.None? || !StartsWith(file.value.mimeType, "video/") then d
    else if !Accepts(rule, file.value.width, file.value.height) then d
    else d.(video := file, preview := Some(url))
  }

  /**
   * As written, a `video/` file whose metadata reports a 0 x 0 frame is selected; the corrected
   * dialog leaves it unselected.
   */
  lemma ZeroFrameSelectedAsWritten(d: Dialog, name: string, subtype: string, url: string)
    ensures var file := VideoFile(name, "video/" + subtype, 0, 0);
            SelectVideo(AsWritten, d, Some(file), url) == d.(video := Some(file), preview := Some(url)) &&
            SelectVideo(Corrected, d, Some(file), url) == d
  {
    var t := "video/" + subtype;
    assert t[..|"video/"|] == "video/";
    assert StartsWith(t, "video/");
  }

  /** The upload as it is recorded: the file name, the caption and the sound, defaulted when empty. */
  datatype Upload = Upload(videoName: string, caption: string, sound: string)

  /** The submit button is disabled without a video, with a blank caption, or while uploading. */
  predicate SubmitDisabled(d: Dialog) {
    d.video.None? || Trim(d.caption) == "" || d.uploading
  }

  /** `handleSubmit`: nothing without a video or with a blank caption; otherwise the upload starts. */
  function Submit(d: Dialog): (r: (Dialog, Option<Upload>))
    ensures d.video.None? || Trim(d.caption) == "" ==> r == (d, None)
    ensures d.video.Some? && Trim(d.caption) != "" ==> r.0 == d.(uploading := true) && r.1.Some?
    ensures r.1.Some? ==> r.1.value.videoName == d.video.value.name && r.1.value.caption == d.caption
    ensures r.1.Some? ==> r.1.value.sound != "" && (d.sound != "" ==> r.1.value.sound == d.sound)
  {
    if d.video.None? || Trim(d.caption) == "" then (d, None)
    else (d.(uploading := true), Some(Upload(d.video.value.name, d.caption, if d.sound == "" then DefaultSound else d.sound)))
  }

  /** `handleClose`: every field back to its initial value, whatever the dialog held. */
  function Close(d: Dialog): (r: Dialog)
    ensures r.video.None? && r.preview.None? && r.caption == "" && r.sound == "" && !r.playing && !r.uploading
  {
    Closed()
  }

  /** The upload finishes by closing the dialog. */
  function FinishUpload(d: Dialog): (r: Dialog)
    ensures r == Close(d)
  {
    Close(d)
  }

  /** An enabled submit button always starts an upload, after which it is disabled; a submit that starts nothing had a disabled button. */
  lemma EnabledSubmitUploads(d: Dialog)
    ensures !SubmitDisabled(d) ==> Submit(d).1.Some? && SubmitDisabled(Submit(d).0)
    ensures Submit(d).1.None? ==> SubmitDisabled(d)
  {
  }

  /** The default sound applies exactly when the sound field is empty. */
  lemma SoundDefault(d: Dialog)
    requires Submit(d).1.Some?
    ensures Submit(d).1.value.sound == DefaultSound <==> d.sound == "" || d.sound == DefaultSound
  {
  }
}

=== FILE: dms.dfy ===
/**
 * The direct-messages page: a user search over a small directory, and the chat view of one
 * conversation, which wires the scroll-resume hook with the key `dm_<id>` and the DM chat type.
 *
 * The search answers after a timeout (500 ms in the source). Every long enough query schedules its
 * own timeout, and the timeouts fire in the order they were scheduled; the queue of pending
 * queries is part of the state, and a timeout firing is its own transition. As written, a firing
 * timeout installs the results of its own query whatever the search box holds by then; the
 * corrected transition drops the results of a query the box no longer holds (see the third
 * finding). The page's event loop is defined for both.
 *
 * In the chat view the message container holds one wrapper element around all messages, so the
 * scroll handler only ever sees that wrapper as child 0 and records the first message; a DM never
 * reads its record back, since it always opens at the bottom.
 */
module Dms {
  import opened Wrappers
  import opened JsString
  import opened JsNumber
  import opened LastSeenManager
  import opened LastSeenScroll

  /* ---------------------------------------------------------------- user search */

  datatype SearchUser = SearchUser(id: int, username: string, displayName: string)

  /** The users the search looks through. */
  function Directory(): (us: seq<SearchUser>)
    ensures |us| == 3
  {
    [ SearchUser(1, "gaming_pro", "Gaming Pro"),
      SearchUser(2, "pixel_master", "Pixel Master"),
      SearchUser(3, "code_wizard", "Code Wizard") ]
  }

  /** A user matches when the lowered query occurs in the lowered username or the lowered display name. */
  predicate Matches(u: SearchUser, query: string) {
    Includes(ToLower(u.username), ToLower(query)) || Includes(ToLower(u.displayName), ToLower(query))
  }

  /** The matching users, in directory order. */
  function MatchingUsers(users: seq<SearchUser>, query: string): (r: seq<SearchUser>)
    ensures |r| <= |users|
    ensures forall k :: 0 <= k < |r| ==> Matches(r[k], query)
    decreases |users|
  {
    if users == [] then []
    else (if Matches(users[0], query) then [users[0]] else []) + MatchingUsers(users[1..], query)
  }

  /** A user is among the results exactly when it is in the directory and matches. */
  lemma {:induction false} MatchingUsersMembership(users: seq<SearchUser>, query: string, u: SearchUser)
    ensures u in MatchingUsers(users, query) <==> u in users && Matches(u, query)
    decreases |users|
  {
    if users != [] {
      MatchingUsersMembership(users[1..], query, u);
      assert users == [users[0]] + users[1..];
    }
  }

  /** The search distributes over concatenation, so the results keep the directory's order. */
  lemma {:induction false} MatchingUsersAppend(a: seq<SearchUser>, b: seq<SearchUser>, query: string)
    ensures MatchingUsers(a + b, query) == MatchingUsers(a, query) + MatchingUsers(b, query)
    decreases |a|
  {
    if a != [] {
      assert (a + b)[0] == a[0] && (a + b)[1..] == a[1..] + b;
      MatchingUsersAppend(a[1..], b, query);
    } else {
      assert a + b == b;
    }
  }

  /** Case does not matter: a query and its lowered form find the same users. */
  lemma SearchIgnoresCase(u: SearchUser, query: string)
    ensures Matches(u, query) <==> Matches(u, ToLower(query))
  {
    ToLowerIdempotent(query);
  }

  /** The search box, the results shown, the spinner flag, and the queries whose timeouts are pending, oldest first. */
  datatype Search = Search(query: string, results: seq<SearchUser>, searching: bool, pending: seq<string>)

  function InitialSearch(): Search {
    Search("", [], false, [])
  }

  /** A query is sent only when its trimmed text has at least two characters. */
  predicate LongEnough(query: string) {
    |Trim(query)| >= 2
  }

  /**
   * `handleSearch`: the box takes the query; a short one clears the results and the spinner, a
   * long one starts the spinner and schedules its timeout.
   */
  function HandleSearch(s: Search, query: string): (r: Search)
    ensures r.query == query
    ensures !LongEnough(query) ==> r.results == [] && !r.searching && r.pending == s.pending
    ensures LongEnough(query) ==> r.results == s.results && r.searching && r.pending == s.pending + [query]
  {
    if !LongEnough(query) then Search(query, [], false, s.pending)
    else Search(query, s.results, true, s.pending + [query])
  }

  /** `handleStartConversation`: clears the box and the results; the spinner and the pending timeouts stay. */
  function StartConversation(s: Search): (r: Search)
    ensures r.query == "" && r.results == [] && r.searching == s.searching && r.pending == s.pending
  {
    s.(query := "", results := [])
  }

  /**
   * The oldest timeout fires as written: its query's results in `dir` are installed and the
   * spinner stops. Without a pending timeout nothing fires.
   */
  function TimerFiresAsWritten(s: Search, dir: seq<SearchUser>): (r: Search)
    ensures s.pending == [] ==> r == s
    ensures s.pending != [] ==> r.query == s.query && !r.searching && r.pending == s.pending[1..]
    ensures s.pending != [] ==> r.results == MatchingUsers(dir, s.pending[0])
  {
    if s.pending == [] then s
    else Search(s.query, MatchingUsers(dir, s.pending[0]), false, s.pending[1..])
  }

  /**
   * The oldest timeout fires, corrected: its results are installed only when the box still holds
   * its query; otherwise they are dropped, and the spinner stops once no timeout is left.
   */
  function TimerFires(s: Search, dir: seq<SearchUser>): (r: Search)
    ensures s.pending == [] ==> r == s
    ensures s.pending != [] ==> r.query == s.query && r.pending == s.pending[1..]
    ensures s.pending != [] && s.pending[0] == s.query ==> r.results == MatchingUsers(dir, s.query) && !r.searching
    ensures s.pending != [] && s.pending[0] != s.query ==>
              r.results == s.results && (r.searching <==> s.searching && r.pending != [])
  {
    if s.pending == [] then s else
    var q := s.pending[0];
    var rest := s.pending[1..];
    if q == s.query then Search(s.query, MatchingUsers(dir, q), false, rest)
    else Search(s.query, s.results, s.searching && rest != [], rest)
  }

  /**
   * What holds of the search as written: the spinner runs only while a timeout is pending; only
   * long queries are pending, and the newest of them is the box's query when that is long; and
   * once nothing is pending, a long query shows exactly its own results.
   */
  predicate QueueCoherent(s: Search, dir: seq<SearchUser>) {
    && (s.searching ==> s.pending != [])
    && (forall k :: 0 <= k < |s.pending| ==> LongEnough(s.pending[k]))
    && (LongEnough(s.query) && s.pending != [] ==> s.pending[|s.pending| - 1] == s.query)
    && (LongEnough(s.query) && s.pending == [] ==> s.results == MatchingUsers(dir, s.query))
  }

  /** What the user can rely on in the corrected search: the above, and a short query shows no results. */
  predicate Consistent(s: Search, dir: seq<SearchUser>) {
    && (!LongEnough(s.query) ==> s.results == [])
    && QueueCoherent(s, dir)
  }

  /** Which timeout transition the page runs: the source's or the corrected one. */
  datatype TimerRule = AsWritten | Corrected

  function Fire(rule: TimerRule, s: Search, dir: seq<SearchUser>): Search {
    match rule
    case AsWritten => TimerFiresAsWritten(s, dir)
    case Corrected => TimerFires(s, dir)
  }

  datatype SearchEvent = TypeQuery(query: string) | PickUser | TimeoutFires

  /** One event of the page. */
  function SearchStep(rule: TimerRule, s: Search, e: SearchEvent, dir: seq<SearchUser>): Search {
    match e
    case TypeQuery(q) => HandleSearch(s, q)
    case PickUser => StartConversation(s)
    case TimeoutFires => Fire(rule, s, dir)
  }

  function SearchRun(rule: TimerRule, s: Search, events: seq<SearchEvent>, dir: seq<SearchUser>): Search
    decreases |events|
  {
    if events == [] then s else SearchRun(rule, SearchStep(rule, s, events[0], dir), events[1..], dir)
  }

  /** Appending a long query to a queue of long queries leaves every query in it long. */
  lemma AppendLong(pending: seq<string>, q: string)
    requires forall k :: 0 <= k < |pending| ==> LongEnough(pending[k])
    requires LongEnough(q)
    ensures forall k :: 0 <= k < |pending + [q]| ==> LongEnough((pending + [q])[k])
  {
    forall k | 0 <= k < |pending + [q]|
      ensures LongEnough((pending + [q])[k])
    {
      if k < |pending| {
        assert (pending + [q])[k] == pending[k];
      }
    }
  }

  /** A long query joins the pending queue as its newest entry. */
  lemma LongQueryCoherent(s: Search, q: string, dir: seq<SearchUser>)
    requires QueueCoherent(s, dir) && LongEnough(q)
    ensures QueueCoherent(Search(q, s.results, true, s.pending + [q]), dir)
  {
    AppendLong(s.pending, q);
  }

  lemma TypingCoherent(s: Search, q: string, dir: seq<SearchUser>)
    requires QueueCoherent(s, dir)
    ensures QueueCoherent(HandleSearch(s, q), dir)
  {
    if LongEnough(q) {
      LongQueryCoherent(s, q, dir);
    }
  }

  lemma TypingConsistent(s: Search, q: string, dir: seq<SearchUser>)
    requires Consistent(s, dir)
    ensures Consistent(HandleSearch(s, q), dir)
  {
    TypingCoherent(s, q, dir);
  }

  lemma PickingConsistent(s: Search, dir: seq<SearchUser>)
    requires Consistent(s, dir)
    ensures Consistent(StartConversation(s), dir)
  {
    assert !LongEnough("");
  }

  /** Dropping the oldest of the pending queries keeps them all long, and keeps the newest. */
  lemma RestStaysLong(s: Search)
    requires s.pending != []
    requires forall k :: 0 <= k < |s.pending| ==> LongEnough(s.pending[k])
    ensures forall k :: 0 <= k < |s.pending[1..]| ==> LongEnough(s.pending[1..][k])
    ensures |s.pending| > 1 ==> s.pending[1..][|s.pending| - 2] == s.pending[|s.pending| - 1]
  {
    var rest := s.pending[1..];
    forall k | 0 <= k < |rest|
      ensures LongEnough(rest[k])
    {
      assert rest[k] == s.pending[k + 1];
    }
  }

  /** The timeout as written keeps the queue coherent, though not the results of a short query. */
  lemma TimeoutAsWrittenCoherent(s: Search, dir: seq<SearchUser>)
    requires QueueCoherent(s, dir)
    ensures QueueCoherent(TimerFiresAsWritten(s, dir), dir)
  {
    if s.pending != [] {
      RestStaysLong(s);
      var rest := s.pending[1..];
      var r := Search(s.query, MatchingUsers(dir, s.pending[0]), false, rest);
      assert TimerFiresAsWritten(s, dir) == r;
      if rest == [] {
        assert s.pending == [s.pending[0]];
        assert LongEnough(s.query) ==> s.pending[0] == s.query;
      }
    }
  }

  /** The corrected timeout keeps the queue coherent as well. */
  lemma TimeoutCoherent(s: Search, dir: seq<SearchUser>)
    requires QueueCoherent(s, dir)
    ensures QueueCoherent(TimerFires(s, dir), dir)
  {
    if s.pending != [] {
      RestStaysLong(s);
      if LongEnough(s.query) && |s.pending| == 1 {
        assert s.pending[0] == s.query;
      }
    }
  }

  /** The corrected timeout also keeps a short query's results empty, since it installs results only for the box's query. */
  lemma TimeoutConsistent(s: Search, dir: seq<SearchUser>)
    requires Consistent(s, dir)
    ensures Consistent(TimerFires(s, dir), dir)
  {
    TimeoutCoherent(s, dir);
  }

  /** Under either timeout transition, whatever the user types, picks or waits for, the queue stays coherent. */
  lemma {:induction false} SearchRunCoherent(rule: TimerRule, s: Search, events: seq<SearchEvent>, dir: seq<SearchUser>)
    requires QueueCoherent(s, dir)
    ensures QueueCoherent(SearchRun(rule, s, events, dir), dir)
    decreases |events|
  {
    if events != [] {
      match events[0] {
        case TypeQuery(q) => TypingCoherent(s, q, dir);
        case PickUser => assert !LongEnough("");
        case TimeoutFires =>
          if rule == AsWritten {
            TimeoutAsWrittenCoherent(s, dir);
          } else {
            TimeoutCoherent(s, dir);
          }
      }
      SearchRunCoherent(rule, SearchStep(rule, s, events[0], dir), events[1..], dir);
    }
  }

  /** Whatever the user types, picks or waits for, the corrected page stays consistent. */
  lemma {:induction false} SearchRunConsistent(s: Search, events: seq<SearchEvent>, dir: seq<SearchUser>)
    requires Consistent(s, dir)
    ensures Consistent(SearchRun(Corrected, s, events, dir), dir)
    decreases |events|
  {
    if events != [] {
      match events[0] {
        case TypeQuery(q) => TypingConsistent(s, q, dir);
        case PickUser => PickingConsistent(s, dir);
        case TimeoutFires => TimeoutConsistent(s, dir);
      }
      SearchRunConsistent(SearchStep(Corrected, s, events[0], dir), events[1..], dir);
    }
  }

  /**
   * From its initial state the page as written keeps its queue coherent, and the corrected page is
   * consistent as well.
   */
  lemma PageSearchConsistent(events: seq<SearchEvent>)
    ensures QueueCoherent(SearchRun(AsWritten, InitialSearch(), events, Directory()), Directory())
    ensures Consistent(SearchRun(Corrected, InitialSearch(), events, Directory()), Directory())
  {
    SearchRunCoherent(AsWritten, InitialSearch(), events, Directory());
    SearchRunConsistent(InitialSearch(), events, Directory());
  }

  /**
   * As written, typing "ga" and then deleting a character before the timeout fires leaves the box
   * holding "g" with the results for "ga" on display.
   */
  lemma StaleResultsAsWritten()
    ensures var s := TimerFiresAsWritten(HandleSearch(HandleSearch(InitialSearch(), "ga"), "g"), Directory());
            s.query == "g" && !LongEnough(s.query) && s.results != [] && !Consistent(s, Directory())
  {
    TwoShortQueries();
    var s2 := HandleSearch(HandleSearch(InitialSearch(), "ga"), "g");
    assert s2.pending == ["ga"] && s2.query == "g";
    var u := Directory()[0];
    GamingProMatches();
    MatchingUsersMembership(Directory(), "ga", u);
  }

  /** "ga" is long enough to be sent, "g" is not. */
  lemma TwoShortQueries()
    ensures LongEnough("ga") && !LongEnough("g")
  {
    var long, short := "ga", "g";
    LettersAreTheirTrim(long);
    LettersAreTheirTrim(short);
    assert |Trim(long)| == 2 && |Trim(short)| == 1;
  }

  /** A string of lower-case ASCII letters has no white space to trim. */
  lemma LettersAreTheirTrim(s: string)
    requires forall i :: 0 <= i < |s| ==> 'a' <= s[i] <= 'z'
    ensures Trim(s) == s
  {
    assert NoWhitespace(s) by {
      forall i | 0 <= i < |s|
        ensures !IsWhitespace(s[i])
      {
      }
    }
    TrimNoWhitespace(s);
  }

  /** The first user of the directory matches "ga". */
  lemma GamingProMatches()
    ensures Matches(Directory()[0], "ga")
  {
    var name := Directory()[0].username;
    assert name == "gaming_pro";
    assert StartsWith(name, "ga") by { assert name[..2] == "ga"; }
    PrefixIncludedAfterLowering(name, "ga");
  }

  /** The corrected transition drops the stale results in the same run. */
  lemma StaleResultsDropped()
    ensures var s := TimerFires(HandleSearch(HandleSearch(InitialSearch(), "ga"), "g"), Directory());
            s.query == "g" && s.results == [] && !s.searching && s.pending == []
  {
    TwoShortQueries();
    var s2 := HandleSearch(HandleSearch(InitialSearch(), "ga"), "g");
    assert s2.pending == ["ga"] && s2.query == "g" && s2.results == [];
  }

  /* ---------------------------------------------------------------- the chat view */

  /** The tracker key of a DM conversation. */
  function ConversationKey(id: int): (key: string)
    ensures |key| > 3 && key[..3] == "dm_"
  {
    "dm_" + IntToString(id)
  }

  /** Distinct conversations never share a tracker record. */
  lemma ConversationKeyInjective(a: int, b: int)
    requires ConversationKey(a) == ConversationKey(b)
    ensures a == b
  {
    assert IntToString(a) == ConversationKey(a)[3..] == ConversationKey(b)[3..] == IntToString(b);
    IntToStringInjective(a, b);
  }

  /** Opening a DM with its messages rendered always lands at the bottom when the timer fires, whatever the tracker holds. */
  lemma DmOpensAtBottom(m: Manager, id: int, cont: Container, messages: seq<Message>, guard: bool)
    requires |messages| > 0
    ensures var o := OnOpen(messages, true, guard);
            var r := Resolve(Some(cont), messages, Dm, Get(m, ConversationKey(id)), o.guard);
            o.scheduled && r.action == ScrollToBottom && r.guard
  {
  }

  datatype Chat = Chat(draft: string, tracker: Manager)

  /**
   * `handleSend`: a whitespace-only draft changes nothing; otherwise the draft is cleared and the
   * conversation is marked read, which records its latest message and scrolls to the bottom.
   */
  function Send(c: Chat, id: int, messages: seq<Message>, container: Option<Container>, now: int, writeOk: bool)
    : (r: (Chat, ScrollAction))
    ensures Trim(c.draft) == "" ==> r == (c, NoScroll)
    ensures Trim(c.draft) != "" ==>
              (r.0.draft == "" &&
               (r.0.tracker, r.1) == MarkAsRead(c.tracker, ConversationKey(id), messages, container, now, writeOk))
  {
    if Trim(c.draft) != "" then
      var (m, action) := MarkAsRead(c.tracker, ConversationKey(id), messages, container, now, writeOk);
      (Chat("", m), action)
    else (c, NoScroll)
  }

  /** After a real send, the conversation's record names its latest message and no other record moved. */
  lemma SendMarksLatest(c: Chat, id: int, messages: seq<Message>, cont: Container, now: int, writeOk: bool)
    requires Trim(c.draft) != "" && |messages| > 0
    ensures var r := Send(c, id, messages, Some(cont), now, writeOk);
            Get(r.0.tracker, ConversationKey(id)) == Some(Position(messages[|messages| - 1].id, now, None)) &&
            r.1 == ScrollToBottom &&
            forall other :: other != ConversationKey(id) ==> Get(r.0.tracker, other) == Get(c.tracker, other)
  {
  }

  /** With the single wrapper element as the container's only child, a scroll that shows it records the first message. */
  lemma ScrollRecordsFirstMessage(m: Manager, id: int, self: Element, wrapper: Element, messages: seq<Message>,
                                  now: int, writeOk: bool)
    requires |messages| > 0 && Overlaps(wrapper.rect, self.rect)
    ensures var r := HandleScroll(m, ConversationKey(id), Some(Container(self, [wrapper])), true, messages, now, writeOk);
            Get(r, ConversationKey(id)) == Some(Position(messages[0].id, now, None))
  {
  }
}

=== FILE: edit_profile.dfy ===
/**
 * The edit-profile dialog: validity computed from the trimmed fields, a username lowered as it is
 * typed, a save button disabled while the form is invalid or a save is running, and a save payload
 * of trimmed text.
 */
module EditProfile {
  import opened Wrappers
  import opened JsString
  import opened FormRules
  import SignUpForm

  datatype Profile = Profile(username: string, displayName: string, avatar: string)

  datatype Dialog = Dialog(username: string, displayName: string, avatar: string, saving: bool)

  function Open(user: Profile): (d: Dialog)
    ensures d.username == user.username && d.displayName == user.displayName && d.avatar == user.avatar && !d.saving
  {
    Dialog(user.username, user.displayName, user.avatar, false)
  }

  /** `isUsernameValid`: the trimmed text has at least 3 characters, all letters, digits or underscores. */
  predicate IsUsernameValid(u: string) {
    |Trim(u)| >= 3 && IsUsernameText(Trim(u))
  }

  /** `isDisplayNameValid`: the trimmed text has at least 2 characters. */
  predicate IsDisplayNameValid(d: string) {
    |Trim(d)| >= 2
  }

  predicate IsFormValid(d: Dialog) {
    IsUsernameValid(d.username) && IsDisplayNameValid(d.displayName)
  }

  /** The save button is disabled while the form is invalid or a save is in progress. */
  predicate SaveDisabled(d: Dialog) {
    !IsFormValid(d) || d.saving
  }

  /** The username message shows for invalid input only once something has been typed. */
  predicate UsernameMessageShown(d: Dialog) {
    !IsUsernameValid(d.username) && |d.username| > 0
  }

  predicate DisplayNameMessageShown(d: Dialog) {
    !IsDisplayNameValid(d.displayName) && |d.displayName| > 0
  }

  /** The username input's `onChange`: the typed text, lowered. */
  function ChangeUsername(d: Dialog, typed: string): (r: Dialog)
    ensures r == d.(username := ToLower(typed))
    ensures forall i :: 0 <= i < |r.username| ==> !('A' <= r.username[i] <= 'Z')
  {
    ToLowerPointwise(typed);
    d.(username := ToLower(typed))
  }

  function ChangeDisplayName(d: Dialog, typed: string): (r: Dialog)
    ensures r == d.(displayName := typed)
  {
    d.(displayName := typed)
  }

  /** What `onSave` receives: the trimmed username and display name, and the avatar as it is. */
  function SavePayload(d: Dialog): (p: Profile)
    ensures p.username == Trim(d.username) && p.displayName == Trim(d.displayName) && p.avatar == d.avatar
    ensures IsFormValid(d) ==> IsUsernameText(p.username) && |p.username| >= 3 && |p.displayName| >= 2
  {
    Profile(Trim(d.username), Trim(d.displayName), d.avatar)
  }

  /** The saved text is already trimmed: trimming it again changes nothing. */
  lemma SavePayloadIsTrimmed(d: Dialog)
    ensures var p := SavePayload(d); Trim(p.username) == p.username && Trim(p.displayName) == p.displayName
  {
    TrimIdempotent(d.username);
    TrimIdempotent(d.displayName);
  }

  /**
   * A click on the save button: nothing while it is disabled; otherwise saving starts and the
   * payload, captured now, is what `onSave` will receive when the 1000 ms timer fires.
   */
  function ClickSave(d: Dialog): (r: (Dialog, Option<Profile>))
    ensures SaveDisabled(d) ==> r == (d, None)
    ensures !SaveDisabled(d) ==> r.0 == d.(saving := true) && r.1 == Some(SavePayload(d))
  {
    if SaveDisabled(d) then (d, None) else (d.(saving := true), Some(SavePayload(d)))
  }

  /** What the save timer does when it fires: `onSave` receives the payload, saving stops, and `onClose` is called. */
  datatype Finish = Finish(dialog: Dialog, saved: Profile, closeRequested: bool)

  function FinishSave(d: Dialog, payload: Profile): (r: Finish)
    ensures r.saved == payload && r.closeRequested
    ensures !r.dialog.saving && r.dialog.username == d.username && r.dialog.displayName == d.displayName &&
            r.dialog.avatar == d.avatar
  {
    Finish(d.(saving := false), payload, true)
  }

  /**
   * Clicking an enabled save button and waiting for the timer hands `onSave` the trimmed payload
   * and leaves the dialog exactly as it was before the click.
   */
  lemma ClickThenFinish(d: Dialog)
    requires !SaveDisabled(d)
    ensures var (started, payload) := ClickSave(d);
            payload.Some? && started.saving &&
            FinishSave(started, payload.value) == Finish(d, SavePayload(d), true)
  {
  }

  /** A saved profile passes the dialog's own rules again, so reopening the dialog on it allows saving at once. */
  lemma SavedProfileReopensValid(d: Dialog)
    requires !SaveDisabled(d)
    ensures var p := ClickSave(d).1.value; IsFormValid(Open(p)) && !SaveDisabled(Open(p))
  {
    var p := SavePayload(d);
    assert IsUsernameValid(p.username) by { UsernameTextIsTrimmed(p.username); }
    assert IsDisplayNameValid(p.displayName) by { TrimIdempotent(d.displayName); }
  }

  /**
   * Whether a username is valid does not depend on letter case, so lowering what is typed never
   * changes the verdict. This rests on `ToLower` touching ASCII letters only, as `JsString` models
   * it; it is not a claim about JavaScript's full Unicode `toLowerCase`.
   */
  lemma UsernameValidityIgnoresCase(u: string)
    ensures IsUsernameValid(ToLower(u)) <==> IsUsernameValid(u)
  {
    TrimToLower(u);
    UsernameTextToLower(Trim(u));
  }

  /** A username the sign-up form accepts is accepted here too. */
  lemma SignUpUsernameIsValid(u: string)
    requires SignUpForm.UsernameError(u).None?
    ensures IsUsernameValid(u)
  {
    UsernameTextIsTrimmed(u);
  }

  /**
   * A username of at least three word characters padded with a space on each side is valid here,
   * where it is trimmed, and refused by sign-up, where the space counts and is not a word character.
   */
  lemma PaddedUsername(w: string)
    requires IsUsernameText(w) && |w| >= 3
    ensures IsUsernameValid([' '] + w + [' ']) && SignUpForm.UsernameError([' '] + w + [' ']).Some?
  {
    PaddedWordTrims(w);
    PaddedWordIsNotUsernameText(w);
  }

  lemma PaddedWordTrims(w: string)
    requires IsUsernameText(w)
    ensures Trim([' '] + w + [' ']) == w
  {
    assert NoWhitespace(w);
    TrimPadded(w, ' ', ' ');
  }

  lemma PaddedWordIsNotUsernameText(w: string)
    ensures !IsUsernameText([' '] + w + [' '])
  {
    assert ([' '] + w + [' '])[0] == ' ';
  }

  /**
   * One visible character after a space is too short here, where the space is trimmed, and long
   * enough for sign-up, where the raw text has two characters and is not blank.
   */
  lemma PaddedDisplayName(c: char)
    requires !IsWhitespace(c)
    ensures !IsDisplayNameValid([' '] + [c]) && SignUpForm.DisplayNameError([' '] + [c]).None?
  {
    assert NoWhitespace([c]);
    TrimLeftPadded(' ', [c]);
  }
}

=== FILE: feed.dfy ===
/**
 * The feed page: two tabs of sample posts, each shuffled once per session with a seed. The seed
 * comes from the session store (an input here); when the store yields nothing usable the page
 * falls back to `fallback-<time>`, and when reading it fails, to `error-fallback-<time>`. The
 * explore tab shuffles with the seed followed by `-explore`, and every list shown keeps only the
 * posts with a truthy id.
 *
 * Every list is defined for either generator step: `Truncating`, the step the page is written
 * with, and `Floored`, the corrected one (see the first finding); the properties below hold for both.
 */
module Feed {
  import opened Wrappers
  import opened JsNumber
  import PostShuffle
  import Likes

  datatype Post = Post(id: int, username: string, displayName: string, caption: string,
                       createdAt: string, likes: int, comments: int, isLiked: bool)

  function HomeSample(): (ps: seq<Post>)
    ensures |ps| == 3
  {
    [ Post(1, "gamer_alex", "Alex Chen", "Just finished building my new gaming setup! RGB everything \U{1F308}", "2h", 124, 8, false),
      Post(2, "pixel_art_pro", "Maya Storm", "Working on some retro pixel art for my upcoming indie game ✨", "4h", 89, 12, true),
      Post(3, "code_ninja", "Sam Rivera", "Late night coding session. Coffee is life ☕", "6h", 67, 5, false) ]
  }

  function ExploreSample(): (ps: seq<Post>)
    ensures |ps| == 2
  {
    [ Post(4, "neon_dreams", "Zoe Park", "Cyberpunk vibes in the city tonight \U{1F303}", "8h", 156, 23, false),
      Post(5, "react_master", "Jordan Kim", "New React features are incredible! \U{1F680}", "1d", 203, 17, false) ]
  }

  /**
   * What reading the session seed produced: a value (`None` for one that is not a string) or a
   * thrown error.
   */
  datatype SeedRead = Returned(value: Option<string>) | Threw

  /** The seed the page settles on at mount, given the clock reading `now` in milliseconds. */
  function InitialSeed(read: SeedRead, now: nat): (seed: string)
    ensures seed != ""
    ensures read.Returned? && read.value.Some? && read.value.value != "" ==> seed == read.value.value
    ensures read.Returned? && !(read.value.Some? && read.value.value != "") ==> seed == "fallback-" + NatToString(now)
    ensures read == Threw ==> seed == "error-fallback-" + NatToString(now)
  {
    match read
    case Threw => "error-fallback-" + IntToString(now)
    case Returned(v) =>
      if v.Some? && v.value != "" then v.value else "fallback-" + IntToString(now)
  }

  /** `post && post.id`: a post is kept when its id is truthy, that is, not zero. */
  function KeepTruthy(posts: seq<Post>): (r: seq<Post>)
    ensures |r| <= |posts|
    ensures forall k :: 0 <= k < |r| ==> r[k].id != 0
    decreases |posts|
  {
    if posts == [] then []
    else (if posts[0].id != 0 then [posts[0]] else []) + KeepTruthy(posts[1..])
  }

  /** Exactly the posts with a truthy id survive the filter. */
  lemma {:induction false} KeepTruthyMembership(posts: seq<Post>, p: Post)
    ensures p in KeepTruthy(posts) <==> p in posts && p.id != 0
    decreases |posts|
  {
    if posts != [] {
      KeepTruthyMembership(posts[1..], p);
      assert posts == [posts[0]] + posts[1..];
    }
  }

  predicate AllTruthy(posts: seq<Post>) {
    forall k :: 0 <= k < |posts| ==> posts[k].id != 0
  }

  /** When every id is truthy the filter keeps the list as it is. */
  lemma {:induction false} KeepTruthyOfTruthy(posts: seq<Post>)
    requires AllTruthy(posts)
    ensures KeepTruthy(posts) == posts
    decreases |posts|
  {
    if posts != [] {
      assert AllTruthy(posts[1..]) by {
        forall k | 0 <= k < |posts[1..]|
          ensures posts[1..][k].id != 0
        {
          assert posts[1..][k] == posts[k + 1];
        }
      }
      KeepTruthyOfTruthy(posts[1..]);
      assert posts == [posts[0]] + posts[1..];
    }
  }

  /**
   * One tab's list: unshuffled without a seed, otherwise shuffled with `seed` under the generator
   * step `rule` and filtered. The page as written shuffles with `Truncating`
   * (`PostShuffle.ShufflePostsForUser`); the corrected page with `Floored`.
   */
  function TabList(rule: PostShuffle.RemainderRule, posts: seq<Post>, seedGiven: bool, seed: string): seq<Post> {
    if !seedGiven || |posts| == 0 then posts
    else KeepTruthy(PostShuffle.Shuffled(rule, posts, seed))
  }

  function HomePosts(rule: PostShuffle.RemainderRule, userSeed: string): seq<Post> {
    TabList(rule, HomeSample(), userSeed != "", userSeed)
  }

  function ExplorePosts(rule: PostShuffle.RemainderRule, userSeed: string): seq<Post> {
    TabList(rule, ExploreSample(), userSeed != "", userSeed + "-explore")
  }

  datatype Tab = Home | Explore

  /** `currentPosts`: the active tab's list, filtered once more. */
  function CurrentPosts(rule: PostShuffle.RemainderRule, tab: Tab, userSeed: string): seq<Post> {
    KeepTruthy(if tab == Explore then ExplorePosts(rule, userSeed) else HomePosts(rule, userSeed))
  }

  function Source(tab: Tab): seq<Post> {
    if tab == Explore then ExploreSample() else HomeSample()
  }

  /** The seed a tab shuffles with. */
  function TabSeed(tab: Tab, userSeed: string): string {
    if tab == Explore then userSeed + "-explore" else userSeed
  }

  /** Shuffling moves posts around without making up new ones, so truthy ids stay truthy. */
  lemma ShuffleKeepsTruthy(rule: PostShuffle.RemainderRule, posts: seq<Post>, seed: string)
    requires AllTruthy(posts)
    ensures AllTruthy(PostShuffle.Shuffled(rule, posts, seed))
  {
    var shuffled := PostShuffle.Shuffled(rule, posts, seed);
    PostShuffle.ShuffledPermutes(rule, posts, seed);
    forall k | 0 <= k < |shuffled|
      ensures shuffled[k].id != 0
    {
      assert shuffled[k] in multiset(posts);
    }
  }

  /** With truthy ids, a seeded tab is exactly the shuffle of its posts. */
  lemma SeededTabIsShuffle(rule: PostShuffle.RemainderRule, posts: seq<Post>, seed: string)
    requires AllTruthy(posts) && |posts| > 0
    ensures TabList(rule, posts, true, seed) == PostShuffle.Shuffled(rule, posts, seed)
  {
    ShuffleKeepsTruthy(rule, posts, seed);
    KeepTruthyOfTruthy(PostShuffle.Shuffled(rule, posts, seed));
  }

  /** A tab of truthy posts is a permutation of its posts and keeps every id truthy, under either step. */
  lemma TabListIsPermutation(rule: PostShuffle.RemainderRule, posts: seq<Post>, seedGiven: bool, seed: string)
    requires AllTruthy(posts)
    ensures multiset(TabList(rule, posts, seedGiven, seed)) == multiset(posts)
    ensures AllTruthy(TabList(rule, posts, seedGiven, seed))
  {
    if seedGiven && |posts| > 0 {
      SeededTabIsShuffle(rule, posts, seed);
      ShuffleKeepsTruthy(rule, posts, seed);
      PostShuffle.ShuffledPermutes(rule, posts, seed);
    }
  }

  /** Filtering a tab of truthy posts once more changes nothing, so what is shown is a permutation of the tab's posts. */
  lemma ShownIsPermutation(rule: PostShuffle.RemainderRule, posts: seq<Post>, seedGiven: bool, seed: string)
    requires AllTruthy(posts)
    ensures multiset(KeepTruthy(TabList(rule, posts, seedGiven, seed))) == multiset(posts)
    ensures |KeepTruthy(TabList(rule, posts, seedGiven, seed))| == |posts|
  {
    TabListIsPermutation(rule, posts, seedGiven, seed);
    KeepTruthyOfTruthy(TabList(rule, posts, seedGiven, seed));
    assert |multiset(TabList(rule, posts, seedGiven, seed))| == |multiset(posts)|;
  }

  lemma SamplesTruthy()
    ensures AllTruthy(HomeSample()) && AllTruthy(ExploreSample())
  {
  }

  /** The shown posts of either tab are exactly that tab's sample posts, each once, in some order, under either step. */
  lemma CurrentPostsArePermutation(rule: PostShuffle.RemainderRule, tab: Tab, userSeed: string)
    ensures multiset(CurrentPosts(rule, tab, userSeed)) == multiset(Source(tab))
    ensures |CurrentPosts(rule, tab, userSeed)| == |Source(tab)|
  {
    SamplesTruthy();
    if tab == Explore {
      ShownIsPermutation(rule, ExploreSample(), userSeed != "", userSeed + "-explore");
    } else {
      ShownIsPermutation(rule, HomeSample(), userSeed != "", userSeed);
    }
  }

  /** Before the seed is set, both tabs show their posts in the original order. */
  lemma EmptySeedKeepsOrder(rule: PostShuffle.RemainderRule, tab: Tab)
    ensures CurrentPosts(rule, tab, "") == Source(tab)
  {
    SamplesTruthy();
    KeepTruthyOfTruthy(Source(tab));
  }

  /**
   * The home tab shuffles with the seed itself and the explore tab with the seed followed by
   * `-explore`; as written that shuffle is `shufflePostsForUser`.
   */
  lemma TabsUseTheirSeeds(rule: PostShuffle.RemainderRule, userSeed: string)
    requires userSeed != ""
    ensures HomePosts(rule, userSeed) == PostShuffle.Shuffled(rule, HomeSample(), userSeed)
    ensures ExplorePosts(rule, userSeed) == PostShuffle.Shuffled(rule, ExploreSample(), userSeed + "-explore")
    ensures HomePosts(PostShuffle.Truncating, userSeed) == PostShuffle.ShufflePostsForUser(HomeSample(), userSeed)
    ensures ExplorePosts(PostShuffle.Truncating, userSeed) ==
              PostShuffle.ShufflePostsForUser(ExploreSample(), userSeed + "-explore")
  {
    SamplesTruthy();
    SeededTabIsShuffle(rule, HomeSample(), userSeed);
    SeededTabIsShuffle(rule, ExploreSample(), userSeed + "-explore");
    SeededTabIsShuffle(PostShuffle.Truncating, HomeSample(), userSeed);
    SeededTabIsShuffle(PostShuffle.Truncating, ExploreSample(), userSeed + "-explore");
  }

  /** Once mounted, the page always has a seed, so the shown list is the shuffled tab. */
  lemma MountedFeedIsShuffled(rule: PostShuffle.RemainderRule, read: SeedRead, now: nat, tab: Tab)
    ensures var seed := InitialSeed(read, now);
            CurrentPosts(rule, tab, seed) == PostShuffle.Shuffled(rule, Source(tab), TabSeed(tab, seed))
  {
    var seed := InitialSeed(read, now);
    SamplesTruthy();
    TabsUseTheirSeeds(rule, seed);
    if tab == Explore {
      ShuffleKeepsTruthy(rule, ExploreSample(), seed + "-explore");
      KeepTruthyOfTruthy(ExplorePosts(rule, seed));
    } else {
      ShuffleKeepsTruthy(rule, HomeSample(), seed);
      KeepTruthyOfTruthy(HomePosts(rule, seed));
    }
  }

  /**
   * As written, a session whose stored seed is "zzzzzz" sees the home tab in its original order:
   * the seed hashes to a negative number and every swap of the three-post shuffle is skipped.
   */
  lemma AsWrittenHomeTabUnshuffled()
    ensures CurrentPosts(PostShuffle.Truncating, Home, "zzzzzz") == HomeSample()
  {
    PostShuffle.HashOfZs();
    PostShuffle.StatesOfZs();
    assert PostShuffle.AllStatesNegative(PostShuffle.Truncating, -685785664, 2);
    PostShuffle.NegativeStatesKeepOrder(HomeSample(), -685785664, 2);
    SamplesTruthy();
    KeepTruthyOfTruthy(HomeSample());
  }

  /** The feed's own post card: a like toggle and a save flag. */
  datatype FeedCard = FeedCard(like: Likes.LikeState, saved: bool)

  function InitialCard(p: Post): (c: FeedCard)
    ensures c.like == Likes.LikeState(p.isLiked, p.likes) && !c.saved
  {
    FeedCard(Likes.LikeState(p.isLiked, p.likes), false)
  }

  /** `handleLike`: the count moves by one against the old flag; the save flag is untouched. */
  function LikeCard(c: FeedCard): (r: FeedCard)
    ensures r.like.isLiked == !c.like.isLiked && r.saved == c.saved
    ensures r.like.likes == (if c.like.isLiked then c.like.likes - 1 else c.like.likes + 1)
  {
    c.(like := Likes.Toggle(c.like))
  }

  /** `handleSave`: flips the save flag only. */
  function SaveCard(c: FeedCard): (r: FeedCard)
    ensures r.saved == !c.saved && r.like == c.like
  {
    c.(saved := !c.saved)
  }

  /** Liking and saving are independent, and each undoes itself. */
  lemma CardTogglesCommuteAndUndo(c: FeedCard)
    ensures LikeCard(SaveCard(c)) == SaveCard(LikeCard(c))
    ensures LikeCard(LikeCard(c)) == c && SaveCard(SaveCard(c)) == c
  {
    Likes.ToggleTwiceRestores(c.like);
  }
}

=== FILE: files.dfy ===
/**
 * The files page: a list of sample files, a row of type filters with a count each, and an icon and
 * colour per file chosen by its type. A file's type is free text; the lookups fall back to a
 * generic icon and grey for any type they do not know.
 */
module Files {

  datatype FileEntry = FileEntry(id: int, name: string, kind: string, size: string, uploadedAt: string)

  /** The six sample files the page lists. */
  function SampleFiles(): (fs: seq<FileEntry>)
    ensures |fs| == 6
  {
    [ FileEntry(1, "Gaming_Setup_2024.jpg", "image", "2.4 MB", "2 hours ago"),
      FileEntry(2, "React_Component_Guide.pdf", "document", "1.2 MB", "1 day ago"),
      FileEntry(3, "Epic_Gaming_Montage.mp4", "video", "45.6 MB", "3 days ago"),
      FileEntry(4, "Pixel_Art_Assets.zip", "archive", "8.9 MB", "1 week ago"),
      FileEntry(5, "Background_Music.mp3", "audio", "5.1 MB", "1 week ago"),
      FileEntry(6, "Project_Proposal.docx", "document", "890 KB", "2 weeks ago") ]
  }

  /** The files of one type, in their original order. */
  function OfKind(files: seq<FileEntry>, kind: string): (r: seq<FileEntry>)
    ensures |r| <= |files|
    ensures forall k :: 0 <= k < |r| ==> r[k].kind == kind
    decreases |files|
  {
    if files == [] then []
    else (if files[0].kind == kind then [files[0]] else []) + OfKind(files[1..], kind)
  }

  /** `filterFilesByType`: `"all"` shows every file, any other filter the files of that type. */
  function FilterByType(files: seq<FileEntry>, filter: string): (r: seq<FileEntry>)
    ensures filter == "all" ==> r == files
    ensures filter != "all" ==> r == OfKind(files, filter)
  {
    if filter == "all" then files else OfKind(files, filter)
  }

  /** A file is listed under a type exactly when it is in the list and has that type. */
  lemma {:induction false} OfKindMembership(files: seq<FileEntry>, kind: string, f: FileEntry)
    ensures f in OfKind(files, kind) <==> f in files && f.kind == kind
    decreases |files|
  {
    if files != [] {
      OfKindMembership(files[1..], kind, f);
      assert files == [files[0]] + files[1..];
    }
  }

  /** Filtering distributes over concatenation, so the relative order of the kept files is the original one. */
  lemma {:induction false} OfKindAppend(a: seq<FileEntry>, b: seq<FileEntry>, kind: string)
    ensures OfKind(a + b, kind) == OfKind(a, kind) + OfKind(b, kind)
    decreases |a|
  {
    if a != [] {
      assert (a + b)[0] == a[0] && (a + b)[1..] == a[1..] + b;
      OfKindAppend(a[1..], b, kind);
    } else {
      assert a + b == b;
    }
  }

  /** Choosing the same filter again shows the same files. */
  lemma {:induction false} OfKindIdempotent(files: seq<FileEntry>, kind: string)
    ensures OfKind(OfKind(files, kind), kind) == OfKind(files, kind)
    decreases |files|
  {
    if files != [] {
      var head := if files[0].kind == kind then [files[0]] else [];
      OfKindAppend(head, OfKind(files[1..], kind), kind);
      OfKindIdempotent(files[1..], kind);
      assert OfKind(head, kind) == head by {
        if head != [] {
          assert head[1..] == [];
        }
      }
    }
  }

  lemma FilterIdempotent(files: seq<FileEntry>, filter: string)
    ensures FilterByType(FilterByType(files, filter), filter) == FilterByType(files, filter)
  {
    if filter != "all" {
      OfKindIdempotent(files, filter);
    }
  }

  /** The filter buttons, in display order, with their titles and counts. */
  datatype FilterButton = FilterButton(id: string, title: string, count: nat)

  function Buttons(files: seq<FileEntry>): (bs: seq<FilterButton>)
    ensures |bs| == 6
    ensures forall k :: 0 <= k < 6 ==> bs[k].count == |FilterByType(files, bs[k].id)|
  {
    [ FilterButton("all", "All Files", |files|),
      FilterButton("image", "Images", |OfKind(files, "image")|),
      FilterButton("video", "Videos", |OfKind(files, "video")|),
      FilterButton("document", "Documents", |OfKind(files, "document")|),
      FilterButton("audio", "Audio", |OfKind(files, "audio")|),
      FilterButton("archive", "Archives", |OfKind(files, "archive")|) ]
  }

  /** The five types the page knows. */
  predicate KnownKind(kind: string) {
    kind == "image" || kind == "video" || kind == "document" || kind == "audio" || kind == "archive"
  }

  /** When every file has a known type, the five type counts add up to the "all" count. */
  lemma {:induction false} KnownCountsAddUp(files: seq<FileEntry>)
    requires forall k :: 0 <= k < |files| ==> KnownKind(files[k].kind)
    ensures |OfKind(files, "image")| + |OfKind(files, "video")| + |OfKind(files, "document")|
            + |OfKind(files, "audio")| + |OfKind(files, "archive")| == |files|
    decreases |files|
  {
    if files != [] {
      KnownCountsAddUp(files[1..]);
    }
  }

  lemma SampleImagesAndVideos()
    ensures |OfKind(SampleFiles(), "image")| == 1 && |OfKind(SampleFiles(), "video")| == 1
  {
    var fs := SampleFiles();
    assert fs[1..][1..][1..][1..][1..][1..] == [];
  }

  lemma SampleDocuments()
    ensures |OfKind(SampleFiles(), "document")| == 2
  {
    var fs := SampleFiles();
    assert fs[1..][1..][1..][1..][1..][1..] == [];
  }

  lemma SampleAudioAndArchives()
    ensures |OfKind(SampleFiles(), "audio")| == 1 && |OfKind(SampleFiles(), "archive")| == 1
  {
    var fs := SampleFiles();
    assert fs[1..][1..][1..][1..][1..][1..] == [];
  }

  lemma SampleCounts()
    ensures var bs := Buttons(SampleFiles());
            bs[0].count == 6 && bs[1].count == 1 && bs[2].count == 1 && bs[3].count == 2
            && bs[4].count == 1 && bs[5].count == 1
  {
    SampleImagesAndVideos();
    SampleDocuments();
    SampleAudioAndArchives();
  }

  datatype Icon = ImageIcon | VideoIcon | MusicIcon | ArchiveIcon | FileTextIcon | FileIcon

  /** `getFileIcon`: one icon per known type, the generic file icon otherwise. */
  function IconFor(kind: string): (i: Icon)
    ensures i == FileIcon <==> !KnownKind(kind)
  {
    match kind
    case "image" => ImageIcon
    case "video" => VideoIcon
    case "audio" => MusicIcon
    case "archive" => ArchiveIcon
    case "document" => FileTextIcon
    case _ => FileIcon
  }

  /** `getFileColor`: one colour class per known type, grey otherwise. */
  function ColorFor(kind: string): (c: string)
    ensures c == "text-gray-500" <==> !KnownKind(kind)
  {
    match kind
    case "image" => "text-green-500"
    case "video" => "text-red-500"
    case "audio" => "text-purple-500"
    case "archive" => "text-yellow-500"
    case "document" => "text-blue-500"
    case _ => "text-gray-500"
  }

  /** Icon and colour tell the types apart equally well: two types share an icon iff they share a colour. */
  lemma IconAndColorAgree(a: string, b: string)
    ensures IconFor(a) == IconFor(b) <==> ColorFor(a) == ColorFor(b)
  {
  }
}

=== FILE: form_rules.dfy ===
/**
 * The character-class rules the account forms share: the username pattern `^[a-zA-Z0-9_]+$` and
 * the e-mail pattern `^[^\s@]+@[^\s@]+\.[^\s@]+$`, each as a declarative pattern and, for the
 * e-mail, as the shape a reader checks: one `@`, no white space, a dot inside the domain.
 */
module FormRules {
  import opened JsString

  predicate IsWordChar(c: char) {
    ('a' <= c <= 'z') || ('A' <= c <= 'Z') || ('0' <= c <= '9') || c == '_'
  }

  /** `^[a-zA-Z0-9_]+$`: one or more letters, digits or underscores. */
  predicate IsUsernameText(s: string) {
    |s| > 0 && forall i :: 0 <= i < |s| ==> IsWordChar(s[i])
  }

  /** A username has no white space, so it trims to itself and is not blank. */
  lemma UsernameTextIsTrimmed(s: string)
    requires IsUsernameText(s)
    ensures Trim(s) == s && Trim(s) != ""
  {
    assert NoWhitespace(s);
    TrimNoWhitespace(s);
  }

  /** Lowering a character neither makes nor breaks a letter, digit or underscore. */
  lemma WordCharLower(c: char)
    ensures IsWordChar(LowerChar(c)) <==> IsWordChar(c)
  {
  }

  /** Lowering ASCII letters neither makes nor breaks a username. */
  lemma UsernameTextToLower(s: string)
    ensures IsUsernameText(ToLower(s)) <==> IsUsernameText(s)
  {
    ToLowerPointwise(s);
    forall i | 0 <= i < |s|
      ensures IsWordChar(ToLower(s)[i]) <==> IsWordChar(s[i])
    {
      WordCharLower(s[i]);
    }
  }

  /** `[^\s@]` over the index range `[lo, hi)` of `s`. */
  predicate PlainRange(s: string, lo: int, hi: int)
    requires 0 <= lo <= hi <= |s|
  {
    forall k :: lo <= k < hi ==> !IsWhitespace(s[k]) && s[k] != '@'
  }

  /**
   * `^[^\s@]+@[^\s@]+\.[^\s@]+$`: a non-empty plain run, `@` at `i`, a non-empty plain run, `.` at
   * `j`, and a non-empty plain run to the end. The middle run excludes `@` but not `.`.
   */
  predicate EmailPattern(s: string) {
    exists i, j :: 0 < i && i + 1 < j && j + 1 < |s| && s[i] == '@' && s[j] == '.' &&
      PlainRange(s, 0, i) && PlainRange(s, i + 1, j) && PlainRange(s, j + 1, |s|)
  }

  /** `s` contains `@` at index `i` and nowhere else. */
  predicate OnlyAtSignAt(s: string, i: int) {
    0 <= i < |s| && s[i] == '@' && forall k :: 0 <= k < |s| && k != i ==> s[k] != '@'
  }

  /** A dot strictly inside the domain that follows the `@` at `i`: neither its first nor its last character. */
  predicate DotInsideDomain(s: string, i: int)
    requires 0 <= i
  {
    exists j :: i + 1 < j < |s| - 1 && s[j] == '.'
  }

  /** The shape of an accepted address: no white space, exactly one `@`, not first, and a dot inside the domain. */
  predicate EmailShape(s: string) {
    NoWhitespace(s) && exists i :: 0 < i < |s| && OnlyAtSignAt(s, i) && DotInsideDomain(s, i)
  }

  /** The regular expression accepts exactly the addresses of that shape. */
  lemma EmailPatternIffShape(s: string)
    ensures EmailPattern(s) <==> EmailShape(s)
  {
    if EmailPattern(s) {
      var i, j :| 0 < i && i + 1 < j && j + 1 < |s| && s[i] == '@' && s[j] == '.' &&
        PlainRange(s, 0, i) && PlainRange(s, i + 1, j) && PlainRange(s, j + 1, |s|);
      PatternPartsAreShape(s, i, j);
    }
    if EmailShape(s) {
      var i :| 0 < i < |s| && OnlyAtSignAt(s, i) && DotInsideDomain(s, i);
      var j :| i + 1 < j < |s| - 1 && s[j] == '.';
      assert PlainRange(s, 0, i) && PlainRange(s, i + 1, j) && PlainRange(s, j + 1, |s|);
    }
  }

  lemma PatternPartsAreShape(s: string, i: int, j: int)
    requires 0 < i && i + 1 < j && j + 1 < |s| && s[i] == '@' && s[j] == '.'
    requires PlainRange(s, 0, i) && PlainRange(s, i + 1, j) && PlainRange(s, j + 1, |s|)
    ensures EmailShape(s)
  {
    forall k | 0 <= k < |s|
      ensures !IsWhitespace(s[k]) && (k != i ==> s[k] != '@')
    {
      if k < i {
      } else if k == i {
      } else if k < j {
      } else if k == j {
      } else {
      }
    }
    assert OnlyAtSignAt(s, i);
    assert DotInsideDomain(s, i);
  }

  /** An accepted address is not blank. */
  lemma EmailPatternNotBlank(s: string)
    requires EmailPattern(s)
    ensures Trim(s) != ""
  {
    var i, j :| 0 < i && i + 1 < j && j + 1 < |s| && s[i] == '@' && s[j] == '.' &&
      PlainRange(s, 0, i) && PlainRange(s, i + 1, j) && PlainRange(s, j + 1, |s|);
    TrimEmptyIffAllWhitespace(s);
    assert !IsWhitespace(s[0]);
  }

  /** Examples at the edges of the pattern: a dot may follow the `@` only after a domain character, and the domain may hold several dots. */
  lemma EmailExamples()
    ensures EmailPattern("a@b.c")
    ensures EmailPattern("a@b.c.")
    ensures !EmailPattern("a@.c")
    ensures !EmailPattern("a@b@c.d")
  {
    var a := "a@b.c";
    assert a[1] == '@' && a[3] == '.';
    assert PlainRange(a, 0, 1) && PlainRange(a, 2, 3) && PlainRange(a, 4, 5);
    var b := "a@b.c.";
    assert b[1] == '@' && b[3] == '.';
    assert PlainRange(b, 0, 1) && PlainRange(b, 2, 3) && PlainRange(b, 4, 6);
    EmailPatternIffShape("a@.c");
    EmailPatternIffShape("a@b@c.d");
    var d := "a@b@c.d";
    assert d[1] == '@' && d[3] == '@';
  }
}

=== FILE: js_number.dfy ===
/**
 * JavaScript number semantics the application depends on, stated over unbounded integers:
 * the signed 32-bit conversion that bitwise operators apply (`ToInt32`), the remainder operator
 * `%` (which truncates toward zero, unlike Dafny's Euclidean `%`), and the decimal text of an
 * integer (`Number.prototype.toString` and template literals).
 */
module JsNumber {

  const TwoTo31: int := 0x8000_0000
  const TwoTo32: int := 0x1_0000_0000

  predicate IsInt32(x: int) {
    -TwoTo31 <= x < TwoTo31
  }

  /** `ToInt32`: the signed 32-bit integer congruent to `x` modulo 2^32. */
  function ToInt32(x: int): (r: int)
    ensures IsInt32(r)
    ensures (x - r) % TwoTo32 == 0
  {
    var m := x % TwoTo32;
    if m >= TwoTo31 then m - TwoTo32 else m
  }

  /** Congruent inputs have the same 32-bit image. */
  lemma ToInt32Congruent(a: int, b: int)
    requires (a - b) % TwoTo32 == 0
    ensures ToInt32(a) == ToInt32(b)
  {
    var q := (a - b) / TwoTo32;
    assert a == b + q * TwoTo32;
    assert a % TwoTo32 == b % TwoTo32;
  }

  /** A value that already fits in 32 bits is unchanged by `ToInt32`. */
  lemma ToInt32Identity(x: int)
    requires IsInt32(x)
    ensures ToInt32(x) == x
  {
  }

  /** The JavaScript remainder `a % m` for a positive divisor: the sign follows the dividend. */
  function TruncRem(a: int, m: int): (r: int)
    requires m > 0
    ensures -m < r < m
    ensures a >= 0 ==> r >= 0
    ensures a <= 0 ==> r <= 0
    ensures a >= 0 ==> r == a % m
    ensures a < 0 ==> r == -((-a) % m)
  {
    if a >= 0 then a % m else -((-a) % m)
  }

  function DigitChar(d: int): (c: char)
    requires 0 <= d < 10
    ensures '0' <= c <= '9'
  {
    ('0' as int + d) as char
  }

  /** The decimal digits of a natural number, most significant first, without leading zeros. */
  function NatToString(n: nat): (s: string)
    ensures |s| >= 1
    ensures forall i :: 0 <= i < |s| ==> '0' <= s[i] <= '9'
    ensures (|s| == 1) <==> n < 10
  {
    if n < 10 then [DigitChar(n)] else NatToString(n / 10) + [DigitChar(n % 10)]
  }

  /**
   * The text JavaScript's `toString` produces for an integer value of magnitude below 10^21;
   * from 10^21 on JavaScript writes an exponent instead, which this does not model. The
   * identifiers the application formats are far below that bound.
   */
  function IntToString(i: int): (s: string)
    ensures |s| >= 1
  {
    if i < 0 then "-" + NatToString(-i) else NatToString(i)
  }

  lemma {:induction false} NatToStringInjective(a: nat, b: nat)
    requires NatToString(a) == NatToString(b)
    ensures a == b
    decreases a
  {
    var s := NatToString(a);
    if a >= 10 {
      assert b >= 10;
      assert s[|s| - 1] == DigitChar(a % 10) == DigitChar(b % 10);
      assert NatToString(a / 10) == s[..|s| - 1] == NatToString(b / 10);
      NatToStringInjective(a / 10, b / 10);
    }
  }

  lemma SignCharIffNegative(i: int)
    ensures IntToString(i)[0] == '-' <==> i < 0
  {
  }

  /** Distinct integers have distinct decimal text, so comparing ids by their text compares the numbers. */
  lemma IntToStringInjective(a: int, b: int)
    requires IntToString(a) == IntToString(b)
    ensures a == b
  {
    SignCharIffNegative(a);
    SignCharIffNegative(b);
    if a < 0 {
      assert NatToString(-a) == IntToString(a)[1..];
      NatToStringInjective(-a, -b);
    } else {
      NatToStringInjective(a, b);
    }
  }
}

=== FILE: js_string.dfy ===
/**
 * The few JavaScript string primitives the application relies on, over `string` as a sequence of
 * code points: the white-space class shared by `\s` and `String.prototype.trim`, `trim`,
 * `toLowerCase` (on ASCII letters), `includes` and `startsWith`.
 */
module JsString {

  /** The characters JavaScript's `\s` class matches and `trim` removes (ECMAScript WhiteSpace and LineTerminator). */
  predicate IsWhitespace(c: char) {
    || c == '\t' || c == '\n' || c == '\U{000B}' || c == '\U{000C}' || c == '\r' || c == ' '
    || c == '\U{00A0}' || c == '\U{1680}' || ('\U{2000}' <= c <= '\U{200A}')
    || c == '\U{2028}' || c == '\U{2029}' || c == '\U{202F}' || c == '\U{205F}'
    || c == '\U{3000}' || c == '\U{FEFF}'
  }

  predicate AllWhitespace(s: string) {
    forall i :: 0 <= i < |s| ==> IsWhitespace(s[i])
  }

  predicate NoWhitespace(s: string) {
    forall i :: 0 <= i < |s| ==> !IsWhitespace(s[i])
  }

  /** How many white-space characters `s` starts with. */
  function LeadingWhitespace(s: string): (n: nat)
    ensures n <= |s|
    ensures n < |s| ==> !IsWhitespace(s[n])
  {
    if |s| > 0 && IsWhitespace(s[0]) then 1 + LeadingWhitespace(s[1..]) else 0
  }

  /** How many white-space characters `s` ends with. */
  function TrailingWhitespace(s: string): (n: nat)
    ensures n <= |s|
    ensures n < |s| ==> !IsWhitespace(s[|s| - 1 - n])
  {
    if |s| > 0 && IsWhitespace(s[|s| - 1]) then 1 + TrailingWhitespace(s[..|s| - 1]) else 0
  }

  /** The leading white space counted is white space throughout. */
  lemma {:induction false} LeadingWhitespaceIsWhitespace(s: string)
    ensures forall i :: 0 <= i < LeadingWhitespace(s) ==> IsWhitespace(s[i])
    decreases |s|
  {
    if |s| > 0 && IsWhitespace(s[0]) {
      LeadingWhitespaceIsWhitespace(s[1..]);
      assert forall i :: 1 <= i < LeadingWhitespace(s) ==> s[i] == s[1..][i - 1];
    }
  }

  /** The trailing white space counted is white space throughout. */
  lemma {:induction false} TrailingWhitespaceIsWhitespace(s: string)
    ensures forall i :: |s| - TrailingWhitespace(s) <= i < |s| ==> IsWhitespace(s[i])
    decreases |s|
  {
    if |s| > 0 && IsWhitespace(s[|s| - 1]) {
      TrailingWhitespaceIsWhitespace(s[..|s| - 1]);
      assert forall i :: |s| - TrailingWhitespace(s) <= i < |s| - 1 ==> s[i] == s[..|s| - 1][i];
    }
  }

  /** `String.prototype.trimStart`: the suffix of `s` left after its leading white space. */
  function TrimStart(s: string): (r: string)
    ensures |r| <= |s| && r == s[|s| - |r|..]
    ensures r == [] || !IsWhitespace(r[0])
  {
    s[LeadingWhitespace(s)..]
  }

  /** `String.prototype.trimEnd`: the prefix of `s` left before its trailing white space. */
  function TrimEnd(s: string): (r: string)
    ensures |r| <= |s| && r == s[..|r|]
    ensures r == [] || !IsWhitespace(r[|r| - 1])
  {
    s[..|s| - TrailingWhitespace(s)]
  }

  /** A leading white-space character makes no difference to `TrimStart`. */
  lemma TrimStartStep(s: string)
    requires |s| > 0 && IsWhitespace(s[0])
    ensures TrimStart(s) == TrimStart(s[1..])
  {
    assert s[1..][LeadingWhitespace(s[1..])..] == s[1 + LeadingWhitespace(s[1..])..];
  }

  /** A trailing white-space character makes no difference to `TrimEnd`. */
  lemma TrimEndStep(s: string)
    requires |s| > 0 && IsWhitespace(s[|s| - 1])
    ensures TrimEnd(s) == TrimEnd(s[..|s| - 1])
  {
    var t := s[..|s| - 1];
    assert t[..|t| - TrailingWhitespace(t)] == s[..|s| - TrailingWhitespace(s)];
  }

  /** `String.prototype.trim`: the result neither starts nor ends with white space. */
  function Trim(s: string): (r: string)
    ensures |r| <= |s|
    ensures r == [] || (!IsWhitespace(r[0]) && !IsWhitespace(r[|r| - 1]))
  {
    TrimEnd(TrimStart(s))
  }

  /** Every character of `s` before index `a` and from index `b` on is white space. */
  predicate WhitespaceOutside(s: string, a: nat, b: nat)
    requires a <= b <= |s|
  {
    (forall k :: 0 <= k < a ==> IsWhitespace(s[k])) && (forall k :: b <= k < |s| ==> IsWhitespace(s[k]))
  }

  /** `trim` keeps the characters of `s` between its leading and its trailing white space. */
  lemma TrimWindow(s: string)
    ensures LeadingWhitespace(s) + |Trim(s)| <= |s|
    ensures Trim(s) == s[LeadingWhitespace(s)..LeadingWhitespace(s) + |Trim(s)|]
  {
    var a := LeadingWhitespace(s);
    var t := s[a..];
    var m := |t| - TrailingWhitespace(t);
    assert TrimStart(s) == t;
    assert Trim(s) == t[..m];
    assert t[..m] == s[a..a + m];
  }

  /** Everything of `s` after the window `trim` keeps is white space. */
  lemma TrimDropsTrailing(s: string)
    ensures forall k :: LeadingWhitespace(s) + |Trim(s)| <= k < |s| ==> IsWhitespace(s[k])
  {
    var a := LeadingWhitespace(s);
    var t := s[a..];
    TrailingWhitespaceIsWhitespace(t);
    forall k | a + |Trim(s)| <= k < |s|
      ensures IsWhitespace(s[k])
    {
      assert s[k] == t[k - a];
    }
  }

  /** What `trim` returns is the slice of `s` left after cutting only white space from both ends. */
  lemma TrimIsSlice(s: string)
    ensures exists a: nat, b: nat :: a <= b <= |s| && Trim(s) == s[a..b] && WhitespaceOutside(s, a, b)
  {
    var a := LeadingWhitespace(s);
    var b := a + |Trim(s)|;
    TrimWindow(s);
    LeadingWhitespaceIsWhitespace(s);
    TrimDropsTrailing(s);
    assert WhitespaceOutside(s, a, b);
  }

  /** A string trims to the empty string exactly when every character of it is white space. */
  lemma TrimEmptyIffAllWhitespace(s: string)
    ensures Trim(s) == [] <==> AllWhitespace(s)
  {
    TrimWindow(s);
    if Trim(s) == [] {
      LeadingWhitespaceIsWhitespace(s);
      TrimDropsTrailing(s);
    } else {
      assert Trim(s)[0] == s[LeadingWhitespace(s)];
    }
  }

  /** A string without white space is its own trim. */
  lemma TrimNoWhitespace(s: string)
    requires NoWhitespace(s)
    ensures Trim(s) == s
  {
    assert TrimStart(s) == s;
  }

  /** A leading white-space character is dropped by `TrimStart`. */
  lemma TrimStartDropsWhitespace(c: char, t: string)
    requires IsWhitespace(c)
    ensures TrimStart([c] + t) == TrimStart(t)
  {
    TrimStartStep([c] + t);
    assert ([c] + t)[1..] == t;
  }

  /** A trailing white-space character is dropped by `TrimEnd`. */
  lemma TrimEndDropsWhitespace(t: string, c: char)
    requires IsWhitespace(c)
    ensures TrimEnd(t + [c]) == TrimEnd(t)
  {
    TrimEndStep(t + [c]);
    assert (t + [c])[..|t|] == t;
  }

  /** Surrounding a string free of white space with white space on each side: trimming takes it back off. */
  lemma TrimPadded(s: string, left: char, right: char)
    requires NoWhitespace(s) && IsWhitespace(left) && IsWhitespace(right)
    ensures Trim([left] + s + [right]) == s
  {
    assert [left] + s + [right] == [left] + (s + [right]);
    TrimStartDropsWhitespace(left, s + [right]);
    if s == [] {
      assert TrimStart([right]) == [];
    } else {
      assert TrimStart(s + [right]) == s + [right];
      TrimEndDropsWhitespace(s, right);
      TrimNoWhitespace(s);
      assert TrimStart(s) == s;
    }
  }

  /** White space in front of a string free of white space: trimming takes it back off. */
  lemma TrimLeftPadded(left: char, s: string)
    requires NoWhitespace(s) && IsWhitespace(left)
    ensures Trim([left] + s) == s
  {
    TrimStartDropsWhitespace(left, s);
    TrimNoWhitespace(s);
  }

  /** The trimmed string has no white space at either end, so trimming again changes nothing. */
  lemma TrimIdempotent(s: string)
    ensures Trim(Trim(s)) == Trim(s)
  {
    var r := Trim(s);
    assert TrimStart(r) == r;
    assert TrimEnd(r) == r;
  }

  /** `toLowerCase`, restricted to the ASCII letters. */
  function LowerChar(c: char): (r: char)
    ensures !('A' <= r <= 'Z')
    ensures !('A' <= c <= 'Z') ==> r == c
  {
    if 'A' <= c <= 'Z' then (c as int + 32) as char else c
  }

  function ToLower(s: string): (r: string)
    ensures |r| == |s|
  {
    if s == [] then [] else [LowerChar(s[0])] + ToLower(s[1..])
  }

  /** Character by character, the lowered string is the lowered input, and holds no upper-case ASCII letter. */
  lemma {:induction false} ToLowerPointwise(s: string)
    ensures forall i :: 0 <= i < |s| ==> ToLower(s)[i] == LowerChar(s[i])
  {
    if s != [] {
      ToLowerPointwise(s[1..]);
      assert forall i :: 1 <= i < |s| ==> ToLower(s)[i] == ToLower(s[1..])[i - 1];
    }
  }

  lemma ToLowerIdempotent(s: string)
    ensures ToLower(ToLower(s)) == ToLower(s)
  {
    ToLowerPointwise(s);
    ToLowerPointwise(ToLower(s));
  }

  lemma LowerCharWhitespace(c: char)
    ensures IsWhitespace(LowerChar(c)) <==> IsWhitespace(c)
  {
  }

  /** Lowering a string and then taking a prefix is taking the prefix and then lowering it. */
  lemma ToLowerPrefix(s: string, k: nat)
    requires k <= |s|
    ensures ToLower(s[..k]) == ToLower(s)[..k]
  {
    ToLowerPointwise(s);
    ToLowerPointwise(s[..k]);
    forall i | 0 <= i < k
      ensures ToLower(s[..k])[i] == ToLower(s)[..k][i]
    {
      assert s[..k][i] == s[i];
    }
  }

  lemma {:induction false} TrimStartToLower(s: string)
    ensures TrimStart(ToLower(s)) == ToLower(TrimStart(s))
    decreases |s|
  {
    if s != [] {
      var t := ToLower(s);
      assert t == [LowerChar(s[0])] + ToLower(s[1..]);
      assert t[1..] == ToLower(s[1..]);
      LowerCharWhitespace(s[0]);
      if IsWhitespace(s[0]) {
        TrimStartToLower(s[1..]);
        TrimStartStep(s);
        TrimStartStep(t);
      } else {
        assert TrimStart(t) == t;
      }
    }
  }

  lemma {:induction false} TrimEndToLower(s: string)
    ensures TrimEnd(ToLower(s)) == ToLower(TrimEnd(s))
    decreases |s|
  {
    if s != [] {
      var n := |s|;
      ToLowerPointwise(s);
      assert ToLower(s)[n - 1] == LowerChar(s[n - 1]);
      LowerCharWhitespace(s[n - 1]);
      if IsWhitespace(s[n - 1]) {
        ToLowerPrefix(s, n - 1);
        TrimEndToLower(s[..n - 1]);
        TrimEndStep(s);
        TrimEndStep(ToLower(s));
      } else {
        assert s[..|s|] == s && ToLower(s)[..|s|] == ToLower(s);
      }
    }
  }

  /**
   * Lowering ASCII letters neither creates nor removes white space, so trimming and lowering
   * commute: `s.toLowerCase().trim() == s.trim().toLowerCase()`.
   */
  lemma TrimToLower(s: string)
    ensures Trim(ToLower(s)) == ToLower(Trim(s))
  {
    TrimStartToLower(s);
    TrimEndToLower(TrimStart(s));
  }

  /** `needle` occurs in `hay` starting at index `k`. */
  predicate OccursAt(needle: string, hay: string, k: int) {
    0 <= k && k + |needle| <= |hay| && hay[k..k + |needle|] == needle
  }

  /** `String.prototype.includes`: true exactly when the needle occurs somewhere in the haystack. */
  function Includes(hay: string, needle: string): (b: bool)
    ensures b <==> exists k :: OccursAt(needle, hay, k)
    decreases |hay|
  {
    if |needle| > |hay| then
      assert forall k :: !OccursAt(needle, hay, k);
      false
    else if hay[..|needle|] == needle then
      assert OccursAt(needle, hay, 0);
      true
    else
      var b := Includes(hay[1..], needle);
      assert b ==> exists k :: OccursAt(needle, hay, k) by {
        if b {
          var k :| OccursAt(needle, hay[1..], k);
          OccursShift(needle, hay, k + 1);
        }
      }
      assert (exists k :: OccursAt(needle, hay, k)) ==> b by {
        if exists k :: OccursAt(needle, hay, k) {
          var k :| OccursAt(needle, hay, k);
          assert k != 0;
          OccursShift(needle, hay, k);
        }
      }
      b
  }

  /** An occurrence at `k >= 1` is an occurrence at `k - 1` in the string without its first character. */
  lemma OccursShift(needle: string, hay: string, k: int)
    requires |hay| > 0 && k >= 1
    ensures OccursAt(needle, hay, k) <==> OccursAt(needle, hay[1..], k - 1)
  {
    if k + |needle| <= |hay| {
      var tail := hay[1..];
      forall j | k <= j < k + |needle|
        ensures hay[j] == tail[j - 1]
      {
      }
      assert tail[k - 1..k - 1 + |needle|] == hay[k..k + |needle|];
    }
  }

  /** `String.prototype.startsWith`. */
  predicate StartsWith(s: string, prefix: string) {
    |prefix| <= |s| && s[..|prefix|] == prefix
  }

  /** A prefix is still included after both strings are lowered. */
  lemma PrefixIncludedAfterLowering(hay: string, needle: string)
    requires StartsWith(hay, needle)
    ensures Includes(ToLower(hay), ToLower(needle))
  {
    ToLowerPrefix(hay, |needle|);
    assert OccursAt(ToLower(needle), ToLower(hay), 0);
  }
}

=== FILE: last_seen_manager.dfy ===
/**
 * The last-seen tracker: a map from conversation id to the last message the user saw there, kept in
 * memory and written through, as a whole, to browser storage under one key after every change.
 *
 * `Date.now()` becomes the parameter `now`; whether `localStorage.setItem` succeeds becomes the
 * parameter `writeOk` (a failed write is caught and leaves the stored copy as it was).
 */
module LastSeenManager {
  import opened Wrappers
  import opened JsNumber

  const StorageKey: string := "textenger_last_seen_positions"

  /** A message id is a JavaScript number or a string. */
  datatype MessageId = NumericId(n: int) | TextId(s: string)

  /** `id.toString()`: the decimal text of a numeric id, the string itself otherwise. */
  function IdString(id: MessageId): string {
    match id
    case NumericId(n) => IntToString(n)
    case TextId(s) => s
  }

  datatype Position = Position(messageId: MessageId, timestamp: int, userId: Option<string>)

  type Positions = map<string, Position>

  /** What storage holds under `StorageKey`: nothing (or the empty string), text that does not parse, or a saved map. */
  datatype Stored = Absent | Unparsable | Saved(positions: Positions)

  /** The in-memory map and the persisted copy. */
  datatype Manager = Manager(positions: Positions, stored: Stored)

  /** The map `loadFromStorage` recovers: the parsed map when there is one, `{}` otherwise. */
  function Reload(stored: Stored): (r: Positions)
    ensures stored.Saved? ==> r == stored.positions
    ensures !stored.Saved? ==> r == map[]
  {
    match stored
    case Saved(p) => p
    case _ => map[]
  }

  /** The singleton's construction: the map loaded from storage, which itself is left as it is. */
  function Load(stored: Stored): (r: Manager)
    ensures r.stored == stored
    ensures r.positions == Reload(stored)
  {
    Manager(Reload(stored), stored)
  }

  /** The stored copy equals the in-memory map. */
  predicate Persisted(m: Manager) {
    m.stored == Saved(m.positions)
  }

  /** `saveToStorage`: the whole map when the write succeeds, the old stored copy when it throws. */
  function Save(positions: Positions, stored: Stored, writeOk: bool): (r: Manager)
    ensures r.positions == positions
    ensures writeOk ==> Persisted(r)
    ensures !writeOk ==> r.stored == stored
  {
    Manager(positions, if writeOk then Saved(positions) else stored)
  }

  /** `getLastSeenPosition`: the record, or null. A record is an object and so always truthy. */
  function Get(m: Manager, c: string): (r: Option<Position>)
    ensures r.Some? <==> c in m.positions
    ensures r.Some? ==> r.value == m.positions[c]
  {
    if c in m.positions then Some(m.positions[c]) else None
  }

  /** `updateLastSeenPosition`: replaces the record of `c` with one stamped `now`, then saves. */
  function Update(m: Manager, c: string, id: MessageId, userId: Option<string>, now: int, writeOk: bool): (r: Manager)
    ensures Get(r, c) == Some(Position(id, now, userId))
    ensures forall other :: other != c ==> Get(r, other) == Get(m, other)
    ensures r.positions.Keys == m.positions.Keys + {c}
    ensures writeOk ==> Persisted(r)
    ensures !writeOk ==> r.stored == m.stored
  {
    Save(m.positions[c := Position(id, now, userId)], m.stored, writeOk)
  }

  /** `removeLastSeenPosition`: deletes the record of `c`, then saves. */
  function Remove(m: Manager, c: string, writeOk: bool): (r: Manager)
    ensures Get(r, c) == None
    ensures forall other :: other != c ==> Get(r, other) == Get(m, other)
    ensures writeOk ==> Persisted(r)
    ensures !writeOk ==> r.stored == m.stored
  {
    Save(m.positions - {c}, m.stored, writeOk)
  }

  /** `clearAllPositions`: empties the map, then saves. */
  function ClearAll(m: Manager, writeOk: bool): (r: Manager)
    ensures forall c :: Get(r, c) == None
    ensures writeOk ==> Persisted(r)
    ensures !writeOk ==> r.stored == m.stored
  {
    Save(map[], m.stored, writeOk)
  }

  /** `getAllPositions`: a copy of the map, with the same records under the same ids. */
  function GetAll(m: Manager): (r: Positions)
    ensures r.Keys == m.positions.Keys
    ensures forall c :: c in r ==> Get(m, c) == Some(r[c])
  {
    m.positions
  }

  /** `markConversationAsRead`: records the latest message, with no user id. */
  function MarkConversationAsRead(m: Manager, c: string, latest: MessageId, now: int, writeOk: bool): (r: Manager)
    ensures Get(r, c) == Some(Position(latest, now, None))
    ensures forall other :: other != c ==> Get(r, other) == Get(m, other)
    ensures writeOk ==> Persisted(r)
    ensures !writeOk ==> r.stored == m.stored
  {
    Update(m, c, latest, None, now, writeOk)
  }

  /** An optional timestamp is truthy when it is present and not zero. */
  predicate Truthy(ts: Option<int>) {
    ts.Some? && ts.value != 0
  }

  /**
   * `isMessageNew`: with no record every message is new; otherwise the first rule that applies
   * decides: both timestamps, then both numeric ids, then the message timestamp alone.
   */
  function IsMessageNew(m: Manager, c: string, id: MessageId, ts: Option<int>): (b: bool)
    ensures Get(m, c).None? ==> b
    ensures Get(m, c).Some? && Truthy(ts) && Get(m, c).value.timestamp != 0 ==>
              (b <==> ts.value > Get(m, c).value.timestamp)
    ensures Get(m, c).Some? && !(Truthy(ts) && Get(m, c).value.timestamp != 0) &&
            id.NumericId? && Get(m, c).value.messageId.NumericId? ==>
              (b <==> id.n > Get(m, c).value.messageId.n)
    ensures Get(m, c).Some? && !Truthy(ts) && !(id.NumericId? && Get(m, c).value.messageId.NumericId?) ==> !b
    ensures Get(m, c).Some? && Truthy(ts) && Get(m, c).value.timestamp == 0 && !(id.NumericId? && Get(m, c).value.messageId.NumericId?) ==>
              (b <==> ts.value > 0)
  {
    match Get(m, c)
    case None => true
    case Some(last) =>
      if Truthy(ts) && last.timestamp != 0 then ts.value > last.timestamp
      else if id.NumericId? && last.messageId.NumericId? then id.n > last.messageId.n
      else if Truthy(ts) then ts.value > last.timestamp
      else false
  }

  /* ---------------------------------------------------------------- properties across operations */

  /** `markConversationAsRead(c, m)` is `updateLastSeenPosition(c, m)` with no user id: the same manager results. */
  lemma MarkReadIsUpdateWithoutUser(m: Manager, c: string, latest: MessageId, now: int, writeOk: bool)
    ensures MarkConversationAsRead(m, c, latest, now, writeOk) == Update(m, c, latest, None, now, writeOk)
  {
  }

  /**
   * After reading up to numeric id `k` in a conversation, a message without a timestamp is new
   * exactly when its numeric id is larger than `k`, and a message with a string id is never new.
   */
  lemma NewAfterReadById(m: Manager, c: string, k: int, now: int, writeOk: bool, id: MessageId)
    ensures var r := MarkConversationAsRead(m, c, NumericId(k), now, writeOk);
            IsMessageNew(r, c, id, None) <==> (id.NumericId? && id.n > k)
  {
  }

  /** After reading at a non-zero time `now`, a message with a non-zero timestamp is new exactly when it is later. */
  lemma NewAfterReadByTime(m: Manager, c: string, latest: MessageId, now: int, writeOk: bool, id: MessageId, ts: int)
    requires now != 0 && ts != 0
    ensures var r := MarkConversationAsRead(m, c, latest, now, writeOk);
            IsMessageNew(r, c, id, Some(ts)) <==> ts > now
  {
  }

  /** The mutations, as a caller issues them. */
  datatype Op =
    | UpdateOp(c: string, id: MessageId, userId: Option<string>, now: int)
    | RemoveOp(c: string)
    | ClearOp

  function ApplyOp(m: Manager, op: Op, writeOk: bool): Manager {
    match op
    case UpdateOp(c, id, u, now) => Update(m, c, id, u, now, writeOk)
    case RemoveOp(c) => Remove(m, c, writeOk)
    case ClearOp => ClearAll(m, writeOk)
  }

  /** Applies a sequence of mutations; `writes[k]` says whether the k-th save succeeds. */
  function Run(m: Manager, ops: seq<Op>, writes: seq<bool>): Manager
    requires |writes| == |ops|
    decreases |ops|
  {
    if ops == [] then m else Run(ApplyOp(m, ops[0], writes[0]), ops[1..], writes[1..])
  }

  /**
   * Every mutation rewrites the whole map: whenever the last save succeeded, storage holds exactly
   * the in-memory map, so a fresh load recovers it, whatever happened before.
   */
  lemma {:induction false} RunEndsPersisted(m: Manager, ops: seq<Op>, writes: seq<bool>)
    requires |writes| == |ops| && |ops| > 0
    requires writes[|writes| - 1]
    ensures Persisted(Run(m, ops, writes))
    ensures Load(Run(m, ops, writes).stored).positions == Run(m, ops, writes).positions
    decreases |ops|
  {
    var m' := ApplyOp(m, ops[0], writes[0]);
    if |ops| > 1 {
      RunEndsPersisted(m', ops[1..], writes[1..]);
    } else {
      assert Run(m, ops, writes) == Run(m', [], []);
    }
  }

  /** While every save fails, storage keeps the copy it had, so a reload returns the map as it was last persisted. */
  lemma {:induction false} FailedWritesKeepStored(m: Manager, ops: seq<Op>, writes: seq<bool>)
    requires |writes| == |ops|
    requires forall k :: 0 <= k < |writes| ==> !writes[k]
    ensures Run(m, ops, writes).stored == m.stored
    decreases |ops|
  {
    if ops != [] {
      FailedWritesKeepStored(ApplyOp(m, ops[0], writes[0]), ops[1..], writes[1..]);
    }
  }
}

=== FILE: last_seen_scroll.dfy ===
/**
 * The scroll-resume policy of a chat view: when a chat opens, a one-shot decision places the message
 * list at the bottom or at the last message seen; while the user scrolls, the last visible message is
 * recorded; "mark as read" records the latest message and goes to the bottom.
 *
 * The DOM is reduced to integers: each element has an `offsetTop` and a bounding rectangle, and a
 * scroll is described by the action it performs rather than by the pixels it moves.
 */
module LastSeenScroll {
  import opened Wrappers
  import opened LastSeenManager

  datatype ChatType = Dm | Room

  datatype Message = Message(id: MessageId)

  /** A bounding client rectangle, vertical extent only. */
  datatype Rect = Rect(top: int, bottom: int)

  datatype Element = Element(offsetTop: int, rect: Rect)

  /** The message container and its child elements, one per rendered message. */
  datatype Container = Container(self: Element, children: seq<Element>)

  datatype ScrollAction = NoScroll | ScrollToBottom | ScrollTo(top: int)

  /** The padding left above the last seen message. */
  const Padding: int := 100

  /** The outcome of one resolution: the scroll performed and the new value of the one-shot guard. */
  datatype Resolution = Resolution(action: ScrollAction, guard: bool)

  predicate SameId(a: MessageId, b: MessageId) {
    IdString(a) == IdString(b)
  }

  /** `findIndex` by string equality of ids, from index `k` on. */
  function FindFrom(messages: seq<Message>, id: MessageId, k: nat): (r: Option<nat>)
    requires k <= |messages|
    ensures r.Some? ==> k <= r.value < |messages| && SameId(messages[r.value].id, id)
    ensures r.Some? ==> forall i :: k <= i < r.value ==> !SameId(messages[i].id, id)
    ensures r.None? ==> forall i :: k <= i < |messages| ==> !SameId(messages[i].id, id)
    decreases |messages| - k
  {
    if k == |messages| then None
    else if SameId(messages[k].id, id) then Some(k)
    else FindFrom(messages, id, k + 1)
  }

  /** The first message whose id has the same text as `id`, or none. */
  function FindMessage(messages: seq<Message>, id: MessageId): (r: Option<nat>)
    ensures r.Some? ==> r.value < |messages| && SameId(messages[r.value].id, id)
    ensures r.Some? ==> forall i :: 0 <= i < r.value ==> !SameId(messages[i].id, id)
    ensures r.None? ==> forall i :: 0 <= i < |messages| ==> !SameId(messages[i].id, id)
  {
    FindFrom(messages, id, 0)
  }

  /**
   * Where a room with a stored record resumes: the first message whose id matches is scrolled to
   * `Padding` pixels below the top when its element is rendered, and nothing moves when it is not;
   * a record that matches no message sends the room to the bottom.
   */
  function ResumeAt(c: Container, messages: seq<Message>, last: Position): (a: ScrollAction)
    ensures (forall i :: 0 <= i < |messages| ==> !SameId(messages[i].id, last.messageId)) ==> a == ScrollToBottom
    ensures forall k :: 0 <= k < |messages| && k < |c.children| && SameId(messages[k].id, last.messageId) &&
                        (forall i :: 0 <= i < k ==> !SameId(messages[i].id, last.messageId)) ==>
              a == ScrollTo(c.children[k].offsetTop - c.self.offsetTop - Padding)
    ensures forall k :: |c.children| <= k < |messages| && SameId(messages[k].id, last.messageId) &&
                        (forall i :: 0 <= i < k ==> !SameId(messages[i].id, last.messageId)) ==>
              a == NoScroll
    ensures a.ScrollTo? ==> exists k :: 0 <= k < |messages| && k < |c.children| && SameId(messages[k].id, last.messageId) &&
                                       a.top == c.children[k].offsetTop - c.self.offsetTop - Padding
  {
    match FindMessage(messages, last.messageId)
    case None => ScrollToBottom
    case Some(k) =>
      if k < |c.children| then ScrollTo(c.children[k].offsetTop - c.self.offsetTop - Padding)
      else NoScroll
  }

  /**
   * `scrollToLastSeenMessage`: nothing without a container, with no messages or once the guard is
   * set; otherwise a DM or a room with no record goes to the bottom, and a room with a record
   * resumes at the last message seen. Every path past the first check sets the guard.
   */
  function Resolve(container: Option<Container>, messages: seq<Message>, chat: ChatType,
                   record: Option<Position>, guard: bool): (r: Resolution)
    ensures container.None? || |messages| == 0 || guard ==> r == Resolution(NoScroll, guard)
    ensures container.Some? && |messages| > 0 && !guard ==> r.guard
    ensures container.Some? && |messages| > 0 && !guard && (chat == Dm || record.None?) ==> r.action == ScrollToBottom
    ensures container.Some? && |messages| > 0 && !guard && chat == Room && record.Some? ==>
              r.action == ResumeAt(container.value, messages, record.value)
  {
    if container.None? || |messages| == 0 || guard then Resolution(NoScroll, guard)
    else if chat == Dm then Resolution(ScrollToBottom, true)
    else if record.None? then Resolution(ScrollToBottom, true)
    else Resolution(ResumeAt(container.value, messages, record.value), true)
  }

  /** Once resolved, a chat does not move again until its guard is reset, whatever record is stored by then. */
  lemma ResolveIsOneShot(container: Option<Container>, messages: seq<Message>, chat: ChatType,
                         record: Option<Position>, later: Option<Position>, guard: bool)
    ensures var first := Resolve(container, messages, chat, record, guard);
            Resolve(container, messages, chat, later, first.guard) == Resolution(NoScroll, first.guard)
  {
  }

  /** A DM ignores the stored record altogether. */
  lemma DmIgnoresRecord(container: Option<Container>, messages: seq<Message>, a: Option<Position>, b: Option<Position>, guard: bool)
    ensures Resolve(container, messages, Dm, a, guard) == Resolve(container, messages, Dm, b, guard)
  {
  }

  /**
   * A numeric stored id finds a message whose string id is its decimal text, and two numeric ids
   * match only when they are equal: string equality of ids never confuses two numbers.
   */
  lemma NumericIdsMatchByValue(a: int, b: int, s: string)
    ensures SameId(NumericId(a), NumericId(b)) <==> a == b
    ensures SameId(NumericId(a), TextId(s)) <==> s == JsNumber.IntToString(a)
  {
    if SameId(NumericId(a), NumericId(b)) {
      JsNumber.IntToStringInjective(a, b);
    }
  }

  /** A room whose stored message is rendered resumes with that message `Padding` pixels below the top. */
  lemma RoomResumesAtRecordedMessage(c: Container, messages: seq<Message>, last: Position, k: nat)
    requires k < |messages| && k < |c.children|
    requires SameId(messages[k].id, last.messageId)
    requires forall i :: 0 <= i < k ==> !SameId(messages[i].id, last.messageId)
    ensures Resolve(Some(c), messages, Room, Some(last), false) ==
            Resolution(ScrollTo(c.children[k].offsetTop - c.self.offsetTop - Padding), true)
  {
    var f := FindMessage(messages, last.messageId);
    assert f.Some? && f.value == k;
  }

  /* ---------------------------------------------------------------- the visible-message selector */

  /** The strict overlap test of a child's rectangle with the container's. */
  predicate Overlaps(child: Rect, view: Rect) {
    child.top < view.bottom && child.bottom > view.top
  }

  /** The highest index among the first `n` children whose rectangle overlaps the view, or -1. */
  function LastVisibleBelow(children: seq<Element>, view: Rect, n: nat): (r: int)
    requires n <= |children|
    ensures -1 <= r < n
    ensures r >= 0 ==> Overlaps(children[r].rect, view)
    ensures forall k :: r < k < n ==> !Overlaps(children[k].rect, view)
    decreases n
  {
    if n == 0 then -1
    else if Overlaps(children[n - 1].rect, view) then n - 1
    else LastVisibleBelow(children, view, n - 1)
  }

  function LastVisible(children: seq<Element>, view: Rect): (r: int)
    ensures -1 <= r < |children|
    ensures r >= 0 ==> Overlaps(children[r].rect, view)
    ensures forall k :: r < k < |children| ==> !Overlaps(children[k].rect, view)
  {
    LastVisibleBelow(children, view, |children|)
  }

  /** The `forEach` over the children, keeping the last overlapping index. */
  method LastVisibleLoop(children: seq<Element>, view: Rect) returns (index: int)
    ensures index == LastVisible(children, view)
  {
    index := -1;
    var k := 0;
    while k < |children|
      invariant 0 <= k <= |children|
      invariant -1 <= index < k
      invariant index >= 0 ==> Overlaps(children[index].rect, view)
      invariant forall i :: index < i < k ==> !Overlaps(children[i].rect, view)
    {
      if Overlaps(children[k].rect, view) {
        index := k;
      }
      k := k + 1;
    }
    LastVisibleUnique(children, view, index);
  }

  /** The selector's contract determines its result. */
  lemma LastVisibleUnique(children: seq<Element>, view: Rect, index: int)
    requires -1 <= index < |children|
    requires index >= 0 ==> Overlaps(children[index].rect, view)
    requires forall i :: index < i < |children| ==> !Overlaps(children[i].rect, view)
    ensures index == LastVisible(children, view)
  {
    var r := LastVisible(children, view);
  }

  /**
   * `handleScroll`: with a container and a visible chat, records the message of the last child that
   * overlaps the container; records nothing when no child overlaps or that child has no message.
   */
  function HandleScroll(m: Manager, c: string, container: Option<Container>, visible: bool,
                        messages: seq<Message>, now: int, writeOk: bool): (r: Manager)
    ensures container.None? || !visible ==> r == m
    ensures container.Some? && visible ==>
              var k := LastVisible(container.value.children, container.value.self.rect);
              if 0 <= k < |messages| then r == Update(m, c, messages[k].id, None, now, writeOk) else r == m
  {
    if container.None? || !visible then m
    else
      var k := LastVisible(container.value.children, container.value.self.rect);
      if k != -1 && k < |messages| then Update(m, c, messages[k].id, None, now, writeOk) else m
  }

  /** After a scroll that records something, the stored message is one whose element overlaps the container, and no later element does. */
  lemma ScrollRecordsLastVisible(m: Manager, c: string, cont: Container, messages: seq<Message>, now: int, writeOk: bool)
    requires HandleScroll(m, c, Some(cont), true, messages, now, writeOk) != m
    ensures exists k :: 0 <= k < |messages| && k < |cont.children| &&
              Overlaps(cont.children[k].rect, cont.self.rect) &&
              (forall i :: k < i < |cont.children| ==> !Overlaps(cont.children[i].rect, cont.self.rect)) &&
              Get(HandleScroll(m, c, Some(cont), true, messages, now, writeOk), c) == Some(Position(messages[k].id, now, None))
  {
    var k := LastVisible(cont.children, cont.self.rect);
    assert 0 <= k < |messages|;
  }

  /** `markAsRead`: with messages, records the latest one and scrolls to the bottom when the container exists. */
  function MarkAsRead(m: Manager, c: string, messages: seq<Message>, container: Option<Container>,
                      now: int, writeOk: bool): (r: (Manager, ScrollAction))
    ensures |messages| == 0 ==> r == (m, NoScroll)
    ensures |messages| > 0 ==> Get(r.0, c) == Some(Position(messages[|messages| - 1].id, now, None))
    ensures |messages| > 0 ==> forall other :: other != c ==> Get(r.0, other) == Get(m, other)
    ensures |messages| > 0 ==> (r.1 == ScrollToBottom <==> container.Some?)
    ensures r.1 != ScrollToBottom ==> r.1 == NoScroll
  {
    if |messages| > 0 then
      (MarkConversationAsRead(m, c, messages[|messages| - 1].id, now, writeOk),
       if container.Some? then ScrollToBottom else NoScroll)
    else (m, NoScroll)
  }

  /** What the effect leaves behind: whether a resolution is scheduled, and the guard. */
  datatype Opening = Opening(scheduled: bool, guard: bool)

  /**
   * The effect that runs when the chat opens or its inputs change: a visible chat with messages
   * clears the guard and schedules a resolution 100 ms later; otherwise nothing happens. The
   * scheduled resolution is `Resolve`. The timeout keeps the callback it was given, and with it
   * the message list and conversation of the render that scheduled it. The effect has no cleanup,
   * so a timer scheduled earlier is not cancelled when the inputs change: it still fires with its
   * own, older list, and whichever timer fires first sets the guard, after which the others return
   * at once. The model follows one scheduled resolution, evaluated on the inputs it is given.
   */
  function OnOpen(messages: seq<Message>, visible: bool, guard: bool): (r: Opening)
    ensures visible && |messages| > 0 ==> r.scheduled && !r.guard
    ensures !(visible && |messages| > 0) ==> !r.scheduled && r.guard == guard
  {
    if visible && |messages| > 0 then Opening(true, false) else Opening(false, guard)
  }

  /**
   * Reopening a visible chat with messages always resolves again when its timer fires, even after
   * an earlier resolution, and a DM then lands at the bottom.
   */
  lemma ReopenResolvesAgain(cont: Container, messages: seq<Message>, chat: ChatType, record: Option<Position>, guard: bool)
    requires |messages| > 0
    ensures var o := OnOpen(messages, true, guard);
            o.scheduled && Resolve(Some(cont), messages, chat, record, o.guard).guard
    ensures var o := OnOpen(messages, true, guard);
            chat == Dm ==> Resolve(Some(cont), messages, chat, record, o.guard).action == ScrollToBottom
  {
  }
}

=== FILE: likes.dfy ===
/**
 * The like toggle every card shares, and the double-tap rule of the video cards.
 *
 * Some cards compute the new count from the old flag (`isLiked ? likes - 1 : likes + 1`), others
 * from the new one (`newIsLiked ? count + 1 : count - 1`); both are modelled and shown to agree.
 */
module Likes {
  import opened Wrappers

  datatype LikeState = LikeState(isLiked: bool, likes: int)

  /** The toggle written from the old flag: unliking removes one like, liking adds one. */
  function Toggle(s: LikeState): (r: LikeState)
    ensures r.isLiked == !s.isLiked
    ensures s.isLiked ==> r.likes == s.likes - 1
    ensures !s.isLiked ==> r.likes == s.likes + 1
  {
    LikeState(!s.isLiked, if s.isLiked then s.likes - 1 else s.likes + 1)
  }

  /** The toggle written from the new flag, as the clip and post cards do. */
  function ToggleByNewFlag(s: LikeState): (r: LikeState)
    ensures r.isLiked == !s.isLiked
    ensures r.isLiked ==> r.likes == s.likes + 1
    ensures !r.isLiked ==> r.likes == s.likes - 1
  {
    var newIsLiked := !s.isLiked;
    LikeState(newIsLiked, if newIsLiked then s.likes + 1 else s.likes - 1)
  }

  lemma TogglesAgree(s: LikeState)
    ensures ToggleByNewFlag(s) == Toggle(s)
  {
  }

  /** Liking and unliking again (or the reverse) restores the card exactly. */
  lemma ToggleTwiceRestores(s: LikeState)
    ensures Toggle(Toggle(s)) == s
  {
  }

  /** The count moves by exactly one in the direction of the new flag. */
  lemma ToggleMovesByOne(s: LikeState)
    ensures Toggle(s).likes - s.likes == (if Toggle(s).isLiked then 1 else -1)
  {
  }

  /** A card `handleLike` that also reports to its parent: the callback receives the flag as it was before the toggle. */
  function ToggleReporting(s: LikeState): (r: (LikeState, bool))
    ensures r.0 == Toggle(s)
    ensures r.1 == s.isLiked && r.1 != r.0.isLiked
  {
    (ToggleByNewFlag(s), s.isLiked)
  }

  /** Whether some like in the list is by `user`, when a list is present at all. */
  predicate LikedBy(likes: Option<seq<string>>, user: string) {
    likes.Some? && exists i :: 0 <= i < |likes.value| && likes.value[i] == user
  }

  /** The initial card state: liked iff some like's user id is the current user; the count is the number of likes, or 0 without a list. */
  function InitialState(likes: Option<seq<string>>, user: string): (s: LikeState)
    ensures s.isLiked <==> LikedBy(likes, user)
    ensures likes.None? ==> s == LikeState(false, 0)
    ensures likes.Some? ==> s.likes == |likes.value|
  {
    LikeState(likes.Some? && user in likes.value, if likes.Some? then |likes.value| else 0)
  }

  /** When the current user is among the likers, unliking brings the count back to the others' likes. */
  lemma InitialUnlikeCountsOthers(others: seq<string>, user: string)
    requires user !in others
    ensures Toggle(InitialState(Some(others + [user]), user)) == InitialState(Some(others), user)
  {
    assert (others + [user])[|others|] == user;
  }

  datatype TapAction = LikeTap | TogglePlay

  /** A tap less than 300 ms after the previous one, and strictly after it, is a double tap. */
  function TapDecision(now: int, lastTap: int): (a: TapAction)
    ensures a == LikeTap <==> 0 < now - lastTap < 300
  {
    var since := now - lastTap;
    if since < 300 && since > 0 then LikeTap else TogglePlay
  }

  datatype TapCard = TapCard(like: LikeState, playing: bool, lastTap: int)

  /**
   * `handleVideoClick`: a double tap toggles the like, any other tap toggles playback (the play
   * promise is taken to succeed); either way the tap time is remembered.
   */
  function Tap(c: TapCard, now: int): (r: TapCard)
    ensures r.lastTap == now
    ensures TapDecision(now, c.lastTap) == LikeTap ==> r.like == Toggle(c.like) && r.playing == c.playing
    ensures TapDecision(now, c.lastTap) == TogglePlay ==> r.like == c.like && r.playing == !c.playing
  {
    match TapDecision(now, c.lastTap)
    case LikeTap => TapCard(Toggle(c.like), c.playing, now)
    case TogglePlay => TapCard(c.like, !c.playing, now)
  }

  /** Two taps 100 ms apart, the first long after any other: the first toggles playback, the second likes. */
  lemma DoubleTapLikes(c: TapCard, t: int)
    requires t - c.lastTap >= 300
    ensures var once := Tap(c, t); var twice := Tap(once, t + 100);
            once.playing == !c.playing && twice.like == Toggle(c.like) && twice.playing == once.playing
  {
  }

  /** A second tap at the same instant is not a double tap. */
  lemma SameInstantIsNotDoubleTap(c: TapCard, t: int)
    ensures TapDecision(t, Tap(c, t).lastTap) == TogglePlay
  {
  }
}

=== FILE: mobile_clips.dfy ===
/**
 * The mobile clips page. Its pager (`scrollToClip`, `handleTouchEnd`) is the snap pager shared
 * with the reels explorer; what is its own is the like handler, which turns the card's report into
 * one backend request. The request itself is a foreign call, so the model stops at choosing it.
 */
module MobileClips {
  import opened Wrappers
  import SnapPager

  /** The backend request `handleLike` issues, if any. */
  datatype LikeRequest = NoRequest | UnlikeClip(userId: string, clipId: string) | LikeClip(userId: string, clipId: string)

  /** `handleLike(clipId, isLiked)`: nothing without a signed-in user; otherwise unlike iff the reported flag is set. */
  function HandleLike(user: Option<string>, clipId: string, isLiked: bool): (r: LikeRequest)
    ensures user.None? <==> r == NoRequest
    ensures user.Some? && isLiked ==> r == UnlikeClip(user.value, clipId)
    ensures user.Some? && !isLiked ==> r == LikeClip(user.value, clipId)
  {
    match user
    case None => NoRequest
    case Some(id) => if isLiked then UnlikeClip(id, clipId) else LikeClip(id, clipId)
  }

  /**
   * The card reports the flag as it was before its toggle, so a card that was not liked asks the
   * backend to like the clip, and a liked one to unlike it: the request matches the card's new state.
   */
  lemma RequestFollowsNewState(user: string, clipId: string, wasLiked: bool)
    ensures HandleLike(Some(user), clipId, wasLiked).LikeClip? <==> !wasLiked
    ensures HandleLike(Some(user), clipId, wasLiked).UnlikeClip? <==> wasLiked
  {
  }

  /** The page's swipe handler is the shared one: a swipe of exactly 50 pixels does nothing. */
  lemma FiftyPixelSwipeIgnored(p: SnapPager.Pager, n: int, h: nat)
    ensures SnapPager.Swipe(p, n, Some(h), 50) == SnapPager.Effect(p, None)
    ensures SnapPager.Swipe(p, n, Some(h), -50) == SnapPager.Effect(p, None)
  {
  }
}

=== FILE: navigation.dfy ===
/**
 * Page navigation of the application shell: the current page, the history of visited pages, the
 * hardware back button on mobile devices, and the authentication state the shell starts in.
 */
module Navigation {
  import opened Wrappers

  datatype Page = Feed | Stories | Clips | Rooms | Dms | Files | Profile

  datatype Nav = Nav(current: Page, history: seq<Page>)

  /** No two adjacent history entries are equal. */
  predicate NoAdjacentRepeats(h: seq<Page>) {
    forall k :: 0 < k < |h| ==> h[k - 1] != h[k]
  }

  /** The shape every reachable navigation state has. */
  predicate Valid(n: Nav) {
    |n.history| > 0 && n.history[0] == Feed && NoAdjacentRepeats(n.history) &&
    n.current == n.history[|n.history| - 1]
  }

  function Init(): (n: Nav)
    ensures Valid(n)
    ensures n.current == Feed && n.history == [Feed]
  {
    Nav(Feed, [Feed])
  }

  /** `handlePageChange`: shows `p`, and appends it unless the history already ends with it. */
  function PageChange(n: Nav, p: Page): (r: Nav)
    ensures r.current == p
    ensures |n.history| > 0 && n.history[|n.history| - 1] == p ==> r.history == n.history
    ensures !(|n.history| > 0 && n.history[|n.history| - 1] == p) ==> r.history == n.history + [p]
  {
    if |n.history| == 0 || n.history[|n.history| - 1] != p then Nav(p, n.history + [p]) else Nav(p, n.history)
  }

  /** `handleNavigateBack`: shows `p` and drops the last history entry, falling back to `[Feed]` when nothing is left. */
  function NavigateBack(n: Nav, p: Page): (r: Nav)
    ensures r.current == p
    ensures |r.history| > 0
    ensures |n.history| > 1 ==> r.history == n.history[..|n.history| - 1]
    ensures |n.history| <= 1 ==> r.history == [Feed]
  {
    Nav(p, if |n.history| - 1 > 0 then n.history[..|n.history| - 1] else [Feed])
  }

  datatype BackDecision = Ignore | Exit | NavigateTo(page: Page)

  /** `handleBackButton`: ignored off mobile, exits on the feed, otherwise goes to the previous page or to the feed. */
  function OnBack(isMobile: bool, n: Nav): (d: BackDecision)
    ensures !isMobile ==> d == Ignore
    ensures isMobile && n.current == Feed ==> d == Exit
    ensures isMobile && n.current != Feed && |n.history| > 1 ==> d == NavigateTo(n.history[|n.history| - 2])
    ensures isMobile && n.current != Feed && |n.history| <= 1 ==> d == NavigateTo(Feed)
  {
    if !isMobile then Ignore
    else if n.current == Feed then Exit
    else if |n.history| > 1 then NavigateTo(n.history[|n.history| - 2])
    else NavigateTo(Feed)
  }

  /** A back press as the shell applies it: only a navigation decision changes the state. */
  function PressBack(isMobile: bool, n: Nav): (r: Nav)
    ensures !OnBack(isMobile, n).NavigateTo? ==> r == n
    ensures OnBack(isMobile, n).NavigateTo? ==> r == NavigateBack(n, OnBack(isMobile, n).page)
  {
    match OnBack(isMobile, n)
    case NavigateTo(p) => NavigateBack(n, p)
    case _ => n
  }

  lemma PageChangePreservesValid(n: Nav, p: Page)
    requires Valid(n)
    ensures Valid(PageChange(n, p))
  {
  }

  lemma PressBackPreservesValid(isMobile: bool, n: Nav)
    requires Valid(n)
    ensures Valid(PressBack(isMobile, n))
  {
    var h := n.history;
    if isMobile && n.current != Feed {
      assert |h| > 1;
    }
  }

  /** The user actions the shell exposes. */
  datatype Action = Go(page: Page) | Back(isMobile: bool)

  function Step(n: Nav, a: Action): Nav {
    match a
    case Go(p) => PageChange(n, p)
    case Back(m) => PressBack(m, n)
  }

  function Replay(n: Nav, actions: seq<Action>): Nav
    decreases |actions|
  {
    if actions == [] then n else Replay(Step(n, actions[0]), actions[1..])
  }

  /**
   * Every state reachable from the initial one is valid: the history is never empty, starts with
   * the feed, has no adjacent repeats, and ends with the page shown.
   */
  lemma {:induction false} ReachableIsValid(n: Nav, actions: seq<Action>)
    requires Valid(n)
    ensures Valid(Replay(n, actions))
    decreases |actions|
  {
    if actions != [] {
      match actions[0] {
        case Go(p) => PageChangePreservesValid(n, p);
        case Back(m) => PressBackPreservesValid(m, n);
      }
      ReplayStep(n, actions);
      ReachableIsValid(Step(n, actions[0]), actions[1..]);
    }
  }

  lemma ReplayStep(n: Nav, actions: seq<Action>)
    requires actions != []
    ensures Replay(n, actions) == Replay(Step(n, actions[0]), actions[1..])
  {
  }

  /** On a mobile device, pressing back right after opening a page other than the feed returns to where the user was. */
  lemma BackUndoesPageChange(n: Nav, p: Page)
    requires Valid(n) && p != n.current && p != Feed
    ensures PressBack(true, PageChange(n, p)) == n
  {
    var h := n.history;
    assert (h + [p])[..|h|] == h;
  }

  /** Opening the feed again and pressing back exits, even when earlier pages remain in the history. */
  lemma BackOnFeedExits(n: Nav)
    requires Valid(n)
    ensures OnBack(true, PageChange(n, Feed)) == Exit
  {
  }

  /* ---------------------------------------------------------------- authentication state */

  datatype AppState = Loading | Auth | Authenticated

  datatype UserData = UserData(username: string, displayName: string, email: string, password: string)

  /** The stored user as `checkAuth` finds it: nothing (or empty text), text `JSON.parse` rejects, or a user. */
  datatype StoredUser = NoUser | Unparsable | StoredAs(user: UserData)

  datatype Shell = Shell(state: AppState, user: Option<UserData>, nav: Nav)

  function InitShell(): (s: Shell)
    ensures s.state == Loading && s.user.None? && s.nav == Init()
  {
    Shell(Loading, None, Init())
  }

  /**
   * `checkAuth`: a stored user authenticates and becomes the user data; no stored user leads to the
   * auth screen; unparsable text throws inside the async check, so the state stays as it was.
   */
  function CheckAuth(s: Shell, stored: StoredUser): (r: Shell)
    ensures r.nav == s.nav
    ensures stored.StoredAs? ==> r.state == Authenticated && r.user == Some(stored.user)
    ensures stored.NoUser? ==> r.state == Auth && r.user == s.user
    ensures stored.Unparsable? ==> r == s
  {
    match stored
    case StoredAs(u) => s.(state := Authenticated, user := Some(u))
    case NoUser => s.(state := Auth)
    case Unparsable => s
  }

  /** `handleAuthenticated`: always ends authenticated, with the new user. */
  function HandleAuthenticated(s: Shell, u: UserData): (r: Shell)
    ensures r.state == Authenticated && r.user == Some(u) && r.nav == s.nav
  {
    s.(state := Authenticated, user := Some(u))
  }

  /** From the initial shell, the check leaves the loading state exactly when the stored value is absent or parses. */
  lemma CheckAuthLeavesLoading(stored: StoredUser)
    ensures CheckAuth(InitShell(), stored).state != Loading <==> !stored.Unparsable?
  {
  }
}

=== FILE: notifications.dfy ===
/**
 * The notifications list: each entry is read or unread; entries can be marked read one at a time
 * or all at once, and the unread count drives the badge and the "mark all" button.
 */
module Notifications {

  datatype Kind = Like | Comment | Follow

  datatype Notification = Notification(id: int, kind: Kind, username: string, message: string, time: string, isRead: bool)

  /** The six entries the modal opens with, two of them unread. */
  function Initial(): seq<Notification> {
    [ Notification(1, Like, "alex_gamer", "liked your post", "2m ago", false),
      Notification(2, Comment, "maya_pixel", "commented on your post: \"This is amazing! \U{1F525}\"", "5m ago", false),
      Notification(3, Follow, "sam_code", "started following you", "1h ago", true),
      Notification(4, Like, "zoe_neon", "liked your story", "2h ago", true),
      Notification(5, Comment, "jordan_react", "commented on your post: \"Great work on this project!\"", "3h ago", true),
      Notification(6, Like, "dev_ninja", "liked your post", "1d ago", true) ]
  }

  /** `unreadCount`: the number of entries not yet read. */
  function UnreadCount(s: seq<Notification>): (n: nat)
    ensures n <= |s|
    ensures n == 0 <==> forall i :: 0 <= i < |s| ==> s[i].isRead
    ensures n == |s| <==> forall i :: 0 <= i < |s| ==> !s[i].isRead
  {
    if s == [] then 0
    else
      var rest := UnreadCount(s[1..]);
      assert forall i :: 1 <= i < |s| ==> s[i] == s[1..][i - 1];
      (if s[0].isRead then 0 else 1) + rest
  }

  /** `markAllAsRead`: every entry read, everything else as it was. */
  function MarkAllAsRead(s: seq<Notification>): (r: seq<Notification>)
    ensures |r| == |s|
    ensures forall i :: 0 <= i < |s| ==> r[i] == s[i].(isRead := true)
  {
    seq(|s|, i requires 0 <= i < |s| => s[i].(isRead := true))
  }

  /** `markAsRead(id)`: the entries with that id become read; all others are untouched. */
  function MarkAsRead(s: seq<Notification>, id: int): (r: seq<Notification>)
    ensures |r| == |s|
    ensures forall i :: 0 <= i < |s| ==> r[i] == if s[i].id == id then s[i].(isRead := true) else s[i]
  {
    seq(|s|, i requires 0 <= i < |s| => if s[i].id == id then s[i].(isRead := true) else s[i])
  }

  /** The badge and the "mark all" button are shown exactly while something is unread. */
  predicate MarkAllShown(s: seq<Notification>) {
    UnreadCount(s) > 0
  }

  /** A click on entry `k` marks it read if it is unread, and does nothing otherwise. */
  function Click(s: seq<Notification>, k: nat): (r: seq<Notification>)
    requires k < |s|
    ensures s[k].isRead ==> r == s
    ensures !s[k].isRead ==> r == MarkAsRead(s, s[k].id)
  {
    if !s[k].isRead then MarkAsRead(s, s[k].id) else s
  }

  lemma InitialCounts()
    ensures UnreadCount(Initial()) == 2 && MarkAllShown(Initial())
  {
    var s := Initial();
    assert s[1..][1..] == s[2..];
    assert UnreadCount(s[2..]) == 0;
  }

  /** After marking all, nothing is unread and the button disappears; marking all again changes nothing. */
  lemma MarkAllClears(s: seq<Notification>)
    ensures UnreadCount(MarkAllAsRead(s)) == 0 && !MarkAllShown(MarkAllAsRead(s))
    ensures MarkAllAsRead(MarkAllAsRead(s)) == MarkAllAsRead(s)
  {
  }

  lemma MarkAsReadIdempotent(s: seq<Notification>, id: int)
    ensures MarkAsRead(MarkAsRead(s, id), id) == MarkAsRead(s, id)
  {
  }

  /** Marking read never raises the unread count, and lowers it when an entry with that id was unread. */
  lemma {:induction false} MarkAsReadLowersCount(s: seq<Notification>, id: int)
    ensures UnreadCount(MarkAsRead(s, id)) <= UnreadCount(s)
    ensures (exists i :: 0 <= i < |s| && s[i].id == id && !s[i].isRead) ==> UnreadCount(MarkAsRead(s, id)) < UnreadCount(s)
  {
    if s != [] {
      var r := MarkAsRead(s, id);
      assert r[1..] == MarkAsRead(s[1..], id);
      MarkAsReadLowersCount(s[1..], id);
      if exists i :: 0 <= i < |s| && s[i].id == id && !s[i].isRead {
        var i :| 0 <= i < |s| && s[i].id == id && !s[i].isRead;
        if i > 0 {
          assert s[1..][i - 1] == s[i];
        }
      }
    }
  }

  /** Clicking an unread entry lowers the unread count; clicking a read one leaves the list as it was. */
  lemma ClickLowersCount(s: seq<Notification>, k: nat)
    requires k < |s|
    ensures !s[k].isRead ==> UnreadCount(Click(s, k)) < UnreadCount(s)
    ensures s[k].isRead ==> Click(s, k) == s
  {
    MarkAsReadLowersCount(s, s[k].id);
  }
}

=== FILE: pager_step.dfy ===
/**
 * The index rule every vertical pager shares: one event moves to the next item on a positive
 * delta unless already at the last, to the previous on a negative delta unless already at the
 * first, and otherwise stays.
 */
module PagerStep {

  function Abs(x: int): nat {
    if x < 0 then -x else x
  }

  function Stepped(index: int, n: int, delta: int): (r: int)
    ensures Abs(r - index) <= 1
    ensures delta == 0 ==> r == index
    ensures 0 <= index < n ==> 0 <= r < n
    ensures r > index <==> delta > 0 && index < n - 1
    ensures r < index <==> delta < 0 && index > 0 && !(delta > 0 && index < n - 1)
  {
    if delta > 0 && index < n - 1 then index + 1
    else if delta < 0 && index > 0 then index - 1
    else index
  }

  /** The index after a run of events, one delta each. */
  function SteppedAll(index: int, n: int, deltas: seq<int>): int
    decreases |deltas|
  {
    if deltas == [] then index else SteppedAll(Stepped(index, n, deltas[0]), n, deltas[1..])
  }

  /** However many events arrive, the index stays on an existing item. */
  lemma {:induction false} SteppedAllInRange(index: int, n: int, deltas: seq<int>)
    requires 0 <= index < n
    ensures 0 <= SteppedAll(index, n, deltas) < n
    decreases |deltas|
  {
    if deltas != [] {
      SteppedAllInRange(Stepped(index, n, deltas[0]), n, deltas[1..]);
    }
  }

  function Repeat(delta: int, k: nat): (s: seq<int>)
    ensures |s| == k && forall i :: 0 <= i < k ==> s[i] == delta
  {
    if k == 0 then [] else [delta] + Repeat(delta, k - 1)
  }

  /** `k` forward events from item `i` reach item `i + k`, or stop at the last item. */
  lemma {:induction false} ForwardStepsClamp(index: int, n: int, k: nat)
    requires 0 <= index < n
    ensures SteppedAll(index, n, Repeat(1, k)) == if index + k < n then index + k else n - 1
    decreases k
  {
    if k > 0 {
      assert Repeat(1, k)[1..] == Repeat(1, k - 1);
      ForwardStepsClamp(Stepped(index, n, 1), n, k - 1);
    }
  }
}

=== FILE: post_card.dfy ===
/**
 * The post card of the feed: its initial like state comes from the post's likes, its like
 * handler reports the old flag to the parent, and its age label buckets the time since posting
 * into whole hours and days. Times are integer milliseconds; the current time is an input.
 */
module PostCard {
  import opened Wrappers
  import opened JsNumber
  import Likes

  const HourMs: int := 3600000

  /** The card's like state when first rendered, from the user ids of `post_likes` (absent when the post has none loaded). */
  function Initial(postLikes: Option<seq<string>>, currentUser: string): (s: Likes.LikeState)
    ensures s.isLiked <==> Likes.LikedBy(postLikes, currentUser)
    ensures s.likes == if postLikes.Some? then |postLikes.value| else 0
  {
    Likes.InitialState(postLikes, currentUser)
  }

  /** `handleLike`: the toggled state and the flag passed to `onLike`, which is the one before the toggle. */
  function HandleLike(s: Likes.LikeState): (r: (Likes.LikeState, bool))
    ensures r.0.isLiked == !s.isLiked && r.1 == s.isLiked
    ensures r.0.likes == s.likes + (if r.0.isLiked then 1 else -1)
  {
    Likes.ToggleReporting(s)
  }

  /** The buckets of `formatTimeAgo`; `LocaleDate` stands for the locale-formatted date. */
  datatype Age = Now | HoursAgo(hours: nat) | DaysAgo(days: nat) | LocaleDate

  /** The bucket for a post created `diffMs` milliseconds ago; a negative difference is a post from the future. */
  function TimeAgo(diffMs: int): (a: Age)
    ensures a == Now <==> diffMs < HourMs
    ensures a.HoursAgo? <==> HourMs <= diffMs < 24 * HourMs
    ensures a.HoursAgo? ==> a.hours * HourMs <= diffMs < (a.hours + 1) * HourMs && 1 <= a.hours < 24
    ensures a.DaysAgo? <==> 24 * HourMs <= diffMs < 7 * 24 * HourMs
    ensures a.DaysAgo? ==> a.days * 24 * HourMs <= diffMs < (a.days + 1) * 24 * HourMs && 1 <= a.days < 7
    ensures a == LocaleDate <==> diffMs >= 7 * 24 * HourMs
  {
    var hours := diffMs / HourMs;
    if hours < 1 then Now
    else if hours < 24 then HoursAgo(hours)
    else
      var days := hours / 24;
      if days < 7 then DaysAgo(days) else LocaleDate
  }

  /** The label text; the locale date is not modelled and yields `None`. */
  function Label(a: Age): (r: Option<string>)
    ensures r.None? <==> a == LocaleDate
  {
    match a
    case Now => Some("now")
    case HoursAgo(h) => Some(NatToString(h) + "h")
    case DaysAgo(d) => Some(NatToString(d) + "d")
    case LocaleDate => None
  }

  /** Different buckets never share a label, so the label names its bucket. */
  lemma LabelInjective(a: Age, b: Age)
    requires Label(a).Some? && Label(a) == Label(b)
    ensures a == b
  {
    var s := Label(a).value;
    match a {
      case Now =>
        assert s[0] == 'n';
      case HoursAgo(h) =>
        assert s[|s| - 1] == 'h';
        if b.HoursAgo? {
          assert NatToString(h) == s[..|s| - 1] == NatToString(b.hours);
          NatToStringInjective(h, b.hours);
        }
      case DaysAgo(d) =>
        assert s[|s| - 1] == 'd';
        if b.DaysAgo? {
          assert NatToString(d) == s[..|s| - 1] == NatToString(b.days);
          NatToStringInjective(d, b.days);
        }
      case LocaleDate =>
    }
  }

  /** The bucket only ever ages: a later reading of the same post is never a fresher bucket. */
  function Rank(a: Age): nat {
    match a
    case Now => 0
    case HoursAgo(h) => h
    case DaysAgo(d) => 24 * d
    case LocaleDate => 24 * 7
  }

  lemma TimeAgoMonotone(d1: int, d2: int)
    requires d1 <= d2
    ensures Rank(TimeAgo(d1)) <= Rank(TimeAgo(d2))
  {
    var a, b := TimeAgo(d1), TimeAgo(d2);
    if a.HoursAgo? && b.HoursAgo? {
      assert a.hours * HourMs <= d2 < (b.hours + 1) * HourMs;
    } else if a.DaysAgo? && b.DaysAgo? {
      assert a.days * (24 * HourMs) <= d2 < (b.days + 1) * (24 * HourMs);
    }
  }

  lemma TimeAgoExamples()
    ensures Label(TimeAgo(-5)) == Some("now")
    ensures Label(TimeAgo(3 * HourMs + 59)) == Some("3h")
    ensures Label(TimeAgo(23 * HourMs)) == Some("23h")
    ensures Label(TimeAgo(24 * HourMs)) == Some("1d")
    ensures TimeAgo(7 * 24 * HourMs) == LocaleDate
  {
    assert TimeAgo(3 * HourMs + 59) == HoursAgo(3);
    assert TimeAgo(23 * HourMs) == HoursAgo(23);
    assert TimeAgo(24 * HourMs) == DaysAgo(1);
    assert NatToString(3) + "h" == "3h";
    assert NatToString(1) + "d" == "1d";
    assert NatToString(23) == NatToString(2) + [DigitChar(3)] == "23";
    assert NatToString(23) + "h" == "23h";
  }
}

=== FILE: post_shuffle.dfy ===
/**
 * The seeded session shuffle of the feed: a 32-bit polynomial hash of the seed string starts a
 * linear congruential generator whose draws drive a reverse Fisher-Yates pass; a bounds guard skips
 * any swap whose index falls outside the list.
 *
 * The generator step is written once for two remainder rules: `Truncating` is JavaScript's `%`, as
 * the application computes it, and `Floored` keeps every state non-negative, as the generator is
 * evidently meant to (every draw in [0, 1)). The two differ only for negative hashes.
 */
module PostShuffle {
  import opened JsNumber

  const Multiplier: int := 9301
  const Increment: int := 49297
  const Modulus: int := 233280

  datatype RemainderRule = Truncating | Floored

  /* ---------------------------------------------------------------- the seed hash */

  /** One character of the hash: shift left by 5 (on the 32-bit value), subtract, add the code, then `hash & hash`. */
  function HashStep(hash: int, c: char): (r: int)
    ensures IsInt32(r)
  {
    ToInt32(ToInt32(ToInt32(hash) * 32) - hash + c as int)
  }

  /** The shift-and-subtract step is the polynomial step `31 * hash + c`, wrapped to 32 bits. */
  lemma HashStepIsPolynomial(hash: int, c: char)
    requires IsInt32(hash)
    ensures HashStep(hash, c) == ToInt32(31 * hash + c as int)
  {
    ToInt32Identity(hash);
    var y := ToInt32(hash * 32);
    var q := (hash * 32 - y) / TwoTo32;
    assert hash * 32 - y == q * TwoTo32;
    assert (y - hash + c as int) - (31 * hash + c as int) == (-q) * TwoTo32;
    ToInt32Congruent(y - hash + c as int, 31 * hash + c as int);
  }

  function SeedHashFrom(hash: int, s: string): (r: int)
    requires IsInt32(hash)
    ensures IsInt32(r)
    decreases |s|
  {
    if s == [] then hash else SeedHashFrom(HashStep(hash, s[0]), s[1..])
  }

  /** The hash `seededRandom` computes before its first draw. */
  function SeedHash(seed: string): (r: int)
    ensures IsInt32(r)
  {
    SeedHashFrom(0, seed)
  }

  /** The same fold over unbounded integers, with no wrap-around. */
  function PolyFrom(acc: int, s: string): int
    decreases |s|
  {
    if s == [] then acc else PolyFrom(31 * acc + s[0] as int, s[1..])
  }

  /** Adding the same character code to congruent accumulators after multiplying by 31 keeps them congruent. */
  lemma StepCongruent(acc: int, hash: int, c: int, next: int)
    requires (acc - hash) % TwoTo32 == 0
    requires (31 * hash + c - next) % TwoTo32 == 0
    ensures (31 * acc + c - next) % TwoTo32 == 0
  {
    var q1 := (acc - hash) / TwoTo32;
    assert acc - hash == q1 * TwoTo32;
    var q2 := (31 * hash + c - next) / TwoTo32;
    assert 31 * hash + c - next == q2 * TwoTo32;
    assert (31 * acc + c) - next == (31 * q1 + q2) * TwoTo32;
  }

  lemma {:induction false} SeedHashFromIsPolynomial(hash: int, acc: int, s: string)
    requires IsInt32(hash)
    requires (acc - hash) % TwoTo32 == 0
    ensures SeedHashFrom(hash, s) == ToInt32(PolyFrom(acc, s))
    decreases |s|
  {
    if s == [] {
      ToInt32Congruent(acc, hash);
      ToInt32Identity(hash);
    } else {
      var next := HashStep(hash, s[0]);
      HashStepIsPolynomial(hash, s[0]);
      StepCongruent(acc, hash, s[0] as int, next);
      SeedHashFromIsPolynomial(next, 31 * acc + s[0] as int, s[1..]);
    }
  }

  /**
   * The seed hash is the polynomial sum of the character codes in base 31, reduced to a signed
   * 32-bit integer: the wrap after every character loses nothing compared with one wrap at the end.
   */
  lemma SeedHashIsPolynomial(seed: string)
    ensures SeedHash(seed) == ToInt32(PolyFrom(0, seed))
  {
    SeedHashFromIsPolynomial(0, 0, seed);
  }

  /* ---------------------------------------------------------------- the generator */

  /** `hash = (hash * 9301 + 49297) % 233280` under the given remainder rule; either way the state stays below the modulus in size. */
  function NextState(rule: RemainderRule, state: int): (r: int)
    ensures -Modulus < r < Modulus
  {
    var x := state * Multiplier + Increment;
    match rule
    case Truncating => TruncRem(x, Modulus)
    case Floored => x % Modulus
  }

  /**
   * JavaScript's step: the new state differs from `state * 9301 + 49297` by a multiple of the
   * modulus and takes that value's sign.
   */
  lemma TruncatingStep(state: int)
    ensures var x := state * Multiplier + Increment;
            var r := NextState(Truncating, state);
            (x - r) % Modulus == 0 && (x >= 0 ==> r >= 0) && (x <= 0 ==> r <= 0)
  {
    TruncRemIsCongruent(state * Multiplier + Increment);
  }

  lemma TruncRemIsCongruent(x: int)
    ensures (x - TruncRem(x, Modulus)) % Modulus == 0
  {
    if x >= 0 {
      MultipleOfModulus(x / Modulus);
      assert x - TruncRem(x, Modulus) == (x / Modulus) * Modulus;
    } else {
      MultipleOfModulus(-((-x) / Modulus));
      assert x - TruncRem(x, Modulus) == -((-x) / Modulus) * Modulus;
    }
  }

  lemma MultipleOfModulus(q: int)
    ensures (q * Modulus) % Modulus == 0
  {
  }

  /** The floored step: the new state differs from `state * 9301 + 49297` by a multiple of the modulus and is never negative. */
  lemma FlooredStep(state: int)
    ensures var x := state * Multiplier + Increment;
            var r := NextState(Floored, state);
            (x - r) % Modulus == 0 && r >= 0
  {
    var x := state * Multiplier + Increment;
    MultipleOfModulus(x / Modulus);
    assert x - x % Modulus == (x / Modulus) * Modulus;
  }

  /** `Math.floor(random() * (i + 1))` in exact arithmetic, where `random()` returned `state / 233280`. */
  function Draw(state: int, i: nat): int {
    (state * (i + 1)) / Modulus  // Dafny's division by a positive divisor rounds down, as Math.floor does
  }

  lemma MulPositive(a: int, b: int)
    requires a > 0 && b > 0
    ensures a * b > 0
  {
  }

  lemma ScaleBounds(state: int, k: int)
    requires -Modulus < state < Modulus && k >= 1
    ensures -Modulus * k < state * k < Modulus * k
    ensures state >= 0 <==> state * k >= 0
  {
    MulPositive(Modulus - state, k);
    assert (Modulus - state) * k == Modulus * k - state * k;
    MulPositive(Modulus + state, k);
    assert (Modulus + state) * k == Modulus * k + state * k;
    if state < 0 {
      MulPositive(-state, k);
      assert (-state) * k == -(state * k);
    } else {
      MulPositive(state + 1, k);
      assert (state + 1) * k == state * k + k;
    }
  }

  lemma FloorDivBounds(p: int, k: int)
    requires k >= 1 && -Modulus * k < p < Modulus * k
    ensures -k <= p / Modulus < k
    ensures p >= 0 <==> p / Modulus >= 0
  {
    assert p == Modulus * (p / Modulus) + p % Modulus;
  }

  /** Every draw lies in [-(i + 1), i]; it is non-negative exactly when the generator state is. */
  lemma DrawBounds(state: int, i: nat)
    requires -Modulus < state < Modulus
    ensures -(i + 1) <= Draw(state, i) <= i
    ensures state >= 0 <==> Draw(state, i) >= 0
  {
    ScaleBounds(state, i + 1);
    FloorDivBounds(state * (i + 1), i + 1);
  }

  /* ---------------------------------------------------------------- the shuffle pass */

  /** Swaps positions `i` and `j` when both are in range, and otherwise leaves the list alone. */
  function GuardedSwap<T>(s: seq<T>, i: int, j: int): (r: seq<T>)
    ensures |r| == |s|
    ensures !(0 <= j < |s| && 0 <= i < |s|) ==> r == s
    ensures 0 <= j < |s| && 0 <= i < |s| ==> r[i] == s[j] && r[j] == s[i]
    ensures forall k :: 0 <= k < |s| && k != i && k != j ==> r[k] == s[k]
  {
    if 0 <= j < |s| && 0 <= i < |s| then s[i := s[j]][j := s[i]] else s
  }

  /** A guarded swap only moves elements around: the list keeps its multiset. */
  lemma GuardedSwapPermutes<T>(s: seq<T>, i: int, j: int)
    ensures multiset(GuardedSwap(s, i, j)) == multiset(s)
  {
  }

  /** The indices drawn at steps `i, i - 1, ..., 1`, each from the generator state after the previous step. */
  function Draws(rule: RemainderRule, state: int, i: int): (r: seq<int>)
    ensures |r| == if i > 0 then i else 0
    decreases i
  {
    if i <= 0 then []
    else
      var st := NextState(rule, state);
      [Draw(st, i)] + Draws(rule, st, i - 1)
  }

  /** The guarded swaps of the pass for given draws: position `i` with `draws[0]`, then `i - 1` with `draws[1]`, and so on. */
  function SwapAll<T>(s: seq<T>, i: int, draws: seq<int>): (r: seq<T>)
    ensures |r| == |s|
    decreases |draws|
  {
    if |draws| == 0 then s else SwapAll(GuardedSwap(s, i, draws[0]), i - 1, draws[1..])
  }

  /** Whatever the draws, the guarded swaps only move elements around. */
  lemma {:induction false} SwapAllPermutes<T>(s: seq<T>, i: int, draws: seq<int>)
    ensures multiset(SwapAll(s, i, draws)) == multiset(s)
    decreases |draws|
  {
    if |draws| > 0 {
      GuardedSwapPermutes(s, i, draws[0]);
      SwapAllPermutes(GuardedSwap(s, i, draws[0]), i - 1, draws[1..]);
    }
  }

  /** The loop `for (i = n - 1; i > 0; i--)`, from index `i` down to 1, continuing from generator state `state`. */
  function Pass<T>(rule: RemainderRule, s: seq<T>, state: int, i: int): (r: seq<T>)
    ensures |r| == |s|
  {
    SwapAll(s, i, Draws(rule, state, i))
  }

  /** One step of the pass: draw from the next generator state, swap under the guard, continue from `i - 1`. */
  lemma PassUnfold<T>(rule: RemainderRule, s: seq<T>, state: int, i: int)
    requires i > 0
    ensures var st := NextState(rule, state);
            Pass(rule, s, state, i) == Pass(rule, GuardedSwap(s, i, Draw(st, i)), st, i - 1)
  {
    var st := NextState(rule, state);
    var rest := Draws(rule, st, i - 1);
    assert Draws(rule, state, i) == [Draw(st, i)] + rest;
    assert ([Draw(st, i)] + rest)[1..] == rest;
  }

  /** The whole guarded pass keeps the multiset of the list. */
  lemma PassIsPermutation<T>(rule: RemainderRule, s: seq<T>, state: int, i: int)
    ensures multiset(Pass(rule, s, state, i)) == multiset(s)
  {
    SwapAllPermutes(s, i, Draws(rule, state, i));
  }

  function Shuffled<T>(rule: RemainderRule, posts: seq<T>, seed: string): seq<T> {
    if |posts| == 0 then []
    else if seed == "" then posts
    else Pass(rule, posts, SeedHash(seed), |posts| - 1)
  }

  /** The session shuffle under either rule is a permutation of the posts. */
  lemma ShuffledPermutes<T>(rule: RemainderRule, posts: seq<T>, seed: string)
    ensures multiset(Shuffled(rule, posts, seed)) == multiset(posts)
  {
    if |posts| > 0 && seed != "" {
      PassIsPermutation(rule, posts, SeedHash(seed), |posts| - 1);
    }
  }

  /**
   * `shufflePostsForUser` as the application computes it: a permutation of the posts; the empty
   * list gives the empty list, the empty seed and a one-element list give the posts unchanged.
   */
  function ShufflePostsForUser<T>(posts: seq<T>, seed: string): (r: seq<T>)
    ensures |r| == |posts| && multiset(r) == multiset(posts)
    ensures |posts| == 0 ==> r == []
    ensures seed == "" ==> r == posts
    ensures |posts| == 1 ==> r == posts
  {
    ShuffledPermutes(Truncating, posts, seed);
    Shuffled(Truncating, posts, seed)
  }

  /** The shuffle with the floored generator step: the same guarantees, and no swap is ever skipped. */
  function ShufflePostsIntended<T>(posts: seq<T>, seed: string): (r: seq<T>)
    ensures |r| == |posts| && multiset(r) == multiset(posts)
    ensures |posts| == 0 ==> r == []
    ensures seed == "" ==> r == posts
    ensures |posts| == 1 ==> r == posts
  {
    ShuffledPermutes(Floored, posts, seed);
    Shuffled(Floored, posts, seed)
  }

  /** The hash loop of `seededRandom`, one character at a time. */
  method SeedHashLoop(seed: string) returns (hash: int)
    ensures hash == SeedHash(seed)
  {
    hash := 0;
    var k := 0;
    while k < |seed|
      invariant 0 <= k <= |seed|
      invariant IsInt32(hash)
      invariant SeedHashFrom(hash, seed[k..]) == SeedHash(seed)
    {
      assert seed[k..][1..] == seed[k + 1..];
      hash := HashStep(hash, seed[k]);
      k := k + 1;
    }
    assert seed[k..] == [];
  }

  /**
   * The shuffle as a loop over mutable state, the way the source runs it: the hash fold, then the
   * generator closure drawn once per step. Its result is the pure `ShufflePostsForUser`, so two
   * calls with the same posts and seed always agree.
   */
  method ShufflePostsForUserLoop<T>(posts: seq<T>, seed: string) returns (shuffled: seq<T>)
    ensures shuffled == ShufflePostsForUser(posts, seed)
    ensures multiset(shuffled) == multiset(posts)
  {
    if |posts| == 0 {
      return [];
    }
    if seed == "" {
      return posts;
    }
    var hash := SeedHashLoop(seed);
    shuffled := PassLoop(posts, hash);
  }

  /** The `for` loop of the shuffle, drawing from the generator closure once per step. */
  method PassLoop<T>(posts: seq<T>, hash: int) returns (shuffled: seq<T>)
    ensures shuffled == Pass(Truncating, posts, hash, |posts| - 1)
  {
    ghost var target := Pass(Truncating, posts, hash, |posts| - 1);
    shuffled := posts;
    var state := hash;
    var i := |posts| - 1;
    while i > 0
      invariant Pass(Truncating, shuffled, state, i) == target
      decreases i
    {
      var next := NextState(Truncating, state);
      var j := Draw(next, i);
      var swapped := GuardedSwap(shuffled, i, j);
      PassUnfold(Truncating, shuffled, state, i);
      shuffled, state, i := swapped, next, i - 1;
    }
  }

  /**
   * `shuffleArray`: the textbook reverse Fisher-Yates pass, with `Math.random` replaced by an oracle.
   * `picks[k]` is the index drawn at step `i = |items| - 1 - k`, and lies in [0, i] as
   * `Math.floor(Math.random() * (i + 1))` does. The result is a permutation of the input.
   */
  method ShuffleArray<T>(items: seq<T>, picks: seq<int>) returns (shuffled: seq<T>)
    requires |picks| >= |items| - 1
    requires forall k :: 0 <= k < |items| - 1 ==> 0 <= picks[k] <= |items| - 1 - k
    ensures |shuffled| == |items| && multiset(shuffled) == multiset(items)
    ensures |items| <= 1 ==> shuffled == items
  {
    shuffled := items;
    var i := |items| - 1;
    while i > 0
      invariant -1 <= i < |items|
      invariant |shuffled| == |items|
      invariant multiset(shuffled) == multiset(items)
      invariant |items| <= 1 ==> shuffled == items
    {
      var j := picks[|items| - 1 - i];
      shuffled := shuffled[i := shuffled[j]][j := shuffled[i]];
      i := i - 1;
    }
  }

  /* ---------------------------------------------------------------- the skipped swaps */

  /** Every step from `i` down to 1 draws an index the guard accepts, so every step swaps. */
  predicate NoSwapSkipped(rule: RemainderRule, n: nat, state: int, i: int)
    decreases i
  {
    i <= 0 || (var st := NextState(rule, state); 0 <= Draw(st, i) < n && NoSwapSkipped(rule, n, st, i - 1))
  }

  /** Every generator state drawn from `i` down to 1 is negative. */
  predicate AllStatesNegative(rule: RemainderRule, state: int, i: int)
    decreases i
  {
    i <= 0 || (var st := NextState(rule, state); st < 0 && AllStatesNegative(rule, st, i - 1))
  }

  /** When every state is negative, every draw is negative, the guard skips every swap, and the list keeps its order. */
  lemma {:induction false} NegativeStatesKeepOrder<T>(s: seq<T>, state: int, i: int)
    requires AllStatesNegative(Truncating, state, i)
    ensures Pass(Truncating, s, state, i) == s
    decreases i
  {
    if i > 0 {
      var st := NextState(Truncating, state);
      DrawBounds(st, i);
      PassUnfold(Truncating, s, state, i);
      NegativeStatesKeepOrder(s, st, i - 1);
    }
  }

  lemma FirstZSteps()
    ensures HashStep(0, 'z') == 122
    ensures HashStep(122, 'z') == 3904
    ensures HashStep(3904, 'z') == 121146
  {
  }

  lemma LastZSteps()
    ensures HashStep(121146, 'z') == 3755648
    ensures HashStep(3755648, 'z') == 116425210
    ensures HashStep(116425210, 'z') == -685785664
  {
  }

  /** The six hash steps of the seed `"zzzzzz"`; the last one wraps past 2^31. */
  lemma HashOfZs()
    ensures SeedHash("zzzzzz") == -685785664
  {
    FirstZSteps();
    LastZSteps();
    assert SeedHashFrom(0, "zzzzzz") == SeedHashFrom(122, "zzzzz") by { assert "zzzzzz"[1..] == "zzzzz"; }
    assert SeedHashFrom(122, "zzzzz") == SeedHashFrom(3904, "zzzz") by { assert "zzzzz"[1..] == "zzzz"; }
    assert SeedHashFrom(3904, "zzzz") == SeedHashFrom(121146, "zzz") by { assert "zzzz"[1..] == "zzz"; }
    assert SeedHashFrom(121146, "zzz") == SeedHashFrom(3755648, "zz") by { assert "zzz"[1..] == "zz"; }
    assert SeedHashFrom(3755648, "zz") == SeedHashFrom(116425210, "z") by { assert "zz"[1..] == "z"; }
    assert SeedHashFrom(116425210, "z") == SeedHashFrom(-685785664, "") by { assert "z"[1..] == ""; }
  }

  /** From the hash of `"zzzzzz"` the generator's first two states are negative, and so is the first draw. */
  lemma StatesOfZs()
    ensures NextState(Truncating, -685785664) == -185967
    ensures NextState(Truncating, -185967) == -91850
    ensures Draw(-185967, 2) == -3
  {
  }

  /**
   * As written, the seed "zzzzzz" hashes to a negative number, both generator states of a
   * three-post shuffle are negative, and the feed comes back in its original order.
   */
  lemma NegativeSeedLeavesFeedUnshuffled()
    ensures SeedHash("zzzzzz") == -685785664
    ensures !NoSwapSkipped(Truncating, 3, SeedHash("zzzzzz"), 2)
    ensures ShufflePostsForUser([1, 2, 3], "zzzzzz") == [1, 2, 3]
  {
    HashOfZs();
    StatesOfZs();
    assert AllStatesNegative(Truncating, -685785664, 2);
    NegativeStatesKeepOrder([1, 2, 3], -685785664, 2);
  }

  /** With the floored step every draw at step `i` lies in [0, i], so the guard never skips a swap. */
  lemma {:induction false} IntendedNeverSkips(n: nat, state: int, i: int)
    requires i < n
    ensures NoSwapSkipped(Floored, n, state, i)
    decreases i
  {
    if i > 0 {
      var st := NextState(Floored, state);
      DrawBounds(st, i);
      IntendedNeverSkips(n, st, i - 1);
    }
  }
}

=== FILE: reels_page.dfy ===
/**
 * The reels page: a snap-scrolling column of full-height reels. The scroll handler derives the
 * current reel from the scroll offset by rounding `scrollTop / clientHeight`; each reel card has
 * its own like and follow toggles, and exactly the reel at the current index is active.
 *
 * Offsets are whole pixels. `Math.round` is `floor(x + 1/2)`, so the rounded quotient is computed
 * exactly as `floor((2 * scrollTop + height) / (2 * height))`. A zero height makes the quotient
 * NaN or an infinity, which no bounds check lets through; that case is `None`.
 */
module ReelsPage {
  import opened Wrappers
  import Likes

  /** `Math.round(scrollTop / height)`, or `None` when the division has no finite value. */
  function RoundedIndex(scrollTop: int, height: nat): (r: Option<int>)
    ensures height == 0 <==> r.None?
    ensures r.Some? ==> 2 * height * r.value - height <= 2 * scrollTop < 2 * height * r.value + height
  {
    if height == 0 then None
    else
      var q := (2 * scrollTop + height) / (2 * height);
      assert 2 * height * q <= 2 * scrollTop + height < 2 * height * q + 2 * height;
      Some(q)
  }

  /** Multiplying a strict step between integers by a positive height gains at least that height. */
  lemma StepTimesHeight(height: int, a: int, b: int)
    requires height > 0 && a < b
    ensures height * a + height <= height * b
  {
    var d := b - a - 1;
    assert d >= 0;
    assert height * d >= 0;
    assert height * b == height * a + height * d + height;
  }

  /** The rounding picks the unique nearest index, halves going up. */
  lemma RoundedIndexUnique(scrollTop: int, height: nat, k: int)
    requires height > 0
    requires 2 * height * k - height <= 2 * scrollTop < 2 * height * k + height
    ensures RoundedIndex(scrollTop, height) == Some(k)
  {
    var q := RoundedIndex(scrollTop, height).value;
    assert 2 * height * q - height <= 2 * scrollTop < 2 * height * q + height;
    if q < k {
      StepTimesHeight(2 * height, q, k);
    } else if q > k {
      StepTimesHeight(2 * height, k, q);
    }
  }

  /** A container resting exactly on reel `k` reports reel `k`. */
  lemma SnappedOffsetGivesIndex(k: int, height: nat)
    requires height > 0
    ensures RoundedIndex(k * height, height) == Some(k)
  {
    RoundedIndexUnique(k * height, height, k);
  }

  /** `handleScroll`: the rounded index replaces the current one only when it differs and names a reel. */
  function HandleScroll(current: int, n: int, scrollTop: int, height: nat): (r: int)
    ensures r != current ==> RoundedIndex(scrollTop, height) == Some(r) && 0 <= r < n
    ensures (match RoundedIndex(scrollTop, height)
             case Some(k) => 0 <= k < n ==> r == k
             case None => r == current)
    ensures 0 <= current < n ==> 0 <= r < n
  {
    match RoundedIndex(scrollTop, height)
    case Some(k) => if k != current && k >= 0 && k < n then k else current
    case None => current
  }

  /** A scroll past the end of the list (overscroll) keeps the current reel. */
  lemma OverscrollKeepsReel(current: int, n: int, height: nat)
    requires height > 0 && n >= 0
    ensures HandleScroll(current, n, n * height, height) == current
  {
    SnappedOffsetGivesIndex(n, height);
  }

  /** Exactly the reel at the current index is active. */
  function ActiveFlags(n: nat, current: int): (flags: seq<bool>)
    ensures |flags| == n
    ensures forall k :: 0 <= k < n ==> (flags[k] <==> k == current)
  {
    seq(n, k => k == current)
  }

  lemma AtMostOneActive(n: nat, current: int, a: int, b: int)
    requires 0 <= a < n && 0 <= b < n
    requires ActiveFlags(n, current)[a] && ActiveFlags(n, current)[b]
    ensures a == b
  {
  }

  /** One reel card: its like state and whether the viewer follows its author. */
  datatype Card = Card(like: Likes.LikeState, following: bool)

  /** `handleLike`: the shared toggle, leaving the follow state alone. */
  function Like(c: Card): (r: Card)
    ensures r.like == Likes.Toggle(c.like) && r.following == c.following
  {
    c.(like := Likes.Toggle(c.like))
  }

  /** `handleFollow`: flips the follow state only. */
  function Follow(c: Card): (r: Card)
    ensures r.following == !c.following && r.like == c.like
  {
    c.(following := !c.following)
  }

  /** The Follow button is rendered only while the viewer does not follow the author. */
  predicate FollowShown(c: Card) {
    !c.following
  }

  /** The button hides itself once pressed, and nothing on the card offers to undo it. */
  lemma FollowHidesButton(c: Card)
    requires FollowShown(c)
    ensures !FollowShown(Follow(c)) && Follow(Follow(c)) == c
  {
  }
}

=== FILE: sign_in.dfy ===
/**
 * The sign-in form: two checks into an error map, a submit whose outcome depends on the sign-in
 * call (a boolean input here), edits that clear the edited field's message, and closing.
 */
module SignInForm {
  import opened Wrappers
  import opened JsString

  datatype Field = EmailOrUsername | Password

  datatype Credentials = Credentials(emailOrUsername: string, password: string)

  type Errors = map<Field, string>

  datatype Modal = Modal(form: Credentials, errors: Errors, loading: bool)

  const InvalidCredentials: string := "Invalid credentials. Please check your email and password."

  function EmptyModal(): Modal {
    Modal(Credentials("", ""), map[], false)
  }

  function IdentifierError(s: string): (r: Option<string>)
    ensures r.None? <==> Trim(s) != ""
  {
    if Trim(s) == "" then Some("Email or username is required") else None
  }

  /** Sign-in asks for 6 characters, fewer than sign-up's 8. */
  function PasswordError(p: string): (r: Option<string>)
    ensures r.None? <==> |p| >= 6
  {
    if p == "" then Some("Password is required")
    else if |p| < 6 then Some("Password must be at least 6 characters")
    else None
  }

  function FieldError(c: Credentials, field: Field): Option<string> {
    match field
    case EmailOrUsername => IdentifierError(c.emailOrUsername)
    case Password => PasswordError(c.password)
  }

  function Validate(c: Credentials): (errors: Errors)
    ensures forall field :: field in errors <==> FieldError(c, field).Some?
    ensures forall field :: field in errors ==> errors[field] == FieldError(c, field).value
  {
    map field | field in {EmailOrUsername, Password} && FieldError(c, field).Some? :: FieldError(c, field).value
  }

  predicate Acceptable(c: Credentials) {
    Trim(c.emailOrUsername) != "" && |c.password| >= 6
  }

  /** `validateForm` returns true exactly when the identifier is not blank and the password has 6 characters. */
  lemma ValidateIffAcceptable(c: Credentials)
    ensures Validate(c) == map[] <==> Acceptable(c)
  {
    var e := Validate(c);
    if e == map[] {
      assert EmailOrUsername !in e && Password !in e;
    } else {
      var field :| field in e;
    }
  }

  /** The state after a submit, the call made to `onSignIn` if any, and whether `onClose` was called. */
  datatype Outcome = Outcome(modal: Modal, signInCall: Option<Credentials>, closed: bool)

  /**
   * `handleSubmit`: an invalid form shows its errors and calls nothing; a valid one calls
   * `onSignIn`, then on success closes and resets the form and errors, and on failure shows one
   * error, on the password. Either way loading ends false.
   */
  function Submit(m: Modal, signInOk: bool): (r: Outcome)
    ensures !Acceptable(m.form) ==> r == Outcome(m.(errors := Validate(m.form)), None, false)
    ensures Acceptable(m.form) ==> r.signInCall == Some(m.form) && !r.modal.loading
    ensures Acceptable(m.form) && signInOk ==> r.closed && r.modal == EmptyModal()
    ensures Acceptable(m.form) && !signInOk ==>
              !r.closed && r.modal.form == m.form && r.modal.errors == map[Password := InvalidCredentials]
  {
    ValidateIffAcceptable(m.form);
    var errors := Validate(m.form);
    if errors != map[] then Outcome(m.(errors := errors), None, false)
    else if signInOk then Outcome(EmptyModal(), Some(m.form), true)
    else Outcome(Modal(m.form, map[Password := InvalidCredentials], false), Some(m.form), false)
  }

  predicate Shown(errors: Errors, field: Field) {
    field in errors && errors[field] != ""
  }

  function SetField(c: Credentials, field: Field, value: string): Credentials {
    match field
    case EmailOrUsername => c.(emailOrUsername := value)
    case Password => c.(password := value)
  }

  /** `handleInputChange`: stores the value and blanks only that field's shown message. */
  function HandleInputChange(m: Modal, field: Field, value: string): (r: Modal)
    ensures r.form == SetField(m.form, field, value) && r.loading == m.loading
    ensures !Shown(r.errors, field)
    ensures r.errors.Keys == m.errors.Keys
    ensures forall other :: other != field && other in m.errors ==> r.errors[other] == m.errors[other]
  {
    Modal(SetField(m.form, field, value), if Shown(m.errors, field) then m.errors[field := ""] else m.errors, m.loading)
  }

  /** `handleClose`: back to the empty form with no errors and no loading, whatever the state. */
  function HandleClose(m: Modal): (r: Modal)
    ensures r.form == Credentials("", "") && r.errors == map[] && !r.loading
  {
    EmptyModal()
  }

  /** After a failed sign-in, typing a new password removes the credentials message from the screen. */
  lemma RetypingClearsFailure(m: Modal, p: string)
    requires Acceptable(m.form)
    ensures var failed := Submit(m, false).modal;
            Shown(failed.errors, Password) && !Shown(HandleInputChange(failed, Password, p).errors, Password)
  {
  }

  /** A failed sign-in followed by an unchanged resubmit that succeeds closes the modal with everything reset. */
  lemma RetryAfterFailure(m: Modal)
    requires Acceptable(m.form)
    ensures Submit(Submit(m, false).modal, true).closed
    ensures Submit(Submit(m, false).modal, true).modal == HandleClose(m)
  {
  }
}

=== FILE: sign_up.dfy ===
/**
 * The sign-up form: six fields checked one after another into an error map, a submit that reaches
 * the sign-up callback only with an empty map, and edits that clear the edited field's message.
 */
module SignUpForm {
  import opened Wrappers
  import opened JsString
  import opened FormRules

  datatype Field = Username | DisplayName | Email | Password | ConfirmPassword | AcceptTerms

  datatype Form = Form(username: string, displayName: string, email: string, password: string,
                       confirmPassword: string, acceptTerms: bool)

  type Errors = map<Field, string>

  function EmptyForm(): Form {
    Form("", "", "", "", "", false)
  }

  /** The username rule: blank, then shorter than 3, then outside `[a-zA-Z0-9_]`; at most one message. */
  function UsernameError(u: string): (r: Option<string>)
    ensures r.None? <==> |u| >= 3 && IsUsernameText(u)
    ensures r == Some("Username is required") <==> Trim(u) == ""
  {
    if Trim(u) == "" then Some("Username is required")
    else if |u| < 3 then Some("Username must be at least 3 characters")
    else if !IsUsernameText(u) then Some("Username can only contain letters, numbers, and underscores")
    else (UsernameTextIsTrimmed(u); None)
  }

  /** The display name must not be blank and its raw text must have at least 2 characters. */
  function DisplayNameError(d: string): (r: Option<string>)
    ensures r.None? <==> Trim(d) != "" && |d| >= 2
  {
    if Trim(d) == "" then Some("Display name is required")
    else if |d| < 2 then Some("Display name must be at least 2 characters")
    else None
  }

  function EmailError(e: string): (r: Option<string>)
    ensures r.None? <==> EmailPattern(e)
  {
    if Trim(e) == "" then Some("Email is required")
    else if !EmailPattern(e) then Some("Please enter a valid email address")
    else None
  }

  /** The password is not trimmed: any 8 characters will do, white space included. */
  function PasswordError(p: string): (r: Option<string>)
    ensures r.None? <==> |p| >= 8
  {
    if p == "" then Some("Password is required")
    else if |p| < 8 then Some("Password must be at least 8 characters")
    else None
  }

  function ConfirmError(p: string, c: string): (r: Option<string>)
    ensures r.None? <==> c != "" && c == p
  {
    if c == "" then Some("Please confirm your password")
    else if p != c then Some("Passwords do not match")
    else None
  }

  function TermsError(accepted: bool): (r: Option<string>)
    ensures r.None? <==> accepted
  {
    if !accepted then Some("You must accept the terms and policies") else None
  }

  function FieldError(f: Form, field: Field): Option<string> {
    match field
    case Username => UsernameError(f.username)
    case DisplayName => DisplayNameError(f.displayName)
    case Email => EmailError(f.email)
    case Password => PasswordError(f.password)
    case ConfirmPassword => ConfirmError(f.password, f.confirmPassword)
    case AcceptTerms => TermsError(f.acceptTerms)
  }

  const AllFields: set<Field> := {Username, DisplayName, Email, Password, ConfirmPassword, AcceptTerms}

  lemma AllFieldsComplete()
    ensures forall field: Field :: field in AllFields
  {
    forall field: Field
      ensures field in AllFields
    {
      match field
      case Username =>
      case DisplayName =>
      case Email =>
      case Password =>
      case ConfirmPassword =>
      case AcceptTerms =>
    }
  }

  /** `validateForm`'s error map: one entry per failing field, holding that field's message. */
  function Validate(f: Form): (errors: Errors)
    ensures forall field :: field in errors <==> FieldError(f, field).Some?
    ensures forall field :: field in errors ==> errors[field] == FieldError(f, field).value
  {
    AllFieldsComplete();
    map field | field in AllFields && FieldError(f, field).Some? :: FieldError(f, field).value
  }

  /** What the form demands, stated field by field without the order of the checks. */
  predicate Acceptable(f: Form) {
    |f.username| >= 3 && IsUsernameText(f.username) &&
    Trim(f.displayName) != "" && |f.displayName| >= 2 &&
    EmailPattern(f.email) &&
    |f.password| >= 8 && f.confirmPassword == f.password &&
    f.acceptTerms
  }

  /** The six rules all pass exactly when the form is acceptable. */
  lemma AllFieldsPassIffAcceptable(f: Form)
    ensures (FieldError(f, Username).None? && FieldError(f, DisplayName).None? && FieldError(f, Email).None? &&
             FieldError(f, Password).None? && FieldError(f, ConfirmPassword).None? && FieldError(f, AcceptTerms).None?)
            <==> Acceptable(f)
  {
  }

  /** `validateForm` returns true, i.e. the error map is empty, exactly for acceptable forms. */
  lemma ValidateIffAcceptable(f: Form)
    ensures Validate(f) == map[] <==> Acceptable(f)
  {
    var e := Validate(f);
    AllFieldsPassIffAcceptable(f);
    if Acceptable(f) {
      assert e.Keys == {} by {
        forall field | field in e
          ensures false
        {
          match field
          case Username =>
          case DisplayName =>
          case Email =>
          case Password =>
          case ConfirmPassword =>
          case AcceptTerms =>
        }
      }
    } else if FieldError(f, Username).Some? {
      assert Username in e;
    } else if FieldError(f, DisplayName).Some? {
      assert DisplayName in e;
    } else if FieldError(f, Email).Some? {
      assert Email in e;
    } else if FieldError(f, Password).Some? {
      assert Password in e;
    } else if FieldError(f, ConfirmPassword).Some? {
      assert ConfirmPassword in e;
    } else {
      assert AcceptTerms in e;
    }
  }

  datatype UserData = UserData(username: string, displayName: string, email: string, password: string)

  /**
   * The state after a submit: the error map shown, the loading flag, and the data the 1500 ms
   * timer will hand to `onSignUp`, captured when the form was submitted, if any.
   */
  datatype Submitted = Submitted(errors: Errors, loading: bool, signUp: Option<UserData>)

  /** `handleSubmit`: validates; an acceptable form starts loading and schedules `onSignUp` with its raw fields. */
  function Submit(f: Form, loading: bool): (r: Submitted)
    ensures r.errors == Validate(f)
    ensures r.signUp.Some? <==> Acceptable(f)
    ensures r.signUp.Some? ==> r.signUp.value == UserData(f.username, f.displayName, f.email, f.password)
    ensures !Acceptable(f) ==> r.loading == loading
  {
    ValidateIffAcceptable(f);
    var errors := Validate(f);
    if errors != map[] then Submitted(errors, loading, None)
    else Submitted(errors, true, Some(UserData(f.username, f.displayName, f.email, f.password)))
  }

  /** Every field `onSignUp` receives passes its rule: the username and e-mail are not blank, the password is long enough. */
  lemma SignUpDataPassesRules(f: Form, loading: bool)
    requires Submit(f, loading).signUp.Some?
    ensures var u := Submit(f, loading).signUp.value;
            Trim(u.username) == u.username && IsUsernameText(u.username) && Trim(u.email) != "" && |u.password| >= 8
  {
    UsernameTextIsTrimmed(f.username);
    EmailPatternNotBlank(f.email);
  }

  /** What the sign-up timer does when it fires: `onSignUp` receives its data, loading stops, and `onClose` is called. */
  datatype Completion = Completion(signedUp: UserData, loading: bool, closeRequested: bool)

  /** The timer of a submit fires; a submit that scheduled nothing has no timer. */
  function Complete(s: Submitted): (r: Option<Completion>)
    ensures r.Some? <==> s.signUp.Some?
    ensures r.Some? ==> r.value.signedUp == s.signUp.value && !r.value.loading && r.value.closeRequested
  {
    if s.signUp.None? then None else Some(Completion(s.signUp.value, false, true))
  }

  /**
   * Submitting and waiting for the timer signs up exactly the acceptable forms, with their raw
   * fields, and ends with loading stopped and the modal asked to close.
   */
  lemma SubmitThenComplete(f: Form, loading: bool)
    ensures Complete(Submit(f, loading)).Some? <==> Acceptable(f)
    ensures Acceptable(f) ==>
              Complete(Submit(f, loading)) == Some(Completion(UserData(f.username, f.displayName, f.email, f.password), false, true))
  {
  }

  datatype Edit = SetText(field: Field, value: string) | SetTerms(accepted: bool)

  function EditedField(e: Edit): Field {
    match e
    case SetText(field, _) => field
    case SetTerms(_) => AcceptTerms
  }

  /** Writes the new value into its field; text written into the terms box counts as accepted when it is not empty. */
  function ApplyEdit(f: Form, e: Edit): Form {
    match e
    case SetTerms(b) => f.(acceptTerms := b)
    case SetText(field, v) =>
      match field
      case Username => f.(username := v)
      case DisplayName => f.(displayName := v)
      case Email => f.(email := v)
      case Password => f.(password := v)
      case ConfirmPassword => f.(confirmPassword := v)
      case AcceptTerms => f.(acceptTerms := v != "")
  }

  /** A message is on screen for a field when the map holds non-empty text for it. */
  predicate Shown(errors: Errors, field: Field) {
    field in errors && errors[field] != ""
  }

  /** `handleInputChange`: applies the edit and blanks the edited field's message if one is shown. */
  function HandleInputChange(f: Form, errors: Errors, e: Edit): (r: (Form, Errors))
    ensures r.0 == ApplyEdit(f, e)
    ensures !Shown(r.1, EditedField(e))
    ensures r.1.Keys == errors.Keys
    ensures forall other :: other != EditedField(e) && other in errors ==> r.1[other] == errors[other]
  {
    var field := EditedField(e);
    (ApplyEdit(f, e), if Shown(errors, field) then errors[field := ""] else errors)
  }

  /**
   * Each rule reads only its own field, except that the confirmation also reads the password: an
   * edit can change the verdict of the edited field and, for a password edit, of the confirmation.
   */
  lemma EditIsLocal(f: Form, e: Edit, other: Field)
    requires other != EditedField(e)
    requires !(EditedField(e) == Password && other == ConfirmPassword)
    ensures FieldError(ApplyEdit(f, e), other) == FieldError(f, other)
  {
  }

  /** Changing the password alone can break a confirmation that matched. */
  lemma PasswordEditBreaksConfirmation()
    ensures var f := Form("alice", "Alice", "a@b.c", "password1", "password1", true);
            FieldError(f, ConfirmPassword).None? &&
            FieldError(ApplyEdit(f, SetText(Password, "password2")), ConfirmPassword) == Some("Passwords do not match")
  {
  }

  /**
   * A form whose text fields are all blank, with an empty password and confirmation and the terms
   * unticked, fails every rule, and its username fails as blank.
   */
  lemma BlankFormFailsEverywhere(f: Form)
    requires Trim(f.username) == "" && Trim(f.displayName) == "" && Trim(f.email) == ""
    requires f.password == "" && f.confirmPassword == "" && !f.acceptTerms
    ensures forall field :: field in Validate(f)
    ensures Validate(f)[Username] == "Username is required"
  {
    if EmailPattern(f.email) {
      EmailPatternNotBlank(f.email);
    }
    forall field
      ensures FieldError(f, field).Some?
    {
      match field
      case Username =>
      case DisplayName =>
      case Email =>
      case Password =>
      case ConfirmPassword =>
      case AcceptTerms =>
    }
  }

  /** The empty form fails every rule, and its username fails as blank. */
  lemma EmptyFormFailsEverywhere()
    ensures forall field :: field in Validate(EmptyForm())
    ensures Validate(EmptyForm())[Username] == "Username is required"
  {
    assert Trim("") == "";
    BlankFormFailsEverywhere(EmptyForm());
  }
}

=== FILE: snap_pager.dfy ===
/**
 * The snap pager of the reels explorer and of the mobile clips page: `scrollToIndex` (named
 * `scrollToClip` on the mobile page) refuses to start while a scroll is in flight, and otherwise
 * stores the index, requests `index * height` and sets the lock a timeout releases (500 ms in the
 * source). Swipes need strictly more than 50 pixels. The container's height is an input, absent
 * when the container is not mounted.
 */
module SnapPager {
  import opened Wrappers
  import opened PagerStep
  import ClipsPage

  datatype Pager = Pager(index: int, scrolling: bool)

  datatype Effect = Effect(pager: Pager, scrollTarget: Option<int>)

  /** `scrollToIndex`: a no-op without a container or while scrolling; otherwise index, target and lock together. */
  function ScrollToIndex(p: Pager, height: Option<nat>, index: int): (e: Effect)
    ensures height.None? || p.scrolling ==> e == Effect(p, None)
    ensures height.Some? && !p.scrolling ==> e == Effect(Pager(index, true), Some(index * height.value))
  {
    if height.None? || p.scrolling then Effect(p, None)
    else Effect(Pager(index, true), Some(index * height.value))
  }

  /** The step both handlers take once an event is accepted. */
  function Advance(p: Pager, n: int, height: Option<nat>, delta: int): Effect {
    if delta > 0 && p.index < n - 1 then ScrollToIndex(p, height, p.index + 1)
    else if delta < 0 && p.index > 0 then ScrollToIndex(p, height, p.index - 1)
    else Effect(p, None)
  }

  /** The wheel listener, attached only once the container is mounted. */
  function Wheel(p: Pager, n: int, height: Option<nat>, deltaY: int): (e: Effect)
    ensures height.None? || p.scrolling ==> e == Effect(p, None)
    ensures !p.scrolling && height.Some? ==> e.pager.index == Stepped(p.index, n, deltaY)
    ensures 0 <= p.index < n ==> 0 <= e.pager.index < n
    ensures e.pager.index != p.index ==> e.pager.scrolling && e.scrollTarget == Some(e.pager.index * height.value)
  {
    if height.None? || p.scrolling then Effect(p, None) else Advance(p, n, height, deltaY)
  }

  /** A swipe counts only when it covers strictly more than 50 pixels. */
  predicate FarEnough(deltaY: int) {
    Abs(deltaY) > 50
  }

  /** The touch-end handler: ignored while scrolling and for short swipes; otherwise one step. */
  function Swipe(p: Pager, n: int, height: Option<nat>, deltaY: int): (e: Effect)
    ensures p.scrolling || !FarEnough(deltaY) || height.None? ==> e == Effect(p, None)
    ensures !p.scrolling && FarEnough(deltaY) && height.Some? ==> e.pager.index == Stepped(p.index, n, deltaY)
    ensures 0 <= p.index < n ==> 0 <= e.pager.index < n
    ensures e.pager.index != p.index ==> e.pager.scrolling && e.scrollTarget == Some(e.pager.index * height.value)
  {
    if p.scrolling || !FarEnough(deltaY) then Effect(p, None) else Advance(p, n, height, deltaY)
  }

  function ScrollSettled(p: Pager): (r: Pager)
    ensures r.index == p.index && !r.scrolling
  {
    p.(scrolling := false)
  }

  /** A 50-pixel swipe moves the desktop clips pager but not this one: the thresholds differ by one pixel. */
  lemma FiftyPixelsDiffer()
    ensures ClipsPage.QuickSwipe(50, 0) && !FarEnough(50) && FarEnough(51)
  {
  }

  /** Of two events in quick succession, the second is refused while the first scroll is in flight. */
  lemma SecondEventRefused(p: Pager, n: int, h: nat, d1: int, d2: int)
    requires !p.scrolling && FarEnough(d1) && Stepped(p.index, n, d1) != p.index
    ensures var first := Swipe(p, n, Some(h), d1).pager;
            Swipe(first, n, Some(h), d2).pager == first && Wheel(first, n, Some(h), d2).pager == first
  {
  }
}

=== FILE: stories.dfy ===
/**
 * The stories page: a grid of story cards and a viewer over them. The only state is the index of
 * the open story, or none while the viewer is closed; previous and next move it one step inside
 * the list, and the viewer draws one progress bar per story, filled up to the open one.
 */
module Stories {
  import opened Wrappers

  /** `selectedStoryIndex` over a list of `n` stories. */
  datatype Viewer = Viewer(n: nat, selected: Option<int>)

  /** The index is absent or names a story. */
  predicate Valid(v: Viewer) {
    v.selected.Some? ==> 0 <= v.selected.value < v.n
  }

  function Initial(n: nat): (v: Viewer)
    ensures Valid(v) && v.selected.None?
  {
    Viewer(n, None)
  }

  /** `handleStoryClick`: the cards are drawn from the list, so a click names one of its stories. */
  function StoryClick(v: Viewer, index: int): (r: Viewer)
    requires 0 <= index < v.n
    ensures Valid(r) && r.selected == Some(index) && r.n == v.n
  {
    v.(selected := Some(index))
  }

  /** `handleNext`: one step forward unless the viewer is closed or at the last story. */
  function Next(v: Viewer): (r: Viewer)
    ensures r.n == v.n
    ensures v.selected.Some? && v.selected.value < v.n - 1 ==> r.selected == Some(v.selected.value + 1)
    ensures !(v.selected.Some? && v.selected.value < v.n - 1) ==> r == v
    ensures Valid(v) ==> Valid(r)
  {
    if v.selected.Some? && v.selected.value < v.n - 1 then v.(selected := Some(v.selected.value + 1)) else v
  }

  /** `handlePrevious`: one step back unless the viewer is closed or at the first story. */
  function Previous(v: Viewer): (r: Viewer)
    ensures r.n == v.n
    ensures v.selected.Some? && v.selected.value > 0 ==> r.selected == Some(v.selected.value - 1)
    ensures !(v.selected.Some? && v.selected.value > 0) ==> r == v
    ensures Valid(v) ==> Valid(r)
  {
    if v.selected.Some? && v.selected.value > 0 then v.(selected := Some(v.selected.value - 1)) else v
  }

  /** `handleClose`. */
  function Close(v: Viewer): (r: Viewer)
    ensures r.selected.None? && r.n == v.n && Valid(r)
  {
    v.(selected := None)
  }

  /** The viewer is mounted exactly while an index is selected. */
  predicate ViewerShown(v: Viewer) {
    v.selected.Some?
  }

  /** One flag per story bar: filled for the open story and every one before it. */
  function ProgressBars(n: nat, current: int): (bars: seq<bool>)
    ensures |bars| == n
    ensures forall k :: 0 <= k < n ==> (bars[k] <==> k <= current)
  {
    seq(n, k => k <= current)
  }

  /** The Previous control is disabled on the first story and Next on the last. */
  predicate PreviousDisabled(current: int) {
    current == 0
  }

  predicate NextDisabled(n: nat, current: int) {
    current == n - 1
  }

  /** Inside a valid viewer, a disabled control is exactly one whose handler would do nothing. */
  lemma DisabledMeansNoOp(v: Viewer)
    requires Valid(v) && ViewerShown(v)
    ensures NextDisabled(v.n, v.selected.value) <==> Next(v) == v
    ensures PreviousDisabled(v.selected.value) <==> Previous(v) == v
  {
  }

  /** Moving forward then back (away from the last story) returns to the same story. */
  lemma NextThenPrevious(v: Viewer)
    requires Valid(v) && ViewerShown(v) && !NextDisabled(v.n, v.selected.value)
    ensures Previous(Next(v)) == v
  {
  }

  /** The number of filled bars is the open story's position plus one. */
  lemma {:induction false} FilledBarsCount(n: nat, current: int)
    requires 0 <= current < n
    ensures Filled(ProgressBars(n, current)) == current + 1
  {
    FilledPrefix(ProgressBars(n, current), current + 1);
  }

  /** The number of filled bars in a list. */
  function Filled(bars: seq<bool>): (c: nat)
    ensures c <= |bars|
  {
    if bars == [] then 0 else (if bars[0] then 1 else 0) + Filled(bars[1..])
  }

  /** A list whose first `k` entries alone are set has `k` filled entries. */
  lemma {:induction false} FilledPrefix(bars: seq<bool>, k: nat)
    requires k <= |bars|
    requires forall i :: 0 <= i < |bars| ==> (bars[i] <==> i < k)
    ensures Filled(bars) == k
    decreases |bars|
  {
    if bars != [] {
      var rest := bars[1..];
      if k > 0 {
        FilledPrefix(rest, k - 1);
      } else {
        FilledPrefix(rest, 0);
      }
    }
  }
}

=== FILE: wrappers.dfy ===
/** The optional value used wherever the application reads `null`, `undefined` or "not found". */
module Wrappers {

  datatype Option<+T> = None | Some(value: T) {

    /** Returns the value held in Some, or the default when None. */
    function GetOr(default: T): T {
      match this
      case Some(v) => v
      case None => default
    }
  }
}
